=== FILE: README.md ===
# Transaction ingestion and query service: a Dafny model

This project models the core of a Spring Boot service that imports bank transactions
from a pipe-delimited file and serves them over a small REST API. It proves properties
of that model. The model covers four pieces.

- **The import step.** The reader skips the first line and splits every other line on
  `|` into exactly six fields. It parses the account number, the amount (a
  `BigDecimal`), the date, the time and the customer id into a fresh transaction.
  The processor then handles each record in order:
  1. It builds the five-field key string.
  2. It drops a key already seen in the run.
  3. It asks the store whether the key exists, and drops the record if it does.
  4. It marks the record processed.
  5. It rejects a negative amount with a skippable error.

  Read failures and rejections are skipped, up to `Integer.MAX_VALUE` skips in all.
  A run is a fold over the data lines that threads the seen set. It collects the
  accepted records (what the writer receives), the filtered ones and the skip log.
  The step with its skip limit (`Ingestion.Execute`) is that run when it skips at most
  `Integer.MAX_VALUE` items, and fails otherwise.
- **The query filters.** These are the optional equality, range and case-insensitive
  `LIKE` filters, the two aggregators, and `normalize`.
- **The update path.** It covers request validation (`@NotBlank`, `@Size(max = 255)`),
  the service's lookup-update-save over a map from id to record, the `@Version` counter,
  and the `fromEntity` projection. The paged, filtered listing and the two endpoints
  are modelled too.
- **The global exception handler.** One total function maps an exception kind to
  status, error text and message.

The project also models the Java library behaviour these pieces depend on:
`Long.parseLong` and `Long.toString`, `LocalDate.parse`, `LocalTime.parse` and
`LocalDateTime.toString`, `BigDecimal`'s string constructor, `toString`, `signum`
and `compareTo`, and `String.trim`, `toLowerCase`, `replace` and `length`.

Modules, one concept each:
- `Results` (Option / Result)
- `Digits`, `JavaLong`, `JavaString`, `DateTime`, `Decimals` (the library behaviour above)
- `Delimited` (the split and join on `|`)
- `Transactions` (the entity), `NaturalKeys` (the dedup key)
- `LineMapping` (tokenizer and field-set mapper)
- `Processing` (the item processor)
- `Ingestion` (the run)
- `Specifications` (the filters)
- `UpdateRequests`, `Dtos`, `Service`, `Controller`
- `ErrorHandling` (the exception handler)

Points where the program's behaviour is easy to misread:
- **Time format.** `LocalTime.parse` accepts `hh:mm` as well as `hh:mm:ss`, so the
  model accepts both.
- **Field reading.** `FieldSet.readString`, `readLong` and `readBigDecimal` trim the
  token first, and `readBigDecimal` also drops the Locale.US grouping separator `,`.
  So ` Coffee ` is stored as `Coffee`, and `1,000.50` reads as 1000.50.
- **Empty line.** The delimited tokenizer yields no token at all for an empty line, so
  it fails the six-token check with zero tokens.
- **Version counter.** The `@Version` field is a `java.lang.Integer`, so the model
  wraps it from 2^31-1 to -2^31. It moves only when the flush finds the record dirty:
  an update to the description the record already has writes nothing and keeps the
  version.
- **Version in the update response.** `updateTransaction` builds its DTO from the
  managed entity before the transaction commits. The DTO therefore carries the
  version as read, and the stored version moves on at commit.
- **Description length.** `@Size` counts `String.length()`, the UTF-16 code units, so a
  character outside the Basic Multilingual Plane counts twice.

## Model

| member | source | states |
|---|---|---|
| Ingestion.HeaderIgnored | src/main/java/com/maybank/maybank_assessment/batch/BatchConfig.java:57 | the first line is never read: replacing it by anything gives the same run, which is the run over the remaining lines |
| LineMapping.Tokenize | src/main/java/com/maybank/maybank_assessment/batch/BatchConfig.java:67-69 | a line yields exactly six `|`-free tokens that join back to the line, and fails with an incorrect-token-count error exactly when it does not hold five delimiters; the error reports zero tokens for the empty line and one more than the delimiters otherwise |
| Delimited.JoinSplit | src/main/java/com/maybank/maybank_assessment/batch/BatchConfig.java:67 | splitting loses nothing: joining the tokens with the delimiter gives back the line |
| Delimited.SplitJoin | src/main/java/com/maybank/maybank_assessment/batch/BatchConfig.java:67 | delimiter-free fields joined by the delimiter split back into the same fields |
| Delimited.TokenCount | src/main/java/com/maybank/maybank_assessment/batch/BatchConfig.java:67-69 | the empty line has no token; any other line has one more token than it has delimiters, empty tokens included, and the tokens join back to it |
| LineMapping.ReadLong | src/main/java/com/maybank/maybank_assessment/batch/BatchConfig.java:81 | a number field is read exactly when its trimmed token parses as a long, and then as that long, within the 64-bit range; otherwise the error names the field and the trimmed text |
| LineMapping.ReadDecimal | src/main/java/com/maybank/maybank_assessment/batch/BatchConfig.java:82 | an amount field is read exactly when its trimmed token, with every `,` removed, parses as a BigDecimal, and then as that BigDecimal; otherwise the error names the field and the trimmed text |
| LineMapping.ReadDate | src/main/java/com/maybank/maybank_assessment/batch/BatchConfig.java:85 | a date field is read exactly when its trimmed token parses as a date, and then as that date, a real calendar date; otherwise the error carries the trimmed text |
| LineMapping.ReadTime | src/main/java/com/maybank/maybank_assessment/batch/BatchConfig.java:86 | a time field is read exactly when its trimmed token parses as a time, and then as that time, a valid time of day; otherwise the error carries the trimmed text |
| LineMapping.MapFieldSet | src/main/java/com/maybank/maybank_assessment/batch/BatchConfig.java:79-90 | the tokens map exactly when all five reads succeed; the record is fresh and holds the read account, amount, date and time, customer and the trimmed description; a failed account read, or else a failed amount read, is the line's error |
| LineMapping.MapLine | src/main/java/com/maybank/maybank_assessment/batch/BatchConfig.java:63-73 | a line with the wrong number of delimiters fails with the token-count error whatever its content (zero tokens for the empty line); a line with five delimiters maps exactly as its six split fields do; a mapped record is fresh, valid, and has a trimmed, `|`-free description |
| LineMapping.MapFormatLine | src/main/java/com/maybank/maybank_assessment/batch/BatchConfig.java:79-90 | every record the mapper can produce (fresh, long-range ids, valid timestamp, a trimmed `|`-free description) is mapped back from its own data line: the mapper is onto exactly that range |
| LineMapping.ReadFormatFields | src/main/java/com/maybank/maybank_assessment/batch/BatchConfig.java:79-90 | each printed field of a record reads back as the value it prints, through the trimming and the removal of `,` |
| JavaString.TrimSolid | src/main/java/com/maybank/maybank_assessment/batch/BatchConfig.java:81-88 | a string without a character trim removes, such as a printed number, date or time, is left as it is |
| JavaString.Remove | src/main/java/com/maybank/maybank_assessment/batch/BatchConfig.java:82 | removing `,` leaves exactly the other characters, and no `,` |
| JavaString.RemoveAppend | src/main/java/com/maybank/maybank_assessment/batch/BatchConfig.java:82 | removal works piece by piece, so the kept characters keep their order, and one character is dropped exactly when it is `,` |
| LineMapping.UngroupedText | src/main/java/com/maybank/maybank_assessment/batch/BatchConfig.java:82 | removing the separator from `1,000.50` gives `1000.50` |
| LineMapping.GroupedAmount | src/main/java/com/maybank/maybank_assessment/batch/BatchConfig.java:82 | an amount field `1,000.50` reads as 1000.50 at scale 2, which the BigDecimal constructor alone refuses |
| JavaString.RemoveAbsent | src/main/java/com/maybank/maybank_assessment/batch/BatchConfig.java:82 | a token without `,` is passed on unchanged |
| JavaLong.Parse | src/main/java/com/maybank/maybank_assessment/batch/BatchConfig.java:81 | `Long.parseLong` succeeds exactly on signed digit strings whose value fits in 64 bits, and then yields that value |
| JavaLong.ToString | src/main/java/com/maybank/maybank_assessment/batch/BatchConfig.java:99 | a printed long is a minus sign only for negative values, then digits, ending in a digit |
| JavaLong.ParseToString | src/main/java/com/maybank/maybank_assessment/batch/BatchConfig.java:81 | every long parses back from its printed form |
| JavaLong.ToStringInjective | src/main/java/com/maybank/maybank_assessment/batch/BatchConfig.java:99 | two longs print the same exactly when they are equal |
| JavaLong.ParseRejectsNonDigit | src/main/java/com/maybank/maybank_assessment/batch/BatchConfig.java:81 | a non-digit after the first position makes the number field unparsable |
| DateTime.ParseDate | src/main/java/com/maybank/maybank_assessment/batch/BatchConfig.java:85 | a parsed date is a valid calendar date written as ten characters with dashes at positions 4 and 7 |
| DateTime.ParseTime | src/main/java/com/maybank/maybank_assessment/batch/BatchConfig.java:86 | a parsed time is a valid time of day written as hh:mm or hh:mm:ss |
| DateTime.RejectsMonthThirteen | src/main/java/com/maybank/maybank_assessment/batch/BatchConfig.java:85 | month 13 is not a date |
| DateTime.RejectsCommonYearLeapDay | src/main/java/com/maybank/maybank_assessment/batch/BatchConfig.java:85 | 29 February of a common year is rejected, century years included |
| DateTime.AcceptsLeapDay | src/main/java/com/maybank/maybank_assessment/batch/BatchConfig.java:85 | 29 February of a leap year is accepted |
| DateTime.ParseDateToString | src/main/java/com/maybank/maybank_assessment/batch/BatchConfig.java:85 | every valid date parses back from its printed form |
| DateTime.ParseTimeToString | src/main/java/com/maybank/maybank_assessment/batch/BatchConfig.java:86 | every valid time parses back from its printed form, whether or not the seconds are printed |
| DateTime.ToStringInjective | src/main/java/com/maybank/maybank_assessment/batch/BatchConfig.java:102 | distinct valid timestamps print differently in the key |
| DateTime.ToStringHasNoBar | src/main/java/com/maybank/maybank_assessment/batch/BatchConfig.java:102 | a printed timestamp never contains the key delimiter or a character trim removes |
| Decimals.Parse | src/main/java/com/maybank/maybank_assessment/batch/BatchConfig.java:82 | a leading minus gives a non-positive amount; no sign or a plus gives a non-negative one |
| Decimals.ParseRejectsNoDigit | src/main/java/com/maybank/maybank_assessment/batch/BatchConfig.java:82 | a text without a digit, the empty text included, is not a number |
| Decimals.ParseRejectsSecondPoint | src/main/java/com/maybank/maybank_assessment/batch/BatchConfig.java:82 | digits with a second point are not a number |
| Decimals.RejectsMalformed | src/main/java/com/maybank/maybank_assessment/batch/BatchConfig.java:82 | the empty text, `abc`, `1.2.3` and `1,000.50` are not numbers |
| Decimals.ParsePlainExample | src/main/java/com/maybank/maybank_assessment/batch/BatchConfig.java:82 | `1000.50` is 100050 at scale 2 |
| Decimals.Magnitude | src/main/java/com/maybank/maybank_assessment/batch/BatchConfig.java:100 | the unsigned part of an amount's printed form starts with a digit and reads back as the absolute unscaled value at the same scale |
| Decimals.ParsePlain | src/main/java/com/maybank/maybank_assessment/batch/BatchConfig.java:100 | plain notation (`123.45`, `0.00012`) reads back as the coefficient's value at the printed scale |
| Decimals.ParseScientific | src/main/java/com/maybank/maybank_assessment/batch/BatchConfig.java:100 | scientific notation (`1.23E+5`, `1E-9`) reads back as the coefficient's value with the scale the exponent implies |
| Decimals.ParsePointed | src/main/java/com/maybank/maybank_assessment/batch/BatchConfig.java:82 | digits with one point inserted read as the digits' value, scaled by the number of digits after the point |
| Decimals.ParseToString | src/main/java/com/maybank/maybank_assessment/batch/BatchConfig.java:100 | every amount, scale included, parses back from the text the key prints for it |
| Decimals.ToStringInjective | src/main/java/com/maybank/maybank_assessment/batch/BatchConfig.java:100 | two amounts print the same exactly when they are equal, scale included (50.0 and 50.00 print differently) |
| Decimals.ToStringHasNoBar | src/main/java/com/maybank/maybank_assessment/batch/BatchConfig.java:100 | a printed amount never contains the key delimiter, the grouping comma or a character trim removes |
| Decimals.SignumIsCompareToZero | src/main/java/com/maybank/maybank_assessment/batch/BatchConfig.java:116 | the sign test agrees with comparing the amount against zero |
| Decimals.CompareTo | src/main/java/com/maybank/maybank_assessment/service/spec/TransactionSpecifications.java:73 | `compareTo` yields -1, 0 or 1 |
| Decimals.CompareAt | src/main/java/com/maybank/maybank_assessment/service/spec/TransactionSpecifications.java:73 | comparing at any common scale at least as fine as both operands gives the same order and equality |
| Decimals.LessEqTransitive | src/main/java/com/maybank/maybank_assessment/service/spec/TransactionSpecifications.java:73 | the amount order the bounds use is transitive |
| Decimals.LessEqTotal | src/main/java/com/maybank/maybank_assessment/service/spec/TransactionSpecifications.java:79 | any two amounts are ordered one way or the other |
| Decimals.LessEqAntisymmetric | src/main/java/com/maybank/maybank_assessment/service/spec/TransactionSpecifications.java:79 | mutually bounded amounts are numerically equal, and equal outright only when their scales agree |
| Decimals.ScaleMatters | src/main/java/com/maybank/maybank_assessment/batch/BatchConfig.java:100 | 50.0 and 50.00 compare equal but are different values, so they make different in-run keys |
| NaturalKeys.KeyStringInjective | src/main/java/com/maybank/maybank_assessment/batch/BatchConfig.java:99-103 | two keys with valid timestamps give the same key string exactly when all five fields are equal, even when a description contains `|` |
| Delimited.JoinFiveInjective | src/main/java/com/maybank/maybank_assessment/batch/BatchConfig.java:99-103 | five parts joined by `|`, with only the middle one possibly containing `|`, determine all five parts |
| Processing.Process | src/main/java/com/maybank/maybank_assessment/batch/BatchConfig.java:98-119 | the key is recorded whatever happens. The store is asked only for keys new to the run. A record is filtered iff its key was seen or is stored, passes iff new, unstored and not negative, and is rejected with the amount in the message iff new, unstored and negative. A record that gets past both checks is returned marked and otherwise unchanged |
| Processing.DuplicateThenNegative | src/main/java/com/maybank/maybank_assessment/batch/BatchConfig.java:99-118 | a record passes, the same record again is filtered without a store query, and a new negative record is rejected |
| Ingestion.Accounting | src/main/java/com/maybank/maybank_assessment/batch/BatchConfig.java:157-165 | every data line ends up exactly once among the accepted, filtered or skipped |
| Ingestion.FailedReadsAllSkipped | src/main/java/com/maybank/maybank_assessment/batch/BatchConfig.java:162-164 | without the limit, any number of unreadable lines are each logged with line number, text and error, in order, and the run goes on |
| Ingestion.ExecuteWithinLimit | src/main/java/com/maybank/maybank_assessment/batch/BatchConfig.java:161-164 | the step succeeds exactly when the run skips at most `Integer.MAX_VALUE` items, read and process skips counted together, and is then that run; otherwise it fails with `SkipLimitExceeded` at the count `Integer.MAX_VALUE` |
| Ingestion.FailedReadsHitLimit | src/main/java/com/maybank/maybank_assessment/batch/BatchConfig.java:161-164 | unreadable lines are all skipped and logged up to `Integer.MAX_VALUE` of them; one more fails the step |
| Ingestion.SeenIsMappedKeys | src/main/java/com/maybank/maybank_assessment/batch/BatchConfig.java:97-107 | the seen set holds a key's string exactly when a record with that key has been read |
| Ingestion.SeenMeansEarlierDuplicate | src/main/java/com/maybank/maybank_assessment/batch/BatchConfig.java:105-107 | a record's key string is already seen exactly when an earlier record has the same key |
| Ingestion.Fate | src/main/java/com/maybank/maybank_assessment/batch/BatchConfig.java:99-119 | the fate of each record in terms of the input alone: a duplicate of an earlier record is filtered without a store query; otherwise a stored key is filtered and an unstored one is accepted or, when negative, rejected |
| Ingestion.LaterDuplicateFiltered | src/main/java/com/maybank/maybank_assessment/batch/BatchConfig.java:99-107 | a later record with an earlier record's key is filtered without a store query, whatever happened to the first, so a rejected negative amount is reported once |
| Ingestion.IngestAcceptedSound | src/main/java/com/maybank/maybank_assessment/batch/BatchConfig.java:97-119 | every record the writer receives was read, is marked, is not negative, is unknown to the store and has been seen, and the keys are pairwise distinct |
| Ingestion.RunAcceptedSound | src/main/java/com/maybank/maybank_assessment/batch/BatchConfig.java:97-119 | the same for a whole file |
| Ingestion.AcceptedKeysAreEligible | src/main/java/com/maybank/maybank_assessment/batch/BatchConfig.java:97-119 | in a run without chunk replay, the run writes exactly the keys that were read, are unknown to the store and are not negative: nothing eligible is lost and nothing else is written |
| Ingestion.RerunAcceptsNothing | src/main/java/com/maybank/maybank_assessment/batch/BatchConfig.java:109-114 | once a run's records are stored, running the same file again writes nothing |
| JavaString.Trim | src/main/java/com/maybank/maybank_assessment/service/spec/TransactionSpecifications.java:124 | a trimmed string neither starts nor ends with a character at or below U+0020 |
| JavaString.TrimMeaning | src/main/java/com/maybank/maybank_assessment/service/spec/TransactionSpecifications.java:124 | trimming keeps one contiguous piece of the string and removes only trimmable characters around it |
| JavaString.TrimEmptyIffBlank | src/main/java/com/maybank/maybank_assessment/service/spec/TransactionSpecifications.java:124-125 | a string trims to empty exactly when every character is trimmable |
| JavaString.TrimIdempotent | src/main/java/com/maybank/maybank_assessment/service/spec/TransactionSpecifications.java:124 | trimming twice is trimming once |
| JavaString.ToLowerTrim | src/main/java/com/maybank/maybank_assessment/service/spec/TransactionSpecifications.java:124-125 | lower-casing commutes with trimming |
| Specifications.Normalize | src/main/java/com/maybank/maybank_assessment/service/spec/TransactionSpecifications.java:122-126 | null or blank input becomes no value; anything else becomes its trimmed, lower-cased, non-empty form |
| Specifications.NormalizeIdempotent | src/main/java/com/maybank/maybank_assessment/service/spec/TransactionSpecifications.java:122-126 | a normalized value normalizes to itself |
| Specifications.LikePrefix | src/main/java/com/maybank/maybank_assessment/service/spec/TransactionSpecifications.java:53 | for a needle without wildcards, `needle%` matches exactly the strings that start with it |
| Specifications.LikeContains | src/main/java/com/maybank/maybank_assessment/service/spec/TransactionSpecifications.java:53 | for a needle without wildcards, `%needle%` matches exactly the strings that contain it |
| Specifications.UnderscoreIsWildcard | src/main/java/com/maybank/maybank_assessment/service/spec/TransactionSpecifications.java:53 | an `_` in the needle matches any character, so `LIKE` selects rows plain substring search would not |
| Specifications.IdentityFilters | src/main/java/com/maybank/maybank_assessment/service/spec/TransactionSpecifications.java:35-45 | with no arguments every record matches; a given customer id or account number selects exactly the records equal on that field |
| Specifications.DescriptionContainsMeaning | src/main/java/com/maybank/maybank_assessment/service/spec/TransactionSpecifications.java:48-55 | a null or blank needle imposes nothing; otherwise a wildcard-free needle matches exactly the descriptions that contain it, ignoring case |
| Specifications.TestPattern | src/main/java/com/maybank/maybank_assessment/service/spec/TransactionSpecifications.java:48-55 | "Test" normalizes to "test" and builds the pattern `%test%` |
| Specifications.TimestampBounds | src/main/java/com/maybank/maybank_assessment/service/spec/TransactionSpecifications.java:57-68 | no bound imposes nothing, one bound is the matching inclusive one-sided test, and both bounds are their conjunction |
| Specifications.EmptyRange | src/main/java/com/maybank/maybank_assessment/service/spec/TransactionSpecifications.java:61-62 | bounds out of order select nothing |
| Specifications.AmountBoundsIgnoreScale | src/main/java/com/maybank/maybank_assessment/service/spec/TransactionSpecifications.java:70-80 | the amount bounds compare values, so numerically equal amounts such as 50.0 and 50.00 are selected together |
| Specifications.ExtendedRefinesBasic | src/main/java/com/maybank/maybank_assessment/service/spec/TransactionSpecifications.java:102-118 | the extended aggregator selects a subset of the basic one, and the same set when given no range bounds |
| Specifications.TimestampAt | src/main/java/com/maybank/maybank_assessment/service/spec/TransactionSpecifications.java:62 | resolving a timestamp path succeeds only for the entity's attribute name |
| Specifications.AmountAt | src/main/java/com/maybank/maybank_assessment/service/spec/TransactionSpecifications.java:73 | resolving an amount path succeeds only for the entity's attribute name |
| Specifications.RangeFiltersFailAsWritten | src/main/java/com/maybank/maybank_assessment/service/spec/TransactionSpecifications.java:26-30 | the three equality paths name attributes but the two range paths do not, so every range filter given a bound fails to build |
| Specifications.CorrectedPathsFilter | src/main/java/com/maybank/maybank_assessment/service/spec/TransactionSpecifications.java:57-80 | with the entity's attribute names the same code computes the intended inclusive range filters |
| UpdateRequests.Violations | src/main/java/com/maybank/maybank_assessment/model/dto/UpdateTransactionRequest.java:15-16 | "Description is required" is reported exactly when the description is null or blank, and "Description too long" exactly when it has more than 255 UTF-16 code units; the two are listed in one fixed order |
| UpdateRequests.ValidIff | src/main/java/com/maybank/maybank_assessment/model/dto/UpdateTransactionRequest.java:15-16 | a request is valid exactly when its description is present, not blank and at most 255 UTF-16 code units long |
| UpdateRequests.InvalidCases | src/main/java/com/maybank/maybank_assessment/model/dto/UpdateTransactionRequest.java:15-16 | null and blank fail with the required message only, an over-long non-blank text with the too-long message only, length counted in UTF-16 code units |
| JavaString.Utf16Length | src/main/java/com/maybank/maybank_assessment/model/dto/UpdateTransactionRequest.java:16 | `String.length()` lies between the number of characters and twice that |
| JavaString.Utf16LengthCounts | src/main/java/com/maybank/maybank_assessment/model/dto/UpdateTransactionRequest.java:16 | the UTF-16 length equals the number of characters exactly when no character needs a surrogate pair, and doubles it when every one does |
| UpdateRequests.SupplementaryCountsTwice | src/main/java/com/maybank/maybank_assessment/model/dto/UpdateTransactionRequest.java:16 | 128 characters outside the Basic Multilingual Plane are already too long, while 128 non-blank characters inside it are valid |
| Dtos.FromEntityRoundTrip | src/main/java/com/maybank/maybank_assessment/model/dto/TransactionDto.java:25-35 | the projection is a field-for-field copy: it is undone by adding back the processed flag, absent id and version included |
| Dtos.FromEntityIgnoresProcessed | src/main/java/com/maybank/maybank_assessment/model/dto/TransactionDto.java:17-23 | two entities project to the same DTO exactly when they differ at most in the processed flag |
| Service.Wrap32 | src/main/java/com/maybank/maybank_assessment/model/entity/Transaction.java:31-32 | Java int arithmetic: the result is an int congruent to the input modulo 2^32 and equal to it when in range |
| Service.NextVersionCounts | src/main/java/com/maybank/maybank_assessment/model/entity/Transaction.java:31-32 | the version goes up by one, only the largest int wraps to the smallest, and it always changes |
| Service.NotFoundMessageInjective | src/main/java/com/maybank/maybank_assessment/service/TransactionService.java:35 | the not-found message names the id: different ids give different messages |
| Service.UpdateMissing | src/main/java/com/maybank/maybank_assessment/service/TransactionService.java:33-35 | an unknown id fails with its not-found message and leaves the store unchanged |
| Service.UpdatePresent | src/main/java/com/maybank/maybank_assessment/service/TransactionService.java:33-39 | a known id: the DTO shows the new description with every other field as read; the store changes exactly when the description differs, and then the record gets the new description and the next version while nothing else about it or any other record changes |
| Service.UpdateTwice | src/main/java/com/maybank/maybank_assessment/service/TransactionService.java:33-39 | repeating an update changes nothing: the second call finds the description already set, and the store stays as the first call left it |
| Service.Select | src/main/java/com/maybank/maybank_assessment/service/TransactionService.java:27 | a row is selected exactly when it is in the table and the specification admits it |
| Service.SelectAppend | src/main/java/com/maybank/maybank_assessment/service/TransactionService.java:27 | selection keeps table order |
| Service.SelectAll | src/main/java/com/maybank/maybank_assessment/service/TransactionService.java:26-27 | with no filters every row is selected, in order |
| Service.Project | src/main/java/com/maybank/maybank_assessment/service/TransactionService.java:29 | the mapped page has one DTO per row, the i-th DTO being the i-th row's |
| Service.ProjectMember | src/main/java/com/maybank/maybank_assessment/service/TransactionService.java:29 | the projection holds exactly the DTOs of the rows |
| Service.PageOf | src/main/java/com/maybank/maybank_assessment/service/TransactionService.java:27 | a page is the consecutive slice of the results from the offset page × size, full when enough results remain, empty past the end, and reports the total count; offsets beyond the int range never get here (Service.GetTransactions) |
| Service.GetTransactions | src/main/java/com/maybank/maybank_assessment/service/TransactionService.java:24-29 | the query fails exactly when the offset page × size is above `Integer.MAX_VALUE`, which the JPA query cannot take, and the error carries that offset |
| Service.PagesCover | src/main/java/com/maybank/maybank_assessment/service/TransactionService.java:27 | the j-th result is on page j / size at position j % size |
| Service.PageMember | src/main/java/com/maybank/maybank_assessment/service/TransactionService.java:27 | a page holds only results |
| Service.GetTransactionsSound | src/main/java/com/maybank/maybank_assessment/service/TransactionService.java:24-29 | when the query succeeds, every DTO returned is the projection of a row the filters admit, and the total counts those rows |
| Service.GetTransactionsComplete | src/main/java/com/maybank/maybank_assessment/service/TransactionService.java:24-29 | in a table of at most 2^31 rows, every row the filters admit is returned on some page whose query succeeds, for any page size |
| Controller.ResolvePage | src/main/java/com/maybank/maybank_assessment/controller/TransactionController.java:28 | the page is the parsed page number, or 0 when it is missing, unreadable as an int or negative; the size is 20 when missing, unreadable as an int or below 1, capped at 2000, and kept otherwise |
| Controller.ResolvePrinted | src/main/java/com/maybank/maybank_assessment/controller/TransactionController.java:28 | a resolved page request, written back into the query, resolves to itself |
| Controller.OverflowingSizeIsDefault | src/main/java/com/maybank/maybank_assessment/controller/TransactionController.java:28 | a size beyond the int range gets the default 20, not the maximum 2000 |
| Controller.ListTransactions | src/main/java/com/maybank/maybank_assessment/controller/TransactionController.java:23-31 | the listing answers 200 with a page counting every matching row exactly when the resolved offset fits an int, and otherwise the handler's 500 |
| Controller.ListWithinRange | src/main/java/com/maybank/maybank_assessment/controller/TransactionController.java:23-31 | a request whose offset fits an int gets 200 and the requested slice of the matching rows' DTOs |
| Controller.OffsetOverflowFails | src/main/java/com/maybank/maybank_assessment/exception/GlobalExceptionHandler.java:40-45 | a page whose offset exceeds the int range, such as page 1073741824 of size 2, fails with 500 "An unexpected error occurred." instead of an empty page |
| Controller.ListDefaults | src/main/java/com/maybank/maybank_assessment/controller/TransactionController.java:23-31 | without paging parameters the answer is 200 with at most twenty DTOs, exactly twenty when enough rows match, each from a matching row |
| Controller.Fail | src/main/java/com/maybank/maybank_assessment/exception/GlobalExceptionHandler.java:15-45 | a failure answers with the handler's body and the body's status |
| Controller.PutInvalid | src/main/java/com/maybank/maybank_assessment/controller/TransactionController.java:33-39 | an invalid body is refused with 400 before the store is touched; the message lists every violation once, in some order; a missing description reports exactly "description: Description is required; " |
| Controller.PutMissing | src/main/java/com/maybank/maybank_assessment/controller/TransactionController.java:33-39 | a valid body for an unknown id gets 404 with the service's message, store unchanged |
| Controller.PutPresent | src/main/java/com/maybank/maybank_assessment/controller/TransactionController.java:33-39 | a valid body for a known id gets 200 and the DTO with the new description; the record changes as the service says and no other record changes |
| Controller.PutSucceedsIff | src/main/java/com/maybank/maybank_assessment/controller/TransactionController.java:33-39 | the endpoint answers 200 exactly when the body is valid and the id exists, and changes the store only then |
| ErrorHandling.Handle | src/main/java/com/maybank/maybank_assessment/exception/GlobalExceptionHandler.java:15-45 | the status is 400 exactly for a failed validation, 404 exactly for a missing entity, 409 exactly for the two conflict kinds and 500 exactly for anything else |
| ErrorHandling.StatusMatchesError | src/main/java/com/maybank/maybank_assessment/exception/GlobalExceptionHandler.java:15-45 | every body's error text is its status's reason phrase, so status and error text determine each other |
| ErrorHandling.FieldErrorsTextAppend | src/main/java/com/maybank/maybank_assessment/exception/GlobalExceptionHandler.java:19-21 | the field errors' texts are appended one after another: each appears once, in order |
| ErrorHandling.ValidationMessageShape | src/main/java/com/maybank/maybank_assessment/exception/GlobalExceptionHandler.java:15-23 | the validation message is "Validation failed: " followed by "field: message; " for each field error |
| ErrorHandling.MessagesByKind | src/main/java/com/maybank/maybank_assessment/exception/GlobalExceptionHandler.java:26-45 | not-found passes the message through, both conflict kinds prefix it with "Conflict occurred: ", and the fallback never reveals it |

## Left out

- Multi-threaded chunk execution: the model runs the step sequentially. The seen set is
  synchronized, so its check-and-add is atomic, but the order in which threads reach it is not modelled.
- Chunk transactions, the JPA writer, and the framework re-processing a chunk after a
  processor skip. These belong to the framework. Write failures are not skippable, so no write-skip policy exists to model.
- Ingestion.AcceptedKeysAreEligible: holds for a run without chunk replay only. With the processor transactional (the default), a negative amount rolls its chunk of 50 back, and the framework runs the processor again over the chunk's other records. The seen set is not rolled back, so the records accepted before the negative one in that chunk are then filtered as duplicates and never written. With the chunk A, B, C (negative), D, only D is written. The model runs each record once, so it does not show this loss.
- File I/O and the fixed resource path: the model takes the file as a sequence of lines.
- The skip listener's and the job runner's logging, and the `ApiError` creation timestamp: they only observe.
- The store's existence query is a parameter fixed for the run (`stored`). Keys written during the run are already in the seen set, so they never reach it.
- The database side of the queries: SQL translation, the row order of an unsorted query (the model keeps table order), and database collation.
- Optimistic-lock conflicts: they cannot arise in a sequential model. The version is bumped by the store on commit, when the record is dirty.
- The HTTP binding of the endpoints, except the page and size resolution and `@Valid`. Sort parameters are not modelled.
- LineMapping.ReadDecimal: a blank amount makes `readBigDecimal` return null, which fails later in the processor with a non-skippable error; the model skips such a line as unparseable instead.
- UpdateRequests.Violations: the validator returns its violations as a set, so the order of the two description errors in the message is not fixed; the model lists "required" first, and Controller.PutInvalid promises the message only up to that order.
- LineMapping.Tokenize: quoted fields of the delimited tokenizer are not modelled, so a `"` is an ordinary character.
- Ingestion.Read: the reader's comment-line filter (lines starting with `#` are dropped) is not modelled, and every data line is mapped.
- DateTime.ParseTime: fractional seconds (`hh:mm:ss.nnn`), which `LocalTime.parse` accepts, are rejected.
- DateTime.ParseDate: only four-digit years are modelled, and the signed and five-digit years `LocalDate.parse` accepts are rejected.
- Decimals.Parse: exponents are read without bound, while `BigDecimal` rejects an exponent or scale outside the int range.
- Decimals.Parse and JavaLong.Parse: only the ASCII digits are digits, while Java also accepts the other Unicode decimal digits.
- JavaString.ToLower: only the ASCII letters are lower-cased, both for `toLowerCase` and for SQL `LOWER`.

## Findings

| source | as written | input that shows it | evidently intended | confidence | as-written member | corrected member |
|---|---|---|---|---|---|---|
| src/main/java/com/maybank/maybank_assessment/service/spec/TransactionSpecifications.java:29-30 | the timestamp and amount filters resolve the paths `trxTimestamp` and `trxAmount`, which are not attributes of the entity (its fields are `trxnTimestamp` and `trxnAmount`) | `timestampBetween(from, null)` or `amountGte(10)` with any non-null bound: building the query throws instead of filtering | the paths name the entity's attributes, so the bounds filter inclusively as documented | high, not executed | Specifications.RangeFiltersFailAsWritten | Specifications.CorrectedPathsFilter |

=== FILE: controller.dfy ===
/** The REST endpoints with the global exception handler behind them: a request either
    yields a page or a DTO with status 200, or an error body with the handler's status. */
module Controller {
  import opened Results
  import JavaLong
  import opened Transactions
  import opened Dtos
  import opened UpdateRequests
  import opened ErrorHandling
  import opened Service

  datatype Body = DtoBody(dto: TransactionDto) | PageBody(page: Page<TransactionDto>) | ErrorBody(error: ApiError)
  datatype Response = Response(status: int, body: Body)
  datatype Exchange = Exchange(store: Store, response: Response)

  // ---------- GET /transactions ----------

  const DefaultPageSize: nat := 20
  const MaxPageSize: nat := 2000

  /** Integer.parseInt: the grammar of Long.parseLong, within the int range. */
  function ParseInt(text: string): (r: Option<int>)
    ensures r.Some? <==> JavaLong.Parse(text).Some? && IntegerMin <= JavaLong.Parse(text).value <= IntegerMax
    ensures r.Some? ==> r.value == JavaLong.Parse(text).value
  {
    match JavaLong.Parse(text)
    case Some(n) => if IntegerMin <= n <= IntegerMax then Some(n) else None
    case None => None
  }

  /** The page request the pageable resolver binds from the `page` and `size` query
      parameters. Each is read with Integer.parseInt; text it refuses reads as 0, and a
      negative number as 0. The page is then used as is. A size below 1 falls back to the
      default of @PageableDefault, and a size above the maximum is capped. A blank value
      counts as missing in the resolver; here it reads as 0, which leads to the same
      request. */
  function ResolvePage(page: Option<string>, size: Option<string>): (r: PageRequest)
    ensures 1 <= r.size <= MaxPageSize && r.page <= IntegerMax
    ensures page.None? || ParseInt(page.value).None? ==> r.page == 0
    ensures page.Some? && ParseInt(page.value).Some? ==>
      r.page == if ParseInt(page.value).value < 0 then 0 else ParseInt(page.value).value
    ensures size.None? || ParseInt(size.value).None? ==> r.size == DefaultPageSize
    ensures size.Some? && ParseInt(size.value).Some? ==>
      var n := ParseInt(size.value).value;
      && (n < 1 ==> r.size == DefaultPageSize)
      && (1 <= n <= MaxPageSize ==> r.size == n)
      && (n > MaxPageSize ==> r.size == MaxPageSize)
  {
    var p := if page.None? then 0 else
      match ParseInt(page.value)
      case None => 0
      case Some(n) => if n < 0 then 0 else n;
    var s := if size.None? then DefaultPageSize else
      match ParseInt(size.value)
      case None => DefaultPageSize
      case Some(n) => if n < 1 then DefaultPageSize else if n > MaxPageSize then MaxPageSize else n;
    PageRequest(p, s)
  }

  /** A resolved request, written back into the query, resolves to itself. */
  lemma ResolvePrinted(page: Option<string>, size: Option<string>)
    ensures var r := ResolvePage(page, size);
      ResolvePage(Some(JavaLong.ToString(r.page)), Some(JavaLong.ToString(r.size))) == r
  {
    var r := ResolvePage(page, size);
    JavaLong.ParseToString(r.page);
    JavaLong.ParseToString(r.size);
  }

  /** A size beyond the int range is not capped at the maximum: Integer.parseInt refuses
      it, so the default size applies. */
  lemma OverflowingSizeIsDefault(page: Option<string>, n: int)
    requires IntegerMax < n && JavaLong.InRange(n)
    ensures ResolvePage(page, Some(JavaLong.ToString(n))).size == DefaultPageSize
  {
    JavaLong.ParseToString(n);
  }

  /** GET /transactions: the page with status 200, or the handler's 500 when the query
      refuses the offset (the handler hides the exception's message). */
  function ListTransactions(rows: seq<Transaction>, customerId: Option<int>, accountNumber: Option<int>,
                            description: Option<string>, page: Option<string>, size: Option<string>)
    : (r: Response)
    ensures r.status == 200 <==> Offset(ResolvePage(page, size)) <= IntegerMax
    ensures r.status == 200 ==>
      r.body.PageBody? && r.body.page.totalElements == |Select(rows, Filter(customerId, accountNumber, description))|
    ensures r.status != 200 ==> r == Fail(Unexpected(None)) && r.status == 500
  {
    match GetTransactions(rows, customerId, accountNumber, description, ResolvePage(page, size))
    case Ok(pg) => Response(200, PageBody(pg))
    case Err(_) => Fail(Unexpected(None))
  }

  /** Without paging parameters the first twenty matching rows come back, and every DTO
      listed is one of a matching row. */
  lemma ListDefaults(rows: seq<Transaction>, c: Option<int>, a: Option<int>, d: Option<string>,
                     dto: TransactionDto)
    ensures ListTransactions(rows, c, a, d, None, None).status == 200
    ensures |ListTransactions(rows, c, a, d, None, None).body.page.content| <= DefaultPageSize
    ensures |Select(rows, Filter(c, a, d))| >= DefaultPageSize ==>
      |ListTransactions(rows, c, a, d, None, None).body.page.content| == DefaultPageSize
    ensures dto in ListTransactions(rows, c, a, d, None, None).body.page.content ==>
      exists s :: s in rows && Specifications.WithFilters(c, a, d, s) && dto == FromEntity(s)
  {
    GetTransactionsSound(rows, c, a, d, PageRequest(0, DefaultPageSize), dto);
  }

  /** A page far enough out overflows the int offset (page 1073741824 of size 2 starts at
      row 2^31): the request fails with 500 instead of returning an empty page. */
  lemma OffsetOverflowFails(rows: seq<Transaction>, c: Option<int>, a: Option<int>, d: Option<string>,
                            page: nat, size: nat)
    requires page <= IntegerMax && 1 <= size <= MaxPageSize
    requires page * size > IntegerMax
    ensures ListTransactions(rows, c, a, d, Some(JavaLong.ToString(page)), Some(JavaLong.ToString(size)))
      == Fail(Unexpected(None))
    ensures Fail(Unexpected(None)).status == 500
  {
    JavaLong.ParseToString(page);
    JavaLong.ParseToString(size);
  }

  /** Every page within the int offset range is answered with 200 and the requested slice
      of the matching rows' DTOs. */
  lemma ListWithinRange(rows: seq<Transaction>, c: Option<int>, a: Option<int>, d: Option<string>,
                        page: Option<string>, size: Option<string>)
    requires Offset(ResolvePage(page, size)) <= IntegerMax
    ensures ListTransactions(rows, c, a, d, page, size)
      == Response(200, PageBody(PageOf(Project(Select(rows, Filter(c, a, d))), ResolvePage(page, size))))
  {
  }

  // ---------- PUT /transactions/{id} ----------

  /** A request's violations as the binding reports them. */
  function ToFieldErrors(vs: seq<Violation>): (fes: seq<FieldError>)
    ensures |fes| == |vs|
    ensures forall i :: 0 <= i < |vs| ==> fes[i] == FieldError(vs[i].field, Some(vs[i].message))
  {
    seq(|vs|, i requires 0 <= i < |vs| => FieldError(vs[i].field, Some(vs[i].message)))
  }

  /** The exception handler's answer: its body, under its status. */
  function Fail(f: Failure): (r: Response)
    ensures r.body.ErrorBody? && r.status == r.body.error.status
    ensures r.body.error == Handle(f)
  {
    var e := Handle(f);
    Response(e.status, ErrorBody(e))
  }

  /** Validate the body, then update; failures go through the exception handler. */
  function Put(store: Store, id: int, request: UpdateTransactionRequest): Exchange {
    if !IsValid(request) then
      Exchange(store, Fail(MethodArgumentNotValid(ToFieldErrors(Violations(request)))))
    else
      ValidIff(request);
      var u := UpdateTransaction(store, id, request.description.value);
      match u.result
      case Err(NotFound(m)) => Exchange(u.store, Fail(EntityNotFound(Some(m))))
      case Ok(dto) => Exchange(u.store, Response(200, DtoBody(dto)))
  }

  /** An invalid body is refused with 400 before the store is touched. The message lists
      each violation once; their order is the validator's set order, which is not fixed,
      so only a single violation pins the text. */
  lemma PutInvalid(store: Store, id: int, request: UpdateTransactionRequest)
    requires !IsValid(request)
    ensures Put(store, id, request).store == store
    ensures Put(store, id, request).response.status == 400
    ensures Put(store, id, request).response.body.ErrorBody?
    ensures exists fes: seq<FieldError> ::
      && multiset(fes) == multiset(ToFieldErrors(Violations(request)))
      && Put(store, id, request).response.body.error.message == Some(ValidationMessage(fes))
    ensures request.description.None? ==>
      Put(store, id, request).response.body.error.message
        == Some(ValidationPrefix + "description: Description is required; ")
  {
    var fes := ToFieldErrors(Violations(request));
    assert Put(store, id, request).response.body.error.message == Some(ValidationMessage(fes));
    if request.description.None? {
      var one := FieldError("description", Some(RequiredMessage));
      assert ToFieldErrors(Violations(request)) == [one];
      ValidationMessageShape([], one);
    }
  }

  /** A valid body for a missing id gets 404 with the service's message, store unchanged. */
  lemma PutMissing(store: Store, id: int, request: UpdateTransactionRequest)
    requires IsValid(request) && id !in store
    ensures Put(store, id, request).store == store
    ensures Put(store, id, request).response.status == 404
    ensures Put(store, id, request).response.body == ErrorBody(ApiError(404, "Not Found", Some(NotFoundMessage(id))))
  {
  }

  /** A valid body for a present id gets 200 and the DTO with the new description; the
      stored record changes as the service says and no other record changes. */
  lemma PutPresent(store: Store, id: int, request: UpdateTransactionRequest)
    requires IsValid(request) && id in store
    ensures request.description.Some?
    ensures var x := Put(store, id, request);
      && x.response.status == 200
      && x.response.body.DtoBody?
      && x.response.body.dto.description == request.description.value
      && x.store == UpdateTransaction(store, id, request.description.value).store
      && x.store[id].description == request.description.value
      && (forall j :: j in store && j != id ==> j in x.store && x.store[j] == store[j])
  {
    ValidIff(request);
    UpdatePresent(store, id, request.description.value);
  }

  /** The endpoint answers 200 exactly when the body is valid and the id exists, and
      changes the store only then. */
  lemma PutSucceedsIff(store: Store, id: int, request: UpdateTransactionRequest)
    ensures Put(store, id, request).response.status == 200 <==> IsValid(request) && id in store
    ensures Put(store, id, request).response.status == 200 <==> Put(store, id, request).response.body.DtoBody?
    ensures Put(store, id, request).response.status != 200 ==> Put(store, id, request).store == store
  {
    if IsValid(request) {
      ValidIff(request);
    }
  }
}

=== FILE: date_time.dfy ===
/** java.time as the batch reader uses it: LocalDate.parse (ISO_LOCAL_DATE, the complete
    extended calendar date YYYY-MM-DD of section 4.1.2.2 of ISO 8601:2004), LocalTime.parse
    (ISO_LOCAL_TIME, hh:mm:ss of section 4.2.2.2, or hh:mm), LocalDateTime.of,
    LocalDateTime.toString and LocalDateTime.compareTo. Nanoseconds are always zero here. */
module DateTime {
  import opened Results
  import opened Digits

  datatype Date = Date(year: int, month: int, day: int)
  datatype Time = Time(hour: int, minute: int, second: int)
  /** LocalDateTime.of(date, time). */
  datatype Timestamp = Timestamp(date: Date, time: Time)

  /** The proleptic Gregorian leap-year rule java.time applies. */
  predicate IsLeapYear(year: int) {
    year % 4 == 0 && (year % 100 != 0 || year % 400 == 0)
  }

  function DaysInMonth(year: int, month: int): (n: int)
    requires 1 <= month <= 12
    ensures 28 <= n <= 31
  {
    if month == 2 then (if IsLeapYear(year) then 29 else 28)
    else if month == 4 || month == 6 || month == 9 || month == 11 then 30
    else 31
  }

  /** A calendar date with a four-digit year, the only years YYYY-MM-DD can carry. */
  predicate ValidDate(d: Date) {
    && 0 <= d.year <= 9999
    && 1 <= d.month <= 12
    && 1 <= d.day <= DaysInMonth(d.year, d.month)
  }

  predicate ValidTime(t: Time) {
    0 <= t.hour < 24 && 0 <= t.minute < 60 && 0 <= t.second < 60
  }

  predicate Valid(ts: Timestamp) {
    ValidDate(ts.date) && ValidTime(ts.time)
  }

  // ---------- parsing ----------

  /** LocalDate.parse: exactly YYYY-MM-DD, and the day must exist in that month
      (strict resolution: month 13 and 29 February of a common year are errors). */
  function ParseDate(s: string): (r: Option<Date>)
    ensures r.Some? ==> ValidDate(r.value)
    ensures r.Some? ==> |s| == 10 && s[4] == '-' && s[7] == '-'
  {
    if |s| == 10 && s[4] == '-' && s[7] == '-' && AllDigits(s[..4]) && AllDigits(s[5..7]) && AllDigits(s[8..]) then
      var d := Date(ValueOf(s[..4]), ValueOf(s[5..7]), ValueOf(s[8..]));
      if 1 <= d.month <= 12 && 1 <= d.day <= DaysInMonth(d.year, d.month) then Some(d) else None
    else
      None
  }

  /** LocalTime.parse: hh:mm:ss, or hh:mm with zero seconds; hour below 24, minute and second below 60. */
  function ParseTime(s: string): (r: Option<Time>)
    ensures r.Some? ==> ValidTime(r.value)
    ensures r.Some? ==> (|s| == 5 || |s| == 8) && s[2] == ':'
  {
    if (|s| == 5 || (|s| == 8 && s[5] == ':' && AllDigits(s[6..]))) && s[2] == ':' && AllDigits(s[..2]) && AllDigits(s[3..5]) then
      var t := Time(ValueOf(s[..2]), ValueOf(s[3..5]), if |s| == 8 then ValueOf(s[6..]) else 0);
      if ValidTime(t) then Some(t) else None
    else
      None
  }

  lemma ValueOfYear(s: string, y: nat)
    requires |s| == 4 && AllDigits(s)
    requires y == 1000 * DigitValue(s[0]) + 100 * DigitValue(s[1]) + 10 * DigitValue(s[2]) + DigitValue(s[3])
    ensures ValueOf(s) == y
  {
    var s3, s2, s1 := s[..3], s[..2], s[..1];
    assert s3[..2] == s2 && s2[..1] == s1 && s1[..0] == [];
    assert ValueOf(s1) == DigitValue(s[0]);
    assert ValueOf(s2) == 10 * DigitValue(s[0]) + DigitValue(s[1]);
    assert ValueOf(s3) == 100 * DigitValue(s[0]) + 10 * DigitValue(s[1]) + DigitValue(s[2]);
  }

  lemma ValueOfTwo(s: string, v: nat)
    requires |s| == 2 && AllDigits(s)
    requires v == 10 * DigitValue(s[0]) + DigitValue(s[1])
    ensures ValueOf(s) == v
  {
    assert s[..1] == [s[0]];
  }

  /** Strict resolution rejects a thirteenth month. */
  lemma RejectsMonthThirteen()
    ensures ParseDate("2019-13-01").None?
  {
    var s := "2019-13-01";
    ValueOfTwo(s[5..7], 13);
  }

  /** Strict resolution rejects 29 February of a common year, including a century year. */
  lemma RejectsCommonYearLeapDay()
    ensures ParseDate("2019-02-29").None?
    ensures ParseDate("1900-02-29").None?
  {
    var s, t := "2019-02-29", "1900-02-29";
    ValueOfYear(s[..4], 2019);
    RejectsLeapDayOf(s, 2019);
    ValueOfYear(t[..4], 1900);
    RejectsLeapDayOf(t, 1900);
  }

  lemma RejectsLeapDayOf(s: string, year: nat)
    requires |s| == 10 && s[4] == '-' && s[7] == '-' && s[5..] == "02-29"
    requires AllDigits(s[..4]) && ValueOf(s[..4]) == year && !IsLeapYear(year)
    ensures ParseDate(s).None?
  {
    ValueOfTwo(s[5..7], 2);
    ValueOfTwo(s[8..], 29);
  }

  /** 29 February of a leap year is a date. */
  lemma AcceptsLeapDay()
    ensures ParseDate("2020-02-29") == Some(Date(2020, 2, 29))
  {
    var s := "2020-02-29";
    ValueOfYear(s[..4], 2020);
    ValueOfTwo(s[5..7], 2);
    ValueOfTwo(s[8..], 29);
  }

  // ---------- printing ----------

  /** A fixed-width field; values outside the field's range never occur in a valid date or time. */
  function Field(x: int, width: nat): (s: string)
    ensures |s| == width && AllDigits(s)
  {
    Padded(if x < 0 then 0 else x, width)
  }

  /** LocalDate.toString for four-digit years. */
  function DateToString(d: Date): (s: string)
    ensures |s| == 10
  {
    Field(d.year, 4) + "-" + Field(d.month, 2) + "-" + Field(d.day, 2)
  }

  /** LocalTime.toString: the seconds are printed only when they are not zero. */
  function TimeToString(t: Time): (s: string)
    ensures |s| == 5 || |s| == 8
  {
    Field(t.hour, 2) + ":" + Field(t.minute, 2) + (if t.second > 0 then ":" + Field(t.second, 2) else "")
  }

  /** LocalDateTime.toString: the date, 'T', the time. */
  function ToString(ts: Timestamp): string {
    DateToString(ts.date) + "T" + TimeToString(ts.time)
  }

  lemma SmallPowers()
    ensures Pow10(2) == 100 && Pow10(4) == 10000
  {
    assert Pow10(1) == 10;
    assert Pow10(3) == 1000;
  }

  /** Printing a valid date and parsing it back gives the date. */
  lemma ParseDateToString(d: Date)
    requires ValidDate(d)
    ensures ParseDate(DateToString(d)) == Some(d)
  {
    var s := DateToString(d);
    SmallPowers();
    assert s[..4] == Field(d.year, 4);
    assert s[5..7] == Field(d.month, 2);
    assert s[8..] == Field(d.day, 2);
    ValueOfPadded(d.year, 4);
    ValueOfPadded(d.month, 2);
    ValueOfPadded(d.day, 2);
  }

  /** Printing a valid time and parsing it back gives the time, with or without printed seconds. */
  lemma ParseTimeToString(t: Time)
    requires ValidTime(t)
    ensures ParseTime(TimeToString(t)) == Some(t)
  {
    var s := TimeToString(t);
    SmallPowers();
    assert s[..2] == Field(t.hour, 2);
    assert s[3..5] == Field(t.minute, 2);
    ValueOfPadded(t.hour, 2);
    ValueOfPadded(t.minute, 2);
    if t.second > 0 {
      assert s[6..] == Field(t.second, 2);
      ValueOfPadded(t.second, 2);
    }
  }

  /** Distinct valid timestamps print differently. */
  lemma ToStringInjective(a: Timestamp, b: Timestamp)
    requires Valid(a) && Valid(b)
    ensures ToString(a) == ToString(b) <==> a == b
  {
    if ToString(a) == ToString(b) {
      var s := ToString(a);
      assert s[..10] == DateToString(a.date) && s[11..] == TimeToString(a.time);
      assert ToString(b)[..10] == DateToString(b.date) && ToString(b)[11..] == TimeToString(b.time);
      ParseDateToString(a.date);
      ParseDateToString(b.date);
      ParseTimeToString(a.time);
      ParseTimeToString(b.time);
    }
  }

  lemma DigitsHaveNoBar(s: string)
    requires AllDigits(s)
    ensures '|' !in s
    ensures forall c :: c in s ==> ' ' < c
  {
  }

  /** The printed timestamp never contains the key delimiter '|', nor a blank or control
      character. */
  lemma ToStringHasNoBar(ts: Timestamp)
    ensures '|' !in ToString(ts)
    ensures forall c :: c in ToString(ts) ==> ' ' < c
    ensures forall c :: c in DateToString(ts.date) ==> ' ' < c
    ensures forall c :: c in TimeToString(ts.time) ==> ' ' < c
  {
    var t := ts.time;
    DigitsHaveNoBar(Field(ts.date.year, 4));
    DigitsHaveNoBar(Field(ts.date.month, 2));
    DigitsHaveNoBar(Field(ts.date.day, 2));
    DigitsHaveNoBar(Field(t.hour, 2));
    DigitsHaveNoBar(Field(t.minute, 2));
    DigitsHaveNoBar(Field(t.second, 2));
  }

  // ---------- ordering: LocalDateTime.compareTo ----------

  function CompareInt(x: int, y: int): (c: int)
    ensures c < 0 <==> x < y
    ensures c == 0 <==> x == y
  {
    if x < y then -1 else if x == y then 0 else 1
  }

  /** The fields compareTo consults, most significant first. */
  function Fields(ts: Timestamp): (f: seq<int>)
    ensures |f| == 6
  {
    [ts.date.year, ts.date.month, ts.date.day, ts.time.hour, ts.time.minute, ts.time.second]
  }

  /** The first field that differs decides. */
  function SeqCompare(x: seq<int>, y: seq<int>): int
    requires |x| == |y|
  {
    if |x| == 0 then 0
    else if x[0] != y[0] then CompareInt(x[0], y[0])
    else SeqCompare(x[1..], y[1..])
  }

  function Compare(a: Timestamp, b: Timestamp): int {
    SeqCompare(Fields(a), Fields(b))
  }

  predicate LessEq(a: Timestamp, b: Timestamp) {
    Compare(a, b) <= 0
  }

  /** The field-by-field order, written out as a reference definition: equal, or equal
      up to some field that is smaller. */
  predicate LexLess(x: seq<int>, y: seq<int>)
    requires |x| == |y|
  {
    exists k :: 0 <= k < |x| && x[..k] == y[..k] && x[k] < y[k]
  }

  /** A smaller first field decides; an equal first field defers to the rest. */
  lemma LexLessFirst(x: seq<int>, y: seq<int>)
    requires |x| == |y| > 0
    ensures LexLess(x, y) ==> x[0] < y[0] || (x[0] == y[0] && LexLess(x[1..], y[1..]))
  {
    if LexLess(x, y) {
      var k :| 0 <= k < |x| && x[..k] == y[..k] && x[k] < y[k];
      if k > 0 {
        assert x[..k][0] == y[..k][0];
        assert x[1..][..k - 1] == x[..k][1..];
        assert y[1..][..k - 1] == y[..k][1..];
        assert x[1..][k - 1] == x[k];
      }
    }
  }

  lemma LexLessCons(x: seq<int>, y: seq<int>)
    requires |x| == |y| > 0
    ensures x[0] < y[0] ==> LexLess(x, y)
    ensures x[0] == y[0] && LexLess(x[1..], y[1..]) ==> LexLess(x, y)
  {
    if x[0] < y[0] {
      assert x[..0] == y[..0];
    }
    if x[0] == y[0] && LexLess(x[1..], y[1..]) {
      var k :| 0 <= k < |x| - 1 && x[1..][..k] == y[1..][..k] && x[1..][k] < y[1..][k];
      assert x[..k + 1] == [x[0]] + x[1..][..k];
      assert y[..k + 1] == [y[0]] + y[1..][..k];
    }
  }

  lemma {:induction false} SeqCompareMeaning(x: seq<int>, y: seq<int>)
    requires |x| == |y|
    ensures SeqCompare(x, y) == 0 <==> x == y
    ensures SeqCompare(x, y) < 0 <==> LexLess(x, y)
    decreases |x|
  {
    if |x| > 0 {
      SeqCompareMeaning(x[1..], y[1..]);
      LexLessFirst(x, y);
      LexLessCons(x, y);
      if x[0] == y[0] && x[1..] == y[1..] {
        assert x == [x[0]] + x[1..];
        assert y == [y[0]] + y[1..];
      }
    }
  }

  lemma {:induction false} SeqCompareAntisymmetric(x: seq<int>, y: seq<int>)
    requires |x| == |y|
    ensures SeqCompare(x, y) == -SeqCompare(y, x)
    decreases |x|
  {
    if |x| > 0 && x[0] == y[0] {
      SeqCompareAntisymmetric(x[1..], y[1..]);
    }
  }

  lemma {:induction false} SeqCompareTransitive(x: seq<int>, y: seq<int>, z: seq<int>)
    requires |x| == |y| == |z|
    requires SeqCompare(x, y) <= 0 && SeqCompare(y, z) <= 0
    ensures SeqCompare(x, z) <= 0
    decreases |x|
  {
    if |x| > 0 && x[0] == y[0] && y[0] == z[0] {
      SeqCompareTransitive(x[1..], y[1..], z[1..]);
    }
  }

  /** compareTo agrees with the field-by-field order, and is zero exactly on equal timestamps. */
  lemma CompareIsLexicographic(a: Timestamp, b: Timestamp)
    ensures Compare(a, b) == 0 <==> a == b
    ensures Compare(a, b) < 0 <==> LexLess(Fields(a), Fields(b))
  {
    SeqCompareMeaning(Fields(a), Fields(b));
    if Fields(a) == Fields(b) {
      assert a.date == b.date && a.time == b.time;
    }
  }

  lemma LessEqTransitive(a: Timestamp, b: Timestamp, c: Timestamp)
    requires LessEq(a, b) && LessEq(b, c)
    ensures LessEq(a, c)
  {
    SeqCompareTransitive(Fields(a), Fields(b), Fields(c));
  }

  lemma LessEqTotal(a: Timestamp, b: Timestamp)
    ensures LessEq(a, b) || LessEq(b, a)
  {
    SeqCompareAntisymmetric(Fields(a), Fields(b));
  }

  lemma LessEqAntisymmetric(a: Timestamp, b: Timestamp)
    requires LessEq(a, b) && LessEq(b, a)
    ensures a == b
  {
    SeqCompareAntisymmetric(Fields(a), Fields(b));
    CompareIsLexicographic(a, b);
  }
}

=== FILE: decimal.dfy ===
/** java.math.BigDecimal as the batch uses it: parsed from text (FieldSet.readBigDecimal),
    printed by toString() into the in-run key, compared by signum() and compareTo(). */
module Decimals {
  import opened Results
  import opened Digits
  import opened JavaString
  import JavaLong

  /** The value unscaled × 10^(-scale). Equality of two Decimals is BigDecimal.equals:
      50.0 (500, scale 1) and 50.00 (5000, scale 2) are different values. */
  datatype Decimal = Decimal(unscaled: int, scale: int)

  /** BigDecimal.signum(). */
  function Signum(d: Decimal): (s: int)
    ensures s < 0 <==> d.unscaled < 0
    ensures s == 0 <==> d.unscaled == 0
    ensures -1 <= s <= 1
  {
    if d.unscaled < 0 then -1 else if d.unscaled == 0 then 0 else 1
  }

  // ---------- printing: BigDecimal.toString() ----------

  /** BigDecimal.toString(): plain notation when the scale is non-negative and the adjusted
      exponent (-scale + digits - 1) is at least -6, scientific notation otherwise. */
  function ToString(d: Decimal): string {
    var coeff := NatToString(JavaLong.Abs(d.unscaled));
    var adjusted := -d.scale + (|coeff| - 1);
    (if d.unscaled < 0 then "-" else "") + Body(coeff, d.scale, adjusted)
  }

  function Body(coeff: string, scale: int, adjusted: int): string
    requires |coeff| >= 1
  {
    if scale >= 0 && adjusted >= -6 then Plain(coeff, scale) else Scientific(coeff, adjusted)
  }

  /** The coefficient with a decimal point `scale` digits from the right, padded with
      zeros and a leading "0" when it has no more digits than the scale. */
  function Plain(coeff: string, scale: nat): string
    requires |coeff| >= 1
  {
    if scale == 0 then coeff
    else if |coeff| > scale then coeff[..|coeff| - scale] + "." + coeff[|coeff| - scale..]
    else "0" + "." + (Zeros(scale - |coeff|) + coeff)
  }

  /** The coefficient with a point after its first digit, then E, the exponent's sign and digits. */
  function Scientific(coeff: string, adjusted: int): string
    requires |coeff| >= 1
  {
    Mantissa(coeff) + "E" + Exponent(adjusted)
  }

  function Mantissa(coeff: string): string
    requires |coeff| >= 1
  {
    if |coeff| > 1 then coeff[..1] + "." + coeff[1..] else coeff
  }

  function Exponent(adjusted: int): string {
    (if adjusted < 0 then "-" else "+") + NatToString(JavaLong.Abs(adjusted))
  }

  // ---------- parsing: new BigDecimal(String) ----------

  /** Every character of s[a..b] is a digit. */
  predicate DigitsBetween(s: string, a: nat, b: nat)
    requires a <= b <= |s|
  {
    forall j :: a <= j < b ==> IsDigit(s[j])
  }

  /** The digits of s[..b] read as one number, points skipped: the unscaled value a
      significand such as "12.50" denotes (1250). */
  function SignificandValue(s: string, b: nat): (v: nat)
    requires b <= |s|
    requires forall j :: 0 <= j < b ==> IsDigit(s[j]) || s[j] == '.'
    decreases b
  {
    if b == 0 then 0
    else if s[b - 1] == '.' then SignificandValue(s, b - 1)
    else SignificandValue(s, b - 1) * 10 + DigitValue(s[b - 1])
  }

  /** The magnitude and scale of an unsigned decimal text. */
  datatype Unsigned = Unsigned(magnitude: nat, scale: int)

  /** BigDecimal's constructor reading body from position i, having read `digits` digits worth
      `value`, `fraction` of them after a point, and a point if `point`. A digit extends the
      value, a first point is skipped, 'e' or 'E' after at least one digit hands the rest to
      the exponent reader, and any other character is rejected. The scale is the number of
      fraction digits minus the exponent. */
  function Scan(body: string, i: nat, value: nat, digits: nat, fraction: nat, point: bool): (r: Option<Unsigned>)
    requires i <= |body|
    decreases |body| - i
  {
    if i == |body| then
      if digits >= 1 then Some(Unsigned(value, fraction)) else None
    else if IsDigit(body[i]) then
      Scan(body, i + 1, value * 10 + DigitValue(body[i]), digits + 1, if point then fraction + 1 else fraction, point)
    else if body[i] == '.' && !point then
      Scan(body, i + 1, value, digits, fraction, true)
    else if (body[i] == 'e' || body[i] == 'E') && digits >= 1 then
      match JavaLong.ParseSigned(body[i + 1..])
      case None => None
      case Some(x) => Some(Unsigned(value, fraction - x))
    else
      None
  }

  /** An unsigned decimal text: digits with at most one point and at least one digit
      ("12", "12.50", "12.", ".5"), then optionally 'e' or 'E' and an optionally signed
      integer exponent. */
  function ParseUnsigned(body: string): (r: Option<Unsigned>) {
    Scan(body, 0, 0, 0, 0, false)
  }

  /** new BigDecimal(String): an optional sign, then an unsigned decimal text.
      None stands for the NumberFormatException it throws. */
  function Parse(s: string): (r: Option<Decimal>)
    ensures r.Some? && |s| > 0 && s[0] == '-' ==> r.value.unscaled <= 0
    ensures r.Some? && (|s| == 0 || s[0] != '-') ==> r.value.unscaled >= 0
  {
    var signed := |s| > 0 && (s[0] == '-' || s[0] == '+');
    match ParseUnsigned(if signed then s[1..] else s)
    case None => None
    case Some(v) =>
      var magnitude: int := v.magnitude;
      Some(Decimal(if signed && s[0] == '-' then -magnitude else magnitude, v.scale))
  }

  // ---------- malformed text ----------

  /** With no digit left to read, the scan can only fail. */
  lemma {:induction false} ScanNoDigit(body: string, i: nat, value: nat, fraction: nat, point: bool)
    requires i <= |body|
    requires forall j :: i <= j < |body| ==> !IsDigit(body[j])
    ensures Scan(body, i, value, 0, fraction, point) == None
    decreases |body| - i
  {
    if i < |body| && body[i] == '.' && !point {
      ScanNoDigit(body, i + 1, value, fraction, true);
    }
  }

  /** Digits up to a second point: the scan fails at that point. */
  lemma {:induction false} ScanTwoPoints(body: string, i: nat, value: nat, digits: nat, fraction: nat,
                                         point: bool, p: nat, q: nat)
    requires i <= q < |body| && body[q] == '.'
    requires point ==> p < i
    requires !point ==> i <= p < q && body[p] == '.'
    requires forall k :: i <= k < q && k != p ==> IsDigit(body[k])
    ensures Scan(body, i, value, digits, fraction, point) == None
    decreases q - i
  {
    if i < q {
      if i == p {
        ScanTwoPoints(body, i + 1, value, digits, fraction, true, p, q);
      } else {
        ScanTwoPoints(body, i + 1, value * 10 + DigitValue(body[i]), digits + 1,
                      if point then fraction + 1 else fraction, point, p, q);
      }
    }
  }

  /** A text without a digit, the empty text included, is not a number. */
  lemma ParseRejectsNoDigit(s: string)
    requires forall j :: 0 <= j < |s| ==> !IsDigit(s[j])
    ensures Parse(s) == None
  {
    if |s| > 0 && (s[0] == '-' || s[0] == '+') {
      ScanNoDigit(s[1..], 0, 0, 0, false);
    } else {
      ScanNoDigit(s, 0, 0, 0, false);
    }
  }

  /** Digits with a second point, as in "1.2.3", are not a number. */
  lemma ParseRejectsSecondPoint(s: string, p: nat, q: nat)
    requires p < q < |s| && s[p] == '.' && s[q] == '.'
    requires forall k :: 0 <= k < q && k != p ==> IsDigit(s[k])
    ensures Parse(s) == None
  {
    ScanTwoPoints(s, 0, 0, 0, 0, false, p, q);
  }

  /** Concrete rejections, the grouping comma among them: the constructor does not
      accept "1,000.50", which is why the reader removes it first. */
  lemma RejectsMalformed()
    ensures Parse("") == None && Parse("abc") == None && Parse("1.2.3") == None
    ensures Parse("1,000.50") == None
  {
    ParseRejectsNoDigit("");
    ParseRejectsNoDigit("abc");
    ParseRejectsSecondPoint("1.2.3", 1, 3);
    var s := "1,000.50";
    assert Scan(s, 1, 1, 1, 0, false) == None;
  }

  /** The digits "100050" are worth 100050, read one digit at a time. */
  lemma ValueOfExample()
    ensures AllDigits("100050") && ValueOf("100050") == 100050
  {
    assert "10"[..1] == "1";
    assert "100"[..2] == "10";
    assert "1000"[..3] == "100";
    assert "10005"[..4] == "1000";
    assert "100050"[..5] == "10005";
  }

  /** "1000.50" is 100050 at scale 2: the trailing zero keeps its place in the scale. */
  lemma ParsePlainExample()
    ensures Parse("1000.50") == Some(Decimal(100050, 2))
  {
    var plain, digits := "1000.50", "100050";
    ValueOfExample();
    assert PointInserted(plain, digits, 4);
    ParsePointed(plain, digits, 4);
  }

  // ---------- the round trip ----------

  /** Reading digits only: SignificandValue agrees with ValueOf. */
  lemma {:induction false} SignificandValueOfDigits(s: string, b: nat)
    requires b <= |s| && DigitsBetween(s, 0, b)
    ensures AllDigits(s[..b]) && SignificandValue(s, b) == ValueOf(s[..b])
    decreases b
  {
    if b > 0 {
      SignificandValueOfDigits(s, b - 1);
      assert s[..b][..b - 1] == s[..b - 1];
    }
  }

  /** SignificandValue reads only the characters before b. */
  lemma {:induction false} SignificandValueSamePrefix(s: string, t: string, b: nat)
    requires b <= |s| && b <= |t|
    requires forall j :: 0 <= j < b ==> s[j] == t[j] && (IsDigit(s[j]) || s[j] == '.')
    ensures SignificandValue(s, b) == SignificandValue(t, b)
    decreases b
  {
    if b > 0 {
      SignificandValueSamePrefix(s, t, b - 1);
    }
  }

  /** s is t with a point inserted before t[k]. */
  predicate PointInserted(s: string, t: string, k: nat) {
    |s| == |t| + 1 && k <= |t| && s[k] == '.'
    && (forall j :: 0 <= j < k ==> s[j] == t[j])
    && (forall j :: k < j < |s| ==> s[j] == t[j - 1])
  }

  /** Past the point, the first b characters of s are worth the first b - 1 digits of t. */
  lemma {:induction false} SignificandValueAfterPoint(s: string, t: string, k: nat, b: nat)
    requires PointInserted(s, t, k) && AllDigits(t) && k < b <= |s|
    ensures forall j :: 0 <= j < b ==> IsDigit(s[j]) || s[j] == '.'
    ensures SignificandValue(s, b) == ValueOf(t[..b - 1])
    decreases b
  {
    if b == k + 1 {
      assert DigitsBetween(s, 0, k) by {
        forall j | 0 <= j < k ensures IsDigit(s[j]) { assert s[j] == t[j]; }
      }
      SignificandValueOfDigits(s, k);
      assert s[..k] == t[..k];
    } else {
      SignificandValueAfterPoint(s, t, k, b - 1);
      assert s[b - 1] == t[b - 2];
      assert t[..b - 1][..b - 2] == t[..b - 2];
    }
  }

  /** A point skipped: s, which is t with a point inserted, is worth t. */
  lemma PointedValue(s: string, t: string, k: nat)
    requires PointInserted(s, t, k) && AllDigits(t)
    ensures forall j :: 0 <= j < |s| ==> IsDigit(s[j]) || s[j] == '.'
    ensures DigitsBetween(s, 0, k) && DigitsBetween(s, k + 1, |s|)
    ensures SignificandValue(s, |s|) == ValueOf(t)
  {
    SignificandValueAfterPoint(s, t, k, |s|);
    assert t[..|t|] == t;
  }

  /** A run of digits s[i..j] extends the value digit by digit. */
  lemma {:induction false} ScanDigits(s: string, i: nat, j: nat, digits: nat, fraction: nat, point: bool)
    requires i <= j <= |s|
    requires forall k :: 0 <= k < i ==> IsDigit(s[k]) || s[k] == '.'
    requires DigitsBetween(s, i, j)
    ensures forall k :: 0 <= k < j ==> IsDigit(s[k]) || s[k] == '.'
    ensures Scan(s, i, SignificandValue(s, i), digits, fraction, point)
         == Scan(s, j, SignificandValue(s, j), digits + (j - i), if point then fraction + (j - i) else fraction, point)
    decreases j - i
  {
    if i < j {
      var v := SignificandValue(s, i);
      assert SignificandValue(s, i + 1) == v * 10 + DigitValue(s[i]);
      assert Scan(s, i, v, digits, fraction, point)
          == Scan(s, i + 1, v * 10 + DigitValue(s[i]), digits + 1, if point then fraction + 1 else fraction, point);
      ScanDigits(s, i + 1, j, digits + 1, if point then fraction + 1 else fraction, point);
    }
  }

  /** Digits only up to n (n >= 1): all of them are integer digits. */
  lemma ScanWhole(s: string, n: nat)
    requires 1 <= n <= |s| && DigitsBetween(s, 0, n)
    ensures ParseUnsigned(s) == Scan(s, n, SignificandValue(s, n), n, 0, false)
  {
    ScanDigits(s, 0, n, 0, 0, false);
  }

  /** Digits, a point at k >= 1, digits up to n: n - 1 digits, n - k - 1 of them after the point. */
  lemma ScanPointed(s: string, k: nat, n: nat)
    requires 1 <= k < n <= |s| && s[k] == '.'
    requires DigitsBetween(s, 0, k) && DigitsBetween(s, k + 1, n)
    ensures forall j :: 0 <= j < n ==> IsDigit(s[j]) || s[j] == '.'
    ensures ParseUnsigned(s) == Scan(s, n, SignificandValue(s, n), n - 1, n - k - 1, true)
  {
    ScanDigits(s, 0, k, 0, 0, false);
    assert SignificandValue(s, k + 1) == SignificandValue(s, k);
    ScanDigits(s, k + 1, n, k, 0, true);
  }

  /** 'E' after at least one digit: the rest is the exponent, which lowers the scale. */
  lemma ScanExponent(s: string, n: nat, value: nat, digits: nat, fraction: nat, point: bool, v: int)
    requires n < |s| && s[n] == 'E' && digits >= 1
    requires JavaLong.ParseSigned(s[n + 1..]) == Some(v)
    ensures Scan(s, n, value, digits, fraction, point) == Some(Unsigned(value, fraction - v))
  {
  }

  /** A digit string with no point or exponent reads as its value with scale 0. */
  lemma ParseDigits(m: string)
    requires |m| >= 1 && AllDigits(m)
    ensures ParseUnsigned(m).Some? && ParseUnsigned(m).value == Unsigned(ValueOf(m), 0)
  {
    ScanWhole(m, |m|);
    SignificandValueOfDigits(m, |m|);
    assert m[..|m|] == m;
  }

  /** A digit string with a point inserted after its first k >= 1 digits reads as the
      digits' value with the remaining |t| - k digits as the scale. */
  lemma ParsePointed(s: string, t: string, k: nat)
    requires PointInserted(s, t, k) && AllDigits(t) && k >= 1
    ensures ParseUnsigned(s).Some? && ParseUnsigned(s).value == Unsigned(ValueOf(t), |t| - k)
  {
    PointedValue(s, t, k);
    ScanPointed(s, k, |s|);
  }

  /** The digits of "0.00ddd" with the point removed are worth ddd. */
  lemma ShortPlainDigits(coeff: string, k: nat)
    requires AllDigits(coeff)
    ensures AllDigits("0" + (Zeros(k) + coeff))
    ensures ValueOf("0" + (Zeros(k) + coeff)) == ValueOf(coeff)
  {
    LeadingZeros(k, coeff);
    assert "0" == Zeros(1);
    LeadingZeros(1, Zeros(k) + coeff);
  }

  /** Plain notation is made of digits and at most one point, and starts with a digit. */
  lemma PlainChars(coeff: string, scale: nat)
    requires |coeff| >= 1 && AllDigits(coeff)
    ensures var body := Plain(coeff, scale);
      |body| >= 1 && IsDigit(body[0]) && forall j :: 0 <= j < |body| ==> IsDigit(body[j]) || body[j] == '.'
  {
    var body := Plain(coeff, scale);
    if scale > 0 && |coeff| > scale {
      var k := |coeff| - scale;
      assert body == coeff[..k] + "." + coeff[k..];
      forall j | 0 <= j < |body| ensures IsDigit(body[j]) || body[j] == '.' {
        if j < k { assert body[j] == coeff[j]; }
        else if j > k { assert body[j] == coeff[j - 1]; }
      }
    } else if scale > 0 {
      var z := Zeros(scale - |coeff|);
      assert body == "0" + "." + (z + coeff);
      forall j | 0 <= j < |body| ensures IsDigit(body[j]) || body[j] == '.' {
        if j >= 2 + |z| { assert body[j] == coeff[j - 2 - |z|]; }
        else if j >= 2 { assert body[j] == z[j - 2]; }
      }
    }
  }

  /** coeff[..k] + "." + coeff[k..] is coeff with a point inserted at k. */
  lemma SplitInserts(coeff: string, k: nat)
    requires k <= |coeff|
    ensures PointInserted(coeff[..k] + "." + coeff[k..], coeff, k)
  {
    var s := coeff[..k] + "." + coeff[k..];
    forall j | 0 <= j < k ensures s[j] == coeff[j] { }
    forall j | k < j < |s| ensures s[j] == coeff[j - 1] { assert s[j] == coeff[k..][j - k - 1]; }
  }

  /** Plain notation with fewer fraction digits than the coefficient has: a point inserted
      into the coefficient. */
  lemma PlainInserts(coeff: string, scale: nat)
    requires 0 < scale < |coeff|
    ensures PointInserted(Plain(coeff, scale), coeff, |coeff| - scale)
  {
    SplitInserts(coeff, |coeff| - scale);
  }

  lemma ParseLongPlain(coeff: string, scale: nat)
    requires |coeff| >= 1 && AllDigits(coeff) && 0 < scale < |coeff|
    ensures ParseUnsigned(Plain(coeff, scale)).Some? && ParseUnsigned(Plain(coeff, scale)).value == Unsigned(ValueOf(coeff), scale)
  {
    PlainInserts(coeff, scale);
    ParsePointed(Plain(coeff, scale), coeff, |coeff| - scale);
  }

  lemma ParseShortPlain(coeff: string, scale: nat)
    requires |coeff| >= 1 && AllDigits(coeff) && scale >= |coeff|
    ensures ParseUnsigned(Plain(coeff, scale)).Some? && ParseUnsigned(Plain(coeff, scale)).value == Unsigned(ValueOf(coeff), scale)
  {
    var t := "0" + (Zeros(scale - |coeff|) + coeff);
    assert Plain(coeff, scale) == t[..1] + "." + t[1..];
    SplitInserts(t, 1);
    ShortPlainDigits(coeff, scale - |coeff|);
    ParsePointed(Plain(coeff, scale), t, 1);
  }

  /** Plain notation reads back as the coefficient's value at the printed scale. */
  lemma ParsePlain(coeff: string, scale: nat)
    requires |coeff| >= 1 && AllDigits(coeff)
    ensures ParseUnsigned(Plain(coeff, scale)).Some? && ParseUnsigned(Plain(coeff, scale)).value == Unsigned(ValueOf(coeff), scale)
  {
    if scale == 0 {
      ParseDigits(coeff);
    } else if |coeff| > scale {
      ParseLongPlain(coeff, scale);
    } else {
      ParseShortPlain(coeff, scale);
    }
  }

  lemma ParseExponent(adjusted: int)
    ensures JavaLong.ParseSigned(Exponent(adjusted)) == Some(adjusted)
  {
    var x := Exponent(adjusted);
    assert x[1..] == NatToString(JavaLong.Abs(adjusted));
    ValueOfNatToString(JavaLong.Abs(adjusted));
  }

  lemma MantissaChars(coeff: string)
    requires |coeff| >= 1 && AllDigits(coeff)
    ensures var m := Mantissa(coeff);
      |m| >= 1 && IsDigit(m[0]) && forall j :: 0 <= j < |m| ==> IsDigit(m[j]) || m[j] == '.'
  {
    var m := Mantissa(coeff);
    if |coeff| > 1 {
      assert m == coeff[..1] + "." + coeff[1..];
      forall j | 0 <= j < |m| ensures IsDigit(m[j]) || m[j] == '.' {
        if j == 0 { assert m[j] == coeff[0]; }
        else if j > 1 { assert m[j] == coeff[j - 1]; }
      }
    }
  }

  /** One digit, 'E', an exponent: the digit's value, scaled by minus the exponent. */
  lemma ParseShortScientific(coeff: string, adjusted: int)
    requires |coeff| == 1 && AllDigits(coeff)
    ensures ParseUnsigned(Scientific(coeff, adjusted)).Some?
    ensures ParseUnsigned(Scientific(coeff, adjusted)).value == Unsigned(ValueOf(coeff), -adjusted)
  {
    var body := Scientific(coeff, adjusted);
    assert body == coeff + "E" + Exponent(adjusted);
    assert body[0] == coeff[0] && body[1] == 'E';
    assert body[2..] == Exponent(adjusted);
    ParseExponent(adjusted);
    ScanWhole(body, 1);
    ScanExponent(body, 1, SignificandValue(body, 1), 1, 0, false, adjusted);
    assert ValueOf(coeff) == DigitValue(coeff[0]) by {
      assert coeff[..0] == [];
    }
  }

  /** The layout of d.dddE±x: a digit, the point, digits up to the 'E' at n = |coeff| + 1,
      and the exponent after it; before n it agrees with the mantissa. */
  lemma ScientificShape(coeff: string, adjusted: int)
    requires |coeff| > 1 && AllDigits(coeff)
    ensures var body, m, n := Scientific(coeff, adjusted), coeff[..1] + "." + coeff[1..], |coeff| + 1;
      n < |body| && n == |m| && body[1] == '.' && body[n] == 'E'
      && DigitsBetween(body, 0, 1) && DigitsBetween(body, 2, n)
      && body[n + 1..] == Exponent(adjusted)
      && forall j :: 0 <= j < n ==> body[j] == m[j]
  {
    var m, x := coeff[..1] + "." + coeff[1..], Exponent(adjusted);
    var body := Scientific(coeff, adjusted);
    assert body == m + "E" + x;
    var n := |m|;
    assert body[0] == coeff[0];
    forall j | 2 <= j < n ensures IsDigit(body[j]) { assert body[j] == coeff[j - 1]; }
    assert body[n + 1..] == x;
  }

  /** d.ddd, 'E', an exponent: the digits' value with |coeff|-1 fraction digits, scaled by
      minus the exponent. */
  lemma ParseLongScientific(coeff: string, adjusted: int)
    requires |coeff| > 1 && AllDigits(coeff)
    ensures ParseUnsigned(Scientific(coeff, adjusted)).Some?
    ensures ParseUnsigned(Scientific(coeff, adjusted)).value == Unsigned(ValueOf(coeff), |coeff| - 1 - adjusted)
  {
    var m := coeff[..1] + "." + coeff[1..];
    var body := Scientific(coeff, adjusted);
    var n := |coeff| + 1;
    ScientificShape(coeff, adjusted);
    ParseExponent(adjusted);
    ScanPointed(body, 1, n);
    ScanExponent(body, n, SignificandValue(body, n), n - 1, n - 2, true, adjusted);
    SplitInserts(coeff, 1);
    PointedValue(m, coeff, 1);
    SignificandValueSamePrefix(body, m, n);
  }

  /** Scientific notation reads back as the coefficient's value, with |coeff|-1 fraction
      digits and the adjusted exponent. */
  lemma ParseScientific(coeff: string, adjusted: int)
    requires |coeff| >= 1 && AllDigits(coeff)
    ensures ParseUnsigned(Scientific(coeff, adjusted)).Some?
    ensures ParseUnsigned(Scientific(coeff, adjusted)).value == Unsigned(ValueOf(coeff), |coeff| - 1 - adjusted)
  {
    if |coeff| == 1 {
      ParseShortScientific(coeff, adjusted);
    } else {
      ParseLongScientific(coeff, adjusted);
    }
  }

  /** An unsigned text that starts with a digit parses as itself ... */
  lemma ParseUnsignedBody(body: string, v: Unsigned)
    requires |body| >= 1 && IsDigit(body[0])
    requires ParseUnsigned(body).Some? && ParseUnsigned(body).value == v
    ensures Parse(body) == Some(Decimal(v.magnitude, v.scale))
  {
  }

  /** ... and with a minus sign in front, as its negation. */
  lemma ParseNegatedBody(body: string, v: Unsigned)
    requires ParseUnsigned(body).Some? && ParseUnsigned(body).value == v
    ensures Parse("-" + body) == Some(Decimal(-(v.magnitude as int), v.scale))
  {
    assert ("-" + body)[1..] == body;
  }

  /** The unsigned part of d's printed form (Body), which reads back as |d| at d's scale. */
  function Magnitude(d: Decimal): (body: string)
    ensures |body| >= 1 && IsDigit(body[0])
    ensures ParseUnsigned(body).Some? && ParseUnsigned(body).value == Unsigned(JavaLong.Abs(d.unscaled), d.scale)
  {
    var coeff := NatToString(JavaLong.Abs(d.unscaled));
    var adjusted := -d.scale + (|coeff| - 1);
    ValueOfNatToString(JavaLong.Abs(d.unscaled));
    if d.scale >= 0 && adjusted >= -6 then
      PlainChars(coeff, d.scale);
      ParsePlain(coeff, d.scale);
      Plain(coeff, d.scale)
    else
      MantissaChars(coeff);
      assert Scientific(coeff, adjusted)[0] == Mantissa(coeff)[0];
      ParseScientific(coeff, adjusted);
      Scientific(coeff, adjusted)
  }

  /** new BigDecimal(d.toString()) equals d: the documented round trip of BigDecimal. */
  lemma ParseToString(d: Decimal)
    ensures Parse(ToString(d)) == Some(d)
  {
    var body := Magnitude(d);
    var v := Unsigned(JavaLong.Abs(d.unscaled), d.scale);
    assert body == Body(NatToString(JavaLong.Abs(d.unscaled)), d.scale, -d.scale + (|NatToString(JavaLong.Abs(d.unscaled))| - 1));
    if d.unscaled < 0 {
      assert ToString(d) == "-" + body;
      ParseNegatedBody(body, v);
    } else {
      assert ToString(d) == body;
      ParseUnsignedBody(body, v);
    }
  }

  /** Distinct decimals print differently, so the printed amount identifies the amount. */
  lemma ToStringInjective(a: Decimal, b: Decimal)
    ensures ToString(a) == ToString(b) <==> a == b
  {
    ParseToString(a);
    ParseToString(b);
  }

  /** Digits and points only: no field separator, grouping comma or blank. */
  lemma NoBarInDigitsAndPoints(s: string)
    requires forall j :: 0 <= j < |s| ==> IsDigit(s[j]) || s[j] == '.'
    ensures '|' !in s && ',' !in s
    ensures forall c :: c in s ==> ' ' < c
  {
  }

  lemma PlainHasNoBar(coeff: string, scale: nat)
    requires |coeff| >= 1 && AllDigits(coeff)
    ensures '|' !in Plain(coeff, scale) && ',' !in Plain(coeff, scale)
    ensures forall c :: c in Plain(coeff, scale) ==> ' ' < c
  {
    PlainChars(coeff, scale);
    NoBarInDigitsAndPoints(Plain(coeff, scale));
  }

  lemma ScientificHasNoBar(coeff: string, adjusted: int)
    requires |coeff| >= 1 && AllDigits(coeff)
    ensures '|' !in Scientific(coeff, adjusted) && ',' !in Scientific(coeff, adjusted)
    ensures forall c :: c in Scientific(coeff, adjusted) ==> ' ' < c
  {
    var digits := NatToString(JavaLong.Abs(adjusted));
    MantissaChars(coeff);
    NoBarInDigitsAndPoints(Mantissa(coeff));
    NoBarInDigitsAndPoints(digits);
    assert Exponent(adjusted) == (if adjusted < 0 then "-" else "+") + digits;
  }

  /** The printed form never contains the key delimiter '|', the grouping comma, or a
      blank or control character. */
  lemma ToStringHasNoBar(d: Decimal)
    ensures '|' !in ToString(d) && ',' !in ToString(d)
    ensures forall c :: c in ToString(d) ==> ' ' < c
  {
    var coeff := NatToString(JavaLong.Abs(d.unscaled));
    var adjusted := -d.scale + (|coeff| - 1);
    if d.scale >= 0 && adjusted >= -6 {
      PlainHasNoBar(coeff, d.scale);
    } else {
      ScientificHasNoBar(coeff, adjusted);
    }
  }


  // ---------- numeric comparison: BigDecimal.compareTo ----------

  function Max(a: int, b: int): int {
    if a < b then b else a
  }

  /** The unscaled value of d re-expressed at the finer scale s. */
  function Align(d: Decimal, s: int): int
    requires s >= d.scale
  {
    d.unscaled * Pow10(s - d.scale)
  }

  /** BigDecimal.compareTo: compares the values and ignores the scale. */
  function CompareTo(a: Decimal, b: Decimal): (c: int)
    ensures -1 <= c <= 1
  {
    var s := Max(a.scale, b.scale);
    var x := Align(a, s);
    var y := Align(b, s);
    if x < y then -1 else if x == y then 0 else 1
  }

  predicate LessEq(a: Decimal, b: Decimal) {
    CompareTo(a, b) <= 0
  }

  predicate NumericallyEqual(a: Decimal, b: Decimal) {
    CompareTo(a, b) == 0
  }

  lemma {:induction false} MultiplyStrict(x: int, y: int, q: nat)
    requires x < y && q >= 1
    ensures x * q < y * q
    decreases q
  {
    if q > 1 {
      MultiplyStrict(x, y, q - 1);
      assert x * q == x * (q - 1) + x;
      assert y * q == y * (q - 1) + y;
    }
  }

  lemma MultiplyPositive(x: int, y: int, q: int)
    requires q >= 1
    ensures x <= y <==> x * q <= y * q
    ensures x == y <==> x * q == y * q
  {
    if x < y {
      MultiplyStrict(x, y, q);
    } else if y < x {
      MultiplyStrict(y, x, q);
    }
  }

  /** Aligning further scales both sides by the same power of ten. */
  lemma AlignFurther(d: Decimal, s: int, t: int)
    requires d.scale <= s <= t
    ensures Align(d, t) == Align(d, s) * Pow10(t - s)
  {
    Pow10Add(s - d.scale, t - s);
    assert Pow10(t - d.scale) == Pow10(s - d.scale) * Pow10(t - s);
    assert d.unscaled * (Pow10(s - d.scale) * Pow10(t - s)) == (d.unscaled * Pow10(s - d.scale)) * Pow10(t - s);
  }

  /** Any common scale at least as fine as both operands gives the same comparison. */
  lemma CompareAt(a: Decimal, b: Decimal, s: int)
    requires s >= a.scale && s >= b.scale
    ensures LessEq(a, b) <==> Align(a, s) <= Align(b, s)
    ensures NumericallyEqual(a, b) <==> Align(a, s) == Align(b, s)
  {
    var m := Max(a.scale, b.scale);
    AlignFurther(a, m, s);
    AlignFurther(b, m, s);
    MultiplyPositive(Align(a, m), Align(b, m), Pow10(s - m));
  }

  lemma LessEqTransitive(a: Decimal, b: Decimal, c: Decimal)
    requires LessEq(a, b) && LessEq(b, c)
    ensures LessEq(a, c)
  {
    var s := Max(Max(a.scale, b.scale), c.scale);
    CompareAt(a, b, s);
    CompareAt(b, c, s);
    CompareAt(a, c, s);
  }

  lemma LessEqTotal(a: Decimal, b: Decimal)
    ensures LessEq(a, b) || LessEq(b, a)
  {
    var s := Max(a.scale, b.scale);
    CompareAt(a, b, s);
    CompareAt(b, a, s);
  }

  /** compareTo is antisymmetric only up to scale: it equates 50.0 and 50.00, equals does not. */
  lemma LessEqAntisymmetric(a: Decimal, b: Decimal)
    ensures LessEq(a, b) && LessEq(b, a) <==> NumericallyEqual(a, b)
    ensures NumericallyEqual(a, b) && a.scale == b.scale ==> a == b
  {
    var s := Max(a.scale, b.scale);
    CompareAt(a, b, s);
    CompareAt(b, a, s);
    if NumericallyEqual(a, b) && a.scale == b.scale {
      MultiplyPositive(a.unscaled, b.unscaled, Pow10(s - a.scale));
    }
  }

  lemma ScaleMatters()
    ensures NumericallyEqual(Decimal(500, 1), Decimal(5000, 2))
    ensures Decimal(500, 1) != Decimal(5000, 2)
  {
    CompareAt(Decimal(500, 1), Decimal(5000, 2), 2);
  }

  /** signum() agrees with comparing against zero. */
  lemma SignumIsCompareToZero(d: Decimal)
    ensures Signum(d) == CompareTo(d, Decimal(0, 0))
  {
    var s := Max(d.scale, 0);
    var q := Pow10(s - d.scale);
    MultiplyPositive(d.unscaled, 0, q);
  }
}

=== FILE: delimited.dfy ===
/** Splitting a line on a one-character delimiter, as DelimitedLineTokenizer does for
    unquoted input: every delimiter separates two fields, empty fields included. */
module Delimited {

  function Split(s: string, d: char): (fields: seq<string>)
    ensures |fields| >= 1
    ensures forall i :: 0 <= i < |fields| ==> d !in fields[i]
    decreases |s|
  {
    if |s| == 0 then
      [""]
    else
      var rest := Split(s[1..], d);
      if s[0] == d then [""] + rest else [[s[0]] + rest[0]] + rest[1..]
  }

  /** The inverse of Split: the fields with the delimiter between consecutive ones. */
  function Join(fields: seq<string>, d: char): (s: string)
    requires |fields| >= 1
    decreases |fields|
  {
    if |fields| == 1 then fields[0] else fields[0] + [d] + Join(fields[1..], d)
  }

  function Occurrences(s: string, d: char): nat
    decreases |s|
  {
    if |s| == 0 then 0 else (if s[0] == d then 1 else 0) + Occurrences(s[1..], d)
  }

  /** A line has one field more than it has delimiters. */
  lemma {:induction false} SplitCount(s: string, d: char)
    ensures |Split(s, d)| == Occurrences(s, d) + 1
    decreases |s|
  {
    if |s| > 0 {
      SplitCount(s[1..], d);
    }
  }

  /** DelimitedLineTokenizer's tokens: none for the empty line, the split fields for any
      other line. */
  function Tokens(s: string, d: char): (tokens: seq<string>)
    ensures tokens == [] <==> s == []
    ensures forall i :: 0 <= i < |tokens| ==> d !in tokens[i]
  {
    if s == [] then [] else Split(s, d)
  }

  /** The empty line has no token; any other line has one token more than it has
      delimiters, and the tokens joined back give the line. */
  lemma TokenCount(s: string, d: char)
    ensures |Tokens(s, d)| == if s == [] then 0 else Occurrences(s, d) + 1
    ensures s != [] ==> Join(Tokens(s, d), d) == s
  {
    SplitCount(s, d);
    JoinSplit(s, d);
  }

  /** Joining the fields of a split gives back the line. */
  lemma {:induction false} JoinSplit(s: string, d: char)
    ensures Join(Split(s, d), d) == s
    decreases |s|
  {
    if |s| > 0 {
      var rest := Split(s[1..], d);
      JoinSplit(s[1..], d);
      if s[0] == d {
        assert Split(s, d)[1..] == rest;
      } else {
        var fs := Split(s, d);
        if |rest| == 1 {
          assert fs == [[s[0]] + rest[0]];
        } else {
          assert fs[1..] == rest[1..];
          assert Join(rest, d) == rest[0] + [d] + Join(rest[1..], d);
        }
      }
    }
  }

  lemma {:induction false} SplitNoDelimiter(a: string, d: char)
    requires d !in a
    ensures Split(a, d) == [a]
    decreases |a|
  {
    if |a| > 0 {
      assert d !in a[1..];
      SplitNoDelimiter(a[1..], d);
      assert [a[0]] + a[1..] == a;
    }
  }

  /** A delimiter-free head is cut off as the first field. */
  lemma {:induction false} SplitHead(a: string, b: string, d: char)
    requires d !in a
    ensures Split(a + [d] + b, d) == [a] + Split(b, d)
    decreases |a|
  {
    if |a| == 0 {
      assert a + [d] + b == [d] + b;
      assert ([d] + b)[1..] == b;
    } else {
      var s := a + [d] + b;
      assert s[1..] == a[1..] + [d] + b;
      assert d !in a[1..];
      SplitHead(a[1..], b, d);
      assert [a[0]] + a[1..] == a;
    }
  }

  /** Splitting the join of delimiter-free fields gives back the fields. */
  lemma {:induction false} SplitJoin(fields: seq<string>, d: char)
    requires |fields| >= 1
    requires forall i :: 0 <= i < |fields| ==> d !in fields[i]
    ensures Split(Join(fields, d), d) == fields
    decreases |fields|
  {
    if |fields| == 1 {
      SplitNoDelimiter(fields[0], d);
    } else {
      SplitJoin(fields[1..], d);
      SplitHead(fields[0], Join(fields[1..], d), d);
    }
  }

  /** A delimiter-free tail is cut off as the last field. */
  lemma {:induction false} SplitTail(a: string, b: string, d: char)
    requires d !in b
    ensures Split(a + [d] + b, d) == Split(a, d) + [b]
    decreases |a|
  {
    var s := a + [d] + b;
    if |a| == 0 {
      assert s == [d] + b;
      assert s[1..] == b;
      SplitNoDelimiter(b, d);
    } else {
      assert s[1..] == a[1..] + [d] + b;
      SplitTail(a[1..], b, d);
      assert [a[0]] + a[1..] == a;
    }
  }

  /** Two joins that agree, each led by a delimiter-free part, agree part by part. */
  lemma PeelFront(a: string, x: string, b: string, y: string, d: char)
    requires d !in a && d !in b
    requires a + [d] + x == b + [d] + y
    ensures a == b && x == y
  {
    SplitHead(a, x, d);
    SplitHead(b, y, d);
    var fs := Split(a + [d] + x, d);
    assert fs == [a] + Split(x, d) && fs == [b] + Split(y, d);
    assert fs[0] == a && fs[0] == b;
    assert x == (a + [d] + x)[|a| + 1..];
    assert y == (b + [d] + y)[|b| + 1..];
  }

  /** Two joins that agree, each ended by a delimiter-free part, agree part by part. */
  lemma PeelBack(x: string, a: string, y: string, b: string, d: char)
    requires d !in a && d !in b
    requires x + [d] + a == y + [d] + b
    ensures a == b && x == y
  {
    SplitTail(x, a, d);
    SplitTail(y, b, d);
    var fs := Split(x + [d] + a, d);
    assert fs == Split(x, d) + [a] && fs == Split(y, d) + [b];
    assert fs[|fs| - 1] == a && fs[|fs| - 1] == b;
    var s := x + [d] + a;
    assert |x| == |y|;
    assert x == s[..|x|];
    assert y == s[..|y|];
  }

  /** Two delimiter-free fields in front come apart from what follows them. */
  lemma PeelFrontTwo(p1: string, p2: string, x: string, q1: string, q2: string, y: string, d: char)
    requires d !in p1 && d !in p2 && d !in q1 && d !in q2
    requires p1 + [d] + p2 + [d] + x == q1 + [d] + q2 + [d] + y
    ensures p1 == q1 && p2 == q2 && x == y
  {
    var ra, rb := p2 + [d] + x, q2 + [d] + y;
    assert p1 + [d] + p2 + [d] + x == p1 + [d] + ra;
    assert q1 + [d] + q2 + [d] + y == q1 + [d] + rb;
    PeelFront(p1, ra, q1, rb, d);
    PeelFront(p2, x, q2, y, d);
  }

  /** Two delimiter-free fields at the back come apart from what precedes them. */
  lemma PeelBackTwo(x: string, p4: string, p5: string, y: string, q4: string, q5: string, d: char)
    requires d !in p4 && d !in p5 && d !in q4 && d !in q5
    requires x + [d] + p4 + [d] + p5 == y + [d] + q4 + [d] + q5
    ensures x == y && p4 == q4 && p5 == q5
  {
    PeelBack(x + [d] + p4, p5, y + [d] + q4, q5, d);
    PeelBack(x, p4, y, q4, d);
  }

  /** Five fields joined by the delimiter, all but the middle one free of it, determine
      the fields: the middle one may hold the delimiter and is still recovered. */
  lemma JoinFiveInjective(p1: string, p2: string, m: string, p4: string, p5: string,
                          q1: string, q2: string, n: string, q4: string, q5: string, d: char)
    requires d !in p1 && d !in p2 && d !in p4 && d !in p5
    requires d !in q1 && d !in q2 && d !in q4 && d !in q5
    requires p1 + [d] + p2 + [d] + m + [d] + p4 + [d] + p5 == q1 + [d] + q2 + [d] + n + [d] + q4 + [d] + q5
    ensures p1 == q1 && p2 == q2 && m == n && p4 == q4 && p5 == q5
  {
    var x, y := m + [d] + p4 + [d] + p5, n + [d] + q4 + [d] + q5;
    assert p1 + [d] + p2 + [d] + m + [d] + p4 + [d] + p5 == p1 + [d] + p2 + [d] + x;
    assert q1 + [d] + q2 + [d] + n + [d] + q4 + [d] + q5 == q1 + [d] + q2 + [d] + y;
    PeelFrontTwo(p1, p2, x, q1, q2, y, d);
    PeelBackTwo(m, p4, p5, n, q4, q5, d);
  }
}

=== FILE: digits.dfy ===
/** Decimal digit strings: the textual form of natural numbers shared by
    Long.parseLong / Long.toString, java.time and java.math.BigDecimal.
    Only the ASCII digits '0'..'9' are modelled. */
module Digits {

  predicate IsDigit(c: char) {
    '0' <= c <= '9'
  }

  predicate AllDigits(s: string) {
    forall i :: 0 <= i < |s| ==> IsDigit(s[i])
  }

  function DigitValue(c: char): (d: nat)
    requires IsDigit(c)
    ensures d < 10
  {
    (c as int) - ('0' as int)
  }

  function DigitChar(d: nat): (c: char)
    requires d < 10
    ensures IsDigit(c) && DigitValue(c) == d
  {
    (('0' as int) + d) as char
  }

  function Pow10(n: nat): (p: nat)
    ensures p >= 1
  {
    if n == 0 then 1 else 10 * Pow10(n - 1)
  }

  /** The string of k zero digits. */
  function Zeros(k: nat): (z: string)
    ensures |z| == k && AllDigits(z)
  {
    seq(k, _ => '0')
  }

  /** The value of a digit string read most significant digit first; "" reads as 0. */
  function ValueOf(s: string): (v: nat)
    requires AllDigits(s)
    ensures v < Pow10(|s|)
  {
    if |s| == 0 then 0 else ValueOf(s[..|s| - 1]) * 10 + DigitValue(s[|s| - 1])
  }

  /** The shortest decimal form of n, as Long.toString and BigInteger.toString print it. */
  function NatToString(n: nat): (s: string)
    ensures |s| >= 1 && AllDigits(s)
    decreases n
  {
    if n < 10 then [DigitChar(n)] else NatToString(n / 10) + [DigitChar(n % 10)]
  }

  /** The last `width` decimal digits of n, zero-padded on the left (java.time's fixed-width fields). */
  function Padded(n: nat, width: nat): (s: string)
    ensures |s| == width && AllDigits(s)
  {
    if width == 0 then "" else Padded(n / 10, width - 1) + [DigitChar(n % 10)]
  }

  lemma Pow10Add(a: nat, b: nat)
    ensures Pow10(a + b) == Pow10(a) * Pow10(b)
  {
    if b > 0 {
      Pow10Add(a, b - 1);
      assert Pow10(a + b) == 10 * Pow10(a + b - 1);
    }
  }

  lemma AllDigitsAppend(a: string, b: string)
    requires AllDigits(a) && AllDigits(b)
    ensures AllDigits(a + b)
  {
    forall i | 0 <= i < |a + b| ensures IsDigit((a + b)[i]) {
      if i < |a| { assert (a + b)[i] == a[i]; } else { assert (a + b)[i] == b[i - |a|]; }
    }
  }

  lemma Regroup(x: int, p: int, y: int, d: int)
    ensures (x * p + y) * 10 + d == x * (10 * p) + (y * 10 + d)
  {
  }

  /** Reading a concatenation: the digits of `a` are worth 10^|b| times more. */
  lemma {:induction false} ValueOfAppend(a: string, b: string)
    requires AllDigits(a) && AllDigits(b)
    ensures AllDigits(a + b)
    ensures ValueOf(a + b) == ValueOf(a) * Pow10(|b|) + ValueOf(b)
  {
    AllDigitsAppend(a, b);
    if |b| > 0 {
      var b' := b[..|b| - 1];
      assert (a + b)[..|a + b| - 1] == a + b';
      assert (a + b)[|a + b| - 1] == b[|b| - 1];
      ValueOfAppend(a, b');
      var d := DigitValue(b[|b| - 1]);
      assert ValueOf(a + b) == ValueOf(a + b') * 10 + d;
      assert ValueOf(b) == ValueOf(b') * 10 + d;
      assert Pow10(|b|) == 10 * Pow10(|b'|);
      Regroup(ValueOf(a), Pow10(|b'|), ValueOf(b'), d);
    } else {
      assert a + b == a;
    }
  }

  lemma {:induction false} ValueOfZeros(k: nat)
    ensures ValueOf(Zeros(k)) == 0
  {
    if k > 0 {
      assert Zeros(k)[..k - 1] == Zeros(k - 1);
      ValueOfZeros(k - 1);
    }
  }

  /** Leading zeros do not change the value of a digit string. */
  lemma LeadingZeros(k: nat, s: string)
    requires AllDigits(s)
    ensures AllDigits(Zeros(k) + s) && ValueOf(Zeros(k) + s) == ValueOf(s)
  {
    ValueOfAppend(Zeros(k), s);
    ValueOfZeros(k);
  }

  /** NatToString is inverted by ValueOf, hence injective. */
  lemma {:induction false} ValueOfNatToString(n: nat)
    ensures ValueOf(NatToString(n)) == n
    decreases n
  {
    if n >= 10 {
      var p := NatToString(n / 10);
      var s := NatToString(n);
      assert s == p + [DigitChar(n % 10)];
      assert s[..|s| - 1] == p;
      ValueOfNatToString(n / 10);
    }
  }

  lemma NatToStringInjective(m: nat, n: nat)
    ensures NatToString(m) == NatToString(n) <==> m == n
  {
    if NatToString(m) == NatToString(n) {
      ValueOfNatToString(m);
      ValueOfNatToString(n);
    }
  }

  /** A number below 10^width survives fixed-width printing. */
  lemma {:induction false} ValueOfPadded(n: nat, width: nat)
    requires n < Pow10(width)
    ensures ValueOf(Padded(n, width)) == n
  {
    if width > 0 {
      var s := Padded(n, width);
      assert s[..|s| - 1] == Padded(n / 10, width - 1);
      ValueOfPadded(n / 10, width - 1);
    }
  }
}

=== FILE: dto.dfy ===
/** The transaction as the API returns it: every entity field except `processed`. */
module Dtos {
  import opened Results
  import Decimals
  import DateTime
  import opened Transactions

  datatype TransactionDto = TransactionDto(
    id: Option<int>,
    accountNumber: int,
    trxnAmount: Decimals.Decimal,
    description: string,
    trxnTimestamp: DateTime.Timestamp,
    customerId: int,
    version: Option<int>)

  /** TransactionDto.fromEntity: a field-for-field copy. */
  function FromEntity(t: Transaction): TransactionDto {
    TransactionDto(t.id, t.accountNumber, t.trxnAmount, t.description, t.trxnTimestamp, t.customerId, t.version)
  }

  /** The entity a DTO describes, given the one field the DTO does not carry. */
  function ToEntity(d: TransactionDto, processed: bool): (t: Transaction)
    ensures t.processed == processed
  {
    Transaction(d.id, d.accountNumber, d.trxnAmount, d.description, d.trxnTimestamp, d.customerId, d.version, processed)
  }

  /** fromEntity loses exactly the processed flag: every other field, absent values
      included, comes back unchanged. */
  lemma FromEntityRoundTrip(t: Transaction, d: TransactionDto, processed: bool)
    ensures ToEntity(FromEntity(t), t.processed) == t
    ensures FromEntity(ToEntity(d, processed)) == d
  {
  }

  /** Two entities project to the same DTO exactly when they differ at most in `processed`. */
  lemma FromEntityIgnoresProcessed(a: Transaction, b: Transaction)
    ensures FromEntity(a) == FromEntity(b) <==> a.(processed := false) == b.(processed := false)
  {
    if FromEntity(a) == FromEntity(b) {
      FromEntityRoundTrip(a, FromEntity(a), false);
      FromEntityRoundTrip(b, FromEntity(b), false);
      assert ToEntity(FromEntity(a), false) == a.(processed := false);
      assert ToEntity(FromEntity(b), false) == b.(processed := false);
    }
  }
}

=== FILE: error_handler.dfy ===
/** The global exception handler as one function from the exception that reached it to
    the error body and status. Which handler applies is decided by the exception's type;
    the kinds below are the types the handlers name, and Unexpected is everything else. */
module ErrorHandling {
  import opened Results
  import opened JavaString

  /** A field error of a failed @Valid binding: the field and its default message. */
  datatype FieldError = FieldError(field: string, defaultMessage: Option<string>)

  datatype Failure =
    | MethodArgumentNotValid(fieldErrors: seq<FieldError>)
    | EntityNotFound(message: Option<string>)
    | OptimisticLockingFailure(message: Option<string>)
    | DataIntegrityViolation(message: Option<string>)
    | Unexpected(message: Option<string>)

  /** The response body; the creation time it also carries is left out. */
  datatype ApiError = ApiError(status: int, error: string, message: Option<string>)

  const ValidationPrefix: string := "Validation failed: "
  const ConflictPrefix: string := "Conflict occurred: "
  const UnexpectedMessage: string := "An unexpected error occurred."

  /** "field: message; " for one field error. */
  function FieldErrorText(fe: FieldError): string {
    fe.field + ": " + Text(fe.defaultMessage) + "; "
  }

  /** The field errors' texts, in order, with nothing between them. */
  function FieldErrorsText(fes: seq<FieldError>): string
    decreases |fes|
  {
    if |fes| == 0 then "" else FieldErrorsText(fes[..|fes| - 1]) + FieldErrorText(fes[|fes| - 1])
  }

  function ValidationMessage(fes: seq<FieldError>): string {
    ValidationPrefix + FieldErrorsText(fes)
  }

  function Handle(f: Failure): (e: ApiError)
    ensures e.status in {400, 404, 409, 500}
    ensures e.status == 400 <==> f.MethodArgumentNotValid?
    ensures e.status == 404 <==> f.EntityNotFound?
    ensures e.status == 409 <==> f.OptimisticLockingFailure? || f.DataIntegrityViolation?
    ensures e.status == 500 <==> f.Unexpected?
  {
    match f
    case MethodArgumentNotValid(fes) => ApiError(400, "Bad Request", Some(ValidationMessage(fes)))
    case EntityNotFound(m) => ApiError(404, "Not Found", m)
    case OptimisticLockingFailure(m) => ApiError(409, "Conflict", Some(ConflictPrefix + Text(m)))
    case DataIntegrityViolation(m) => ApiError(409, "Conflict", Some(ConflictPrefix + Text(m)))
    case Unexpected(_) => ApiError(500, "Internal Server Error", Some(UnexpectedMessage))
  }

  /** The reason phrases of section 15 of RFC 9110 for the four statuses used. */
  function ReasonPhrase(status: int): string {
    if status == 400 then "Bad Request"
    else if status == 404 then "Not Found"
    else if status == 409 then "Conflict"
    else if status == 500 then "Internal Server Error"
    else ""
  }

  /** Every body's error text is its status's reason phrase, so status and error text
      determine each other across all handlers. */
  lemma StatusMatchesError(f: Failure, g: Failure)
    ensures Handle(f).error == ReasonPhrase(Handle(f).status)
    ensures Handle(f).status == Handle(g).status <==> Handle(f).error == Handle(g).error
  {
  }

  /** Appending field errors appends their texts: each error appears once, in order. */
  lemma {:induction false} FieldErrorsTextAppend(a: seq<FieldError>, b: seq<FieldError>)
    ensures FieldErrorsText(a + b) == FieldErrorsText(a) + FieldErrorsText(b)
    decreases |b|
  {
    if |b| == 0 {
      assert a + b == a;
    } else {
      var n := |b| - 1;
      assert (a + b)[..|a + b| - 1] == a + b[..n];
      assert (a + b)[|a + b| - 1] == b[n];
      calc {
        FieldErrorsText(a + b);
        FieldErrorsText(a + b[..n]) + FieldErrorText(b[n]);
        { FieldErrorsTextAppend(a, b[..n]); }
        FieldErrorsText(a) + FieldErrorsText(b[..n]) + FieldErrorText(b[n]);
      }
    }
  }

  /** The message is the prefix followed by each field error's text. */
  lemma ValidationMessageShape(fes: seq<FieldError>, fe: FieldError)
    ensures ValidationMessage([]) == ValidationPrefix
    ensures ValidationMessage(fes + [fe]) == ValidationMessage(fes) + fe.field + ": " + Text(fe.defaultMessage) + "; "
    ensures ValidationMessage([FieldError("description", Some("Description is required"))])
      == ValidationPrefix + "description: Description is required; "
  {
    assert (fes + [fe])[..|fes|] == fes;
    var one := FieldError("description", Some("Description is required"));
    assert [one][..0] == [];
    assert FieldErrorsText([one]) == FieldErrorText(one);
    assert Text(one.defaultMessage) == "Description is required";
    assert FieldErrorText(one) == "description: Description is required; ";
  }

  /** Not-found passes the exception message through; a conflict prefixes it, whichever of
      the two conflict exceptions it came from; the fallback never reveals it. */
  lemma MessagesByKind(m: Option<string>, other: Option<string>)
    ensures Handle(EntityNotFound(m)).message == m
    ensures Handle(OptimisticLockingFailure(m)) == Handle(DataIntegrityViolation(m))
    ensures m.Some? ==> Handle(OptimisticLockingFailure(m)).message == Some(ConflictPrefix + m.value)
    ensures Handle(Unexpected(m)) == Handle(Unexpected(other))
    ensures Handle(Unexpected(m)).message == Some("An unexpected error occurred.")
  {
  }
}

=== FILE: ingest.dfy ===
/** The import step run sequentially: the reader skips the first line and maps every
    other one; each record it produces goes through the processor. Read failures and
    the processor's validation failures are both skipped, up to Integer.MAX_VALUE skips
    in all; `Ingest` is the run with the limit set aside, and `Execute` is the step with
    it. */
module Ingestion {
  import opened Results
  import Decimals
  import opened Transactions
  import opened NaturalKeys
  import opened LineMapping
  import opened Processing

  /** What the reader hands on for one line: its number in the file (the skipped first
      line is line 1), its text, and the mapped record or the reason it failed. */
  datatype ReadResult = ReadResult(lineNumber: nat, line: string, result: Result<Transaction, ReadError>)

  /** A skipped item as the skip listener sees it: a line that could not be read, or a
      record the processor rejected. */
  datatype Skip =
    | ReadSkip(lineNumber: nat, line: string, error: ReadError)
    | ProcessSkip(item: Transaction, message: string)

  /** Everything a run has produced so far. `accepted` is what the writer receives. */
  datatype RunState = RunState(
    seen: set<string>,
    accepted: seq<Transaction>,
    filtered: seq<Transaction>,
    skips: seq<Skip>)

  const Initial: RunState := RunState({}, [], [], [])

  /** The reader over the data lines; data line i is line i + 2 of the file. */
  function Read(data: seq<string>): (rs: seq<ReadResult>)
    ensures |rs| == |data|
    ensures forall i :: 0 <= i < |data| ==> rs[i] == ReadResult(i + 2, data[i], MapLine(data[i]))
  {
    seq(|data|, i requires 0 <= i < |data| => ReadResult(i + 2, data[i], MapLine(data[i])))
  }

  /** What every record the line mapper produces satisfies, as far as the run needs it. */
  predicate WellRead(rs: seq<ReadResult>) {
    forall i :: 0 <= i < |rs| && rs[i].result.Ok? ==> ValidKey(KeyOf(rs[i].result.value))
  }

  lemma ReadIsWellRead(data: seq<string>)
    ensures WellRead(Read(data))
  {
  }

  /** One read result through the processor. */
  function Consume(st: RunState, r: ReadResult, stored: NaturalKey -> bool): RunState {
    match r.result
    case Err(e) => st.(skips := st.skips + [ReadSkip(r.lineNumber, r.line, e)])
    case Ok(item) =>
      var step := Process(st.seen, item, stored);
      match step.outcome
      case Filtered => st.(seen := step.seen, filtered := st.filtered + [item])
      case Passed(p) => st.(seen := step.seen, accepted := st.accepted + [p])
      case Rejected(p, m) => st.(seen := step.seen, skips := st.skips + [ProcessSkip(p, m)])
  }

  function Ingest(rs: seq<ReadResult>, stored: NaturalKey -> bool): RunState
    decreases |rs|
  {
    if |rs| == 0 then Initial
    else Consume(Ingest(rs[..|rs| - 1], stored), rs[|rs| - 1], stored)
  }

  /** A whole file: linesToSkip(1) drops the first line unread. */
  function Run(lines: seq<string>, stored: NaturalKey -> bool): RunState {
    if |lines| == 0 then Initial else Ingest(Read(lines[1..]), stored)
  }

  // ---------- reference definitions over the read results ----------

  predicate Maps(r: ReadResult) {
    r.result.Ok?
  }

  function KeyAt(rs: seq<ReadResult>, j: int): NaturalKey
    requires 0 <= j < |rs| && Maps(rs[j])
  {
    KeyOf(rs[j].result.value)
  }

  /** The natural keys of every record read. */
  function MappedKeys(rs: seq<ReadResult>): set<NaturalKey>
    decreases |rs|
  {
    if |rs| == 0 then {}
    else MappedKeys(rs[..|rs| - 1]) + (if Maps(rs[|rs| - 1]) then {KeyAt(rs, |rs| - 1)} else {})
  }

  /** An earlier record has the same natural key. */
  predicate EarlierDuplicate(rs: seq<ReadResult>, i: int)
    requires 0 <= i < |rs| && Maps(rs[i])
  {
    exists j :: 0 <= j < i && Maps(rs[j]) && KeyAt(rs, j) == KeyAt(rs, i)
  }

  predicate EligibleAt(rs: seq<ReadResult>, j: int, stored: NaturalKey -> bool)
    requires 0 <= j < |rs|
  {
    Maps(rs[j]) && !stored(KeyAt(rs, j)) && Decimals.Signum(KeyAt(rs, j).trxnAmount) >= 0
  }

  /** The natural keys a run should write: read, unknown to the store, not negative. */
  function Eligible(rs: seq<ReadResult>, stored: NaturalKey -> bool): set<NaturalKey> {
    set j | 0 <= j < |rs| && EligibleAt(rs, j, stored) :: KeyAt(rs, j)
  }

  function AcceptedKeys(st: RunState): set<NaturalKey> {
    set a | a in st.accepted :: KeyOf(a)
  }

  /** How record i fares, given the run so far. */
  function Outcome(rs: seq<ReadResult>, i: int, stored: NaturalKey -> bool): Step
    requires 0 <= i < |rs| && Maps(rs[i])
  {
    Process(Ingest(rs[..i], stored).seen, rs[i].result.value, stored)
  }

  // ---------- lemmas ----------

  /** Every data line ends up in exactly one place: accepted, filtered or skipped. */
  lemma {:induction false} Accounting(rs: seq<ReadResult>, stored: NaturalKey -> bool)
    ensures var st := Ingest(rs, stored);
      |st.accepted| + |st.filtered| + |st.skips| == |rs|
    decreases |rs|
  {
    if |rs| > 0 {
      Accounting(rs[..|rs| - 1], stored);
    }
  }

  lemma {:induction false} MappedKeysMember(rs: seq<ReadResult>, k: NaturalKey)
    ensures k in MappedKeys(rs) <==> exists j :: 0 <= j < |rs| && Maps(rs[j]) && KeyAt(rs, j) == k
    decreases |rs|
  {
    if |rs| > 0 {
      var n := |rs| - 1;
      var p := rs[..n];
      MappedKeysMember(p, k);
      if k in MappedKeys(p) {
        var j :| 0 <= j < |p| && Maps(p[j]) && KeyAt(p, j) == k;
        assert p[j] == rs[j];
      }
      if exists j :: 0 <= j < |rs| && Maps(rs[j]) && KeyAt(rs, j) == k {
        var j :| 0 <= j < |rs| && Maps(rs[j]) && KeyAt(rs, j) == k;
        if j < n {
          assert p[j] == rs[j];
        }
      }
    }
  }

  lemma WellReadPrefix(rs: seq<ReadResult>, n: nat)
    requires WellRead(rs) && n <= |rs|
    ensures WellRead(rs[..n])
  {
    forall i | 0 <= i < n && rs[..n][i].result.Ok?
      ensures ValidKey(KeyOf(rs[..n][i].result.value))
    {
      assert rs[..n][i] == rs[i];
    }
  }

  lemma ConsumeSeen(st: RunState, r: ReadResult, stored: NaturalKey -> bool)
    ensures Consume(st, r, stored).seen == st.seen + (if Maps(r) then {KeyString(KeyOf(r.result.value))} else {})
  {
  }

  /** One more record keeps the seen set in step with the keys read. */
  lemma SeenStep(st: RunState, r: ReadResult, stored: NaturalKey -> bool, keys: set<NaturalKey>)
    requires Maps(r) ==> ValidKey(KeyOf(r.result.value))
    requires forall k :: ValidKey(k) ==> (KeyString(k) in st.seen <==> k in keys)
    ensures forall k :: ValidKey(k) ==>
      (KeyString(k) in Consume(st, r, stored).seen <==> k in keys + (if Maps(r) then {KeyOf(r.result.value)} else {}))
  {
    ConsumeSeen(st, r, stored);
    if Maps(r) {
      forall k | ValidKey(k)
        ensures KeyString(k) == KeyString(KeyOf(r.result.value)) <==> k == KeyOf(r.result.value)
      {
        KeyStringInjective(k, KeyOf(r.result.value));
      }
    }
  }

  /** The seen set holds the key string of a key exactly when a record with that key has
      been read; it matters that distinct keys have distinct key strings. */
  lemma {:induction false} SeenIsMappedKeys(rs: seq<ReadResult>, stored: NaturalKey -> bool)
    requires WellRead(rs)
    ensures forall k :: ValidKey(k) ==> (KeyString(k) in Ingest(rs, stored).seen <==> k in MappedKeys(rs))
    decreases |rs|
  {
    if |rs| > 0 {
      var n := |rs| - 1;
      WellReadPrefix(rs, n);
      SeenIsMappedKeys(rs[..n], stored);
      SeenStep(Ingest(rs[..n], stored), rs[n], stored, MappedKeys(rs[..n]));
      assert Ingest(rs, stored) == Consume(Ingest(rs[..n], stored), rs[n], stored);
      assert MappedKeys(rs) == MappedKeys(rs[..n]) + (if Maps(rs[n]) then {KeyOf(rs[n].result.value)} else {});
    }
  }

  /** A record's key string has been seen exactly when an earlier record has its key. */
  lemma SeenMeansEarlierDuplicate(rs: seq<ReadResult>, i: int, stored: NaturalKey -> bool)
    requires WellRead(rs)
    requires 0 <= i < |rs| && Maps(rs[i])
    ensures KeyString(KeyAt(rs, i)) in Ingest(rs[..i], stored).seen <==> EarlierDuplicate(rs, i)
  {
    var p := rs[..i];
    WellReadPrefix(rs, i);
    SeenIsMappedKeys(p, stored);
    var k := KeyAt(rs, i);
    MappedKeysMember(p, k);
    if k in MappedKeys(p) {
      var j :| 0 <= j < |p| && Maps(p[j]) && KeyAt(p, j) == k;
      assert p[j] == rs[j];
    }
    if EarlierDuplicate(rs, i) {
      var j :| 0 <= j < i && Maps(rs[j]) && KeyAt(rs, j) == k;
      assert p[j] == rs[j];
    }
  }

  /** The fate of a record in terms of the input alone: a duplicate of an earlier record
      is filtered without a store query; otherwise the store is asked, and a key it does
      not know is accepted or, when negative, rejected. */
  lemma Fate(rs: seq<ReadResult>, i: int, stored: NaturalKey -> bool)
    requires WellRead(rs)
    requires 0 <= i < |rs| && Maps(rs[i])
    ensures var r := Outcome(rs, i, stored);
      var k := KeyAt(rs, i);
      && (r.queriedStore <==> !EarlierDuplicate(rs, i))
      && (r.outcome.Filtered? <==> EarlierDuplicate(rs, i) || stored(k))
      && (r.outcome.Passed? <==> !EarlierDuplicate(rs, i) && !stored(k) && Decimals.Signum(k.trxnAmount) >= 0)
      && (r.outcome.Rejected? <==> !EarlierDuplicate(rs, i) && !stored(k) && Decimals.Signum(k.trxnAmount) < 0)
  {
    SeenMeansEarlierDuplicate(rs, i, stored);
  }

  /** A later record with the same key is filtered without a store query, whatever
      happened to the first one; in particular a rejected negative amount is reported once. */
  lemma LaterDuplicateFiltered(rs: seq<ReadResult>, i: int, j: int, stored: NaturalKey -> bool)
    requires WellRead(rs)
    requires 0 <= i < j < |rs| && Maps(rs[i]) && Maps(rs[j])
    requires KeyAt(rs, i) == KeyAt(rs, j)
    ensures Outcome(rs, j, stored).outcome == Filtered
    ensures !Outcome(rs, j, stored).queriedStore
  {
    assert EarlierDuplicate(rs, j);
    Fate(rs, j, stored);
  }

  /** Every accepted record is marked, not negative, unknown to the store, and seen. */
  predicate AcceptedMarked(st: RunState, stored: NaturalKey -> bool) {
    forall a :: a in st.accepted ==>
      a.processed && Decimals.Signum(a.trxnAmount) >= 0 && !stored(KeyOf(a)) && KeyString(KeyOf(a)) in st.seen
  }

  /** Every accepted record is, but for its mark, a record that was read. */
  predicate AcceptedFromRead(st: RunState, rs: seq<ReadResult>) {
    forall a :: a in st.accepted ==> exists j :: 0 <= j < |rs| && rs[j].result == Ok(a.(processed := false))
  }

  predicate AcceptedDistinct(st: RunState) {
    forall i, j :: 0 <= i < j < |st.accepted| ==> KeyOf(st.accepted[i]) != KeyOf(st.accepted[j])
  }

  /** What the writer receives: marked records that were read, not negative, unknown to
      the store, with pairwise distinct natural keys, each recorded as seen. */
  predicate AcceptedSound(st: RunState, rs: seq<ReadResult>, stored: NaturalKey -> bool) {
    AcceptedMarked(st, stored) && AcceptedFromRead(st, rs) && AcceptedDistinct(st)
  }

  lemma ConsumeMarked(st: RunState, r: ReadResult, stored: NaturalKey -> bool)
    requires AcceptedMarked(st, stored)
    ensures AcceptedMarked(Consume(st, r, stored), stored)
  {
  }

  lemma ConsumeFromRead(st: RunState, p: seq<ReadResult>, r: ReadResult, stored: NaturalKey -> bool)
    requires AcceptedFromRead(st, p)
    requires r.result.Ok? ==> !r.result.value.processed
    ensures AcceptedFromRead(Consume(st, r, stored), p + [r])
  {
    var rs := p + [r];
    var st' := Consume(st, r, stored);
    forall a | a in st'.accepted
      ensures exists j :: 0 <= j < |rs| && rs[j].result == Ok(a.(processed := false))
    {
      if a in st.accepted {
        var j :| 0 <= j < |p| && p[j].result == Ok(a.(processed := false));
        assert rs[j] == p[j];
      } else {
        assert rs[|p|] == r;
      }
    }
  }

  lemma ConsumeDistinct(st: RunState, r: ReadResult, stored: NaturalKey -> bool)
    requires AcceptedMarked(st, stored) && AcceptedDistinct(st)
    ensures AcceptedDistinct(Consume(st, r, stored))
  {
    if r.result.Ok? {
      var step := Process(st.seen, r.result.value, stored);
      if step.outcome.Passed? {
        var a := step.outcome.item;
        forall i | 0 <= i < |st.accepted|
          ensures KeyOf(st.accepted[i]) != KeyOf(a)
        {
          assert st.accepted[i] in st.accepted;
        }
      }
    }
  }

  lemma {:induction false} IngestAcceptedSound(rs: seq<ReadResult>, stored: NaturalKey -> bool)
    requires forall i :: 0 <= i < |rs| && rs[i].result.Ok? ==> !rs[i].result.value.processed
    ensures AcceptedSound(Ingest(rs, stored), rs, stored)
    decreases |rs|
  {
    if |rs| > 0 {
      var n := |rs| - 1;
      var p := rs[..n];
      forall i | 0 <= i < |p| && p[i].result.Ok?
        ensures !p[i].result.value.processed
      {
        assert p[i] == rs[i];
      }
      IngestAcceptedSound(p, stored);
      var st := Ingest(p, stored);
      ConsumeMarked(st, rs[n], stored);
      ConsumeFromRead(st, p, rs[n], stored);
      ConsumeDistinct(st, rs[n], stored);
      assert p + [rs[n]] == rs;
    }
  }

  /** A whole run writes only sound records with pairwise distinct keys. */
  lemma RunAcceptedSound(lines: seq<string>, stored: NaturalKey -> bool)
    requires |lines| > 0
    ensures AcceptedSound(Run(lines, stored), Read(lines[1..]), stored)
  {
    IngestAcceptedSound(Read(lines[1..]), stored);
  }

  lemma EligibleSnoc(rs: seq<ReadResult>, stored: NaturalKey -> bool)
    requires |rs| > 0
    ensures var n := |rs| - 1;
      Eligible(rs, stored) == Eligible(rs[..n], stored) + (if EligibleAt(rs, n, stored) then {KeyAt(rs, n)} else {})
  {
    var p, n := rs[..|rs| - 1], |rs| - 1;
    forall x | x in Eligible(rs, stored)
      ensures x in Eligible(p, stored) || (EligibleAt(rs, n, stored) && x == KeyAt(rs, n))
    {
      var j :| 0 <= j < |rs| && EligibleAt(rs, j, stored) && KeyAt(rs, j) == x;
      if j < n {
        assert p[j] == rs[j];
        assert KeyAt(p, j) in Eligible(p, stored);
      }
    }
    forall x | x in Eligible(p, stored)
      ensures x in Eligible(rs, stored)
    {
      var j :| 0 <= j < |p| && EligibleAt(p, j, stored) && KeyAt(p, j) == x;
      assert p[j] == rs[j];
      assert KeyAt(rs, j) in Eligible(rs, stored);
    }
    if EligibleAt(rs, n, stored) {
      assert KeyAt(rs, n) in Eligible(rs, stored);
    }
  }

  /** Consuming one result adds the key of the record it passes, and nothing else. */
  lemma AcceptedKeysConsume(st: RunState, r: ReadResult, stored: NaturalKey -> bool)
    ensures AcceptedKeys(Consume(st, r, stored)) == AcceptedKeys(st)
      + (if Maps(r) && Process(st.seen, r.result.value, stored).outcome.Passed? then {KeyOf(r.result.value)} else {})
  {
    if Maps(r) && Process(st.seen, r.result.value, stored).outcome.Passed? {
      var a := r.result.value.(processed := true);
      assert Consume(st, r, stored).accepted == st.accepted + [a];
      assert KeyOf(a) == KeyOf(r.result.value);
    }
  }

  /** A record whose key the run has already seen adds nothing new to the eligible keys. */
  lemma DuplicateAlreadyEligible(rs: seq<ReadResult>, stored: NaturalKey -> bool)
    requires WellRead(rs) && |rs| > 0 && Maps(rs[|rs| - 1])
    requires KeyString(KeyAt(rs, |rs| - 1)) in Ingest(rs[..|rs| - 1], stored).seen
    ensures EligibleAt(rs, |rs| - 1, stored) ==> KeyAt(rs, |rs| - 1) in Eligible(rs[..|rs| - 1], stored)
  {
    var n := |rs| - 1;
    var p := rs[..n];
    SeenMeansEarlierDuplicate(rs, n, stored);
    var j :| 0 <= j < n && Maps(rs[j]) && KeyAt(rs, j) == KeyAt(rs, n);
    assert p[j] == rs[j];
    if EligibleAt(rs, n, stored) {
      assert KeyAt(p, j) == KeyAt(rs, n);
      EligibleMember(p, j, stored);
    }
  }

  lemma EligibleMember(rs: seq<ReadResult>, j: int, stored: NaturalKey -> bool)
    requires 0 <= j < |rs| && EligibleAt(rs, j, stored)
    ensures KeyAt(rs, j) in Eligible(rs, stored)
  {
  }

  /** The run writes exactly the eligible keys: every key read that is not negative and
      unknown to the store, and no other. */
  lemma {:induction false} AcceptedKeysAreEligible(rs: seq<ReadResult>, stored: NaturalKey -> bool)
    requires WellRead(rs)
    ensures AcceptedKeys(Ingest(rs, stored)) == Eligible(rs, stored)
    decreases |rs|
  {
    if |rs| > 0 {
      var n := |rs| - 1;
      var p := rs[..n];
      WellReadPrefix(rs, n);
      AcceptedKeysAreEligible(p, stored);
      EligibleSnoc(rs, stored);
      var st := Ingest(p, stored);
      AcceptedKeysConsume(st, rs[n], stored);
      if Maps(rs[n]) && KeyString(KeyAt(rs, n)) in st.seen {
        DuplicateAlreadyEligible(rs, stored);
      }
    }
  }

  /** Running the same file again, once the first run's records are stored, writes
      nothing: the import is idempotent. */
  lemma RerunAcceptsNothing(lines: seq<string>, stored: NaturalKey -> bool, after: NaturalKey -> bool)
    requires |lines| > 0
    requires forall k :: stored(k) ==> after(k)
    requires forall a :: a in Run(lines, stored).accepted ==> after(KeyOf(a))
    ensures Run(lines, after).accepted == []
  {
    var rs := Read(lines[1..]);
    ReadIsWellRead(lines[1..]);
    AcceptedKeysAreEligible(rs, stored);
    AcceptedKeysAreEligible(rs, after);
    forall k | k in Eligible(rs, after)
      ensures k in Eligible(rs, stored) && !after(k)
    {
      var j :| 0 <= j < |rs| && EligibleAt(rs, j, after) && KeyAt(rs, j) == k;
      assert EligibleAt(rs, j, stored);
    }
    assert forall k :: k in AcceptedKeys(Ingest(rs, stored)) ==> after(k);
    FirstAcceptedKey(Ingest(rs, after));
  }

  lemma FirstAcceptedKey(st: RunState)
    ensures |st.accepted| > 0 ==> KeyOf(st.accepted[0]) in AcceptedKeys(st)
  {
  }

  /** The first line is never read: whatever it holds, the run is the same. */
  lemma HeaderIgnored(header: string, other: string, data: seq<string>, stored: NaturalKey -> bool)
    ensures Run([header] + data, stored) == Run([other] + data, stored)
    ensures Run([header] + data, stored) == Ingest(Read(data), stored)
  {
    assert ([header] + data)[1..] == data;
    assert ([other] + data)[1..] == data;
  }

  /** Below the skip limit, however many lines fail to read, each is logged with its line
      number and text, and the run goes on. */
  lemma {:induction false} FailedReadsAllSkipped(rs: seq<ReadResult>, stored: NaturalKey -> bool)
    requires forall i :: 0 <= i < |rs| ==> rs[i].result.Err?
    ensures var st := Ingest(rs, stored);
      && st.accepted == [] && st.filtered == []
      && |st.skips| == |rs|
      && forall i :: 0 <= i < |rs| ==> st.skips[i] == ReadSkip(rs[i].lineNumber, rs[i].line, rs[i].result.error)
    decreases |rs|
  {
    if |rs| > 0 {
      var n := |rs| - 1;
      var p := rs[..n];
      assert forall i :: 0 <= i < |p| ==> p[i] == rs[i];
      FailedReadsAllSkipped(p, stored);
      var st := Ingest(p, stored);
      assert Ingest(rs, stored).skips == st.skips + [ReadSkip(rs[n].lineNumber, rs[n].line, rs[n].result.error)];
    }
  }

  // ---------- the skip limit ----------

  /** skipLimit(Integer.MAX_VALUE): the skips a step may count, read and process skips
      together. */
  const SkipLimit: nat := 0x7FFF_FFFF

  datatype StepError = SkipLimitExceeded(skipCount: nat)

  /** The step with its skip policy: a skippable failure is skipped only while the skips
      counted so far are below the limit; the one after that fails the step. */
  function Execute(rs: seq<ReadResult>, stored: NaturalKey -> bool): Result<RunState, StepError>
    decreases |rs|
  {
    if |rs| == 0 then Ok(Initial)
    else
      match Execute(rs[..|rs| - 1], stored)
      case Err(e) => Err(e)
      case Ok(st) =>
        var next := Consume(st, rs[|rs| - 1], stored);
        if |next.skips| > |st.skips| && |st.skips| >= SkipLimit then Err(SkipLimitExceeded(|st.skips|))
        else Ok(next)
  }

  /** One read result adds at most one skip. */
  lemma ConsumeSkips(st: RunState, r: ReadResult, stored: NaturalKey -> bool)
    ensures |Consume(st, r, stored).skips| == |st.skips| || |Consume(st, r, stored).skips| == |st.skips| + 1
  {
  }

  /** The step succeeds exactly when the run without a limit skips at most SkipLimit
      items, and then it is that run; otherwise it fails when the count reaches the
      limit. */
  lemma {:induction false} ExecuteWithinLimit(rs: seq<ReadResult>, stored: NaturalKey -> bool)
    ensures Execute(rs, stored).Ok? <==> |Ingest(rs, stored).skips| <= SkipLimit
    ensures Execute(rs, stored).Ok? ==> Execute(rs, stored).value == Ingest(rs, stored)
    ensures Execute(rs, stored).Err? ==> Execute(rs, stored).error == SkipLimitExceeded(SkipLimit)
    decreases |rs|
  {
    if |rs| > 0 {
      var p := rs[..|rs| - 1];
      ExecuteWithinLimit(p, stored);
      ConsumeSkips(Ingest(p, stored), rs[|rs| - 1], stored);
    }
  }

  /** Lines that all fail to read: the step logs them all when there are at most
      SkipLimit of them, and fails otherwise. */
  lemma FailedReadsHitLimit(rs: seq<ReadResult>, stored: NaturalKey -> bool)
    requires forall i :: 0 <= i < |rs| ==> rs[i].result.Err?
    ensures Execute(rs, stored).Ok? <==> |rs| <= SkipLimit
    ensures Execute(rs, stored).Ok? ==> Execute(rs, stored).value.skips == Ingest(rs, stored).skips
  {
    FailedReadsAllSkipped(rs, stored);
    ExecuteWithinLimit(rs, stored);
  }
}

=== FILE: java_long.dfy ===
/** java.lang.Long as the batch reader and the key builder use it:
    Long.parseLong (FieldSet.readLong) and Long.toString (string concatenation). */
module JavaLong {
  import opened Results
  import opened Digits

  const MinValue: int := -0x8000_0000_0000_0000
  const MaxValue: int := 0x7FFF_FFFF_FFFF_FFFF

  predicate InRange(n: int) {
    MinValue <= n <= MaxValue
  }

  function Abs(n: int): nat {
    if n < 0 then -n else n
  }

  /** The characters a printed integer is made of. */
  predicate IsNumeral(c: char) {
    IsDigit(c) || c == '-'
  }

  /** Long.toString: a minus sign for negative values, then the shortest digit string. */
  function ToString(n: int): (s: string)
    ensures |s| >= 1 && forall i :: 0 <= i < |s| ==> IsNumeral(s[i])
    ensures IsDigit(s[|s| - 1])
    ensures s[0] == '-' <==> n < 0
  {
    if n < 0 then "-" + NatToString(-n) else NatToString(n)
  }

  /** An optional sign followed by at least one digit, read without bound: the grammar
      Long.parseLong and BigDecimal's exponent share. */
  function ParseSigned(s: string): (r: Option<int>)
    ensures r.Some? ==> |s| >= 1 && IsDigit(s[|s| - 1])
    ensures r.Some? && IsDigit(s[0]) ==> r.value >= 0
  {
    if |s| >= 2 && (s[0] == '-' || s[0] == '+') && AllDigits(s[1..]) then
      var magnitude: int := ValueOf(s[1..]);
      Some(if s[0] == '-' then -magnitude else magnitude)
    else if |s| >= 1 && AllDigits(s) then
      Some(ValueOf(s))
    else
      None
  }

  /** Long.parseLong: None stands for the NumberFormatException it throws, which
      includes every value outside the 64-bit two's-complement range. */
  function Parse(s: string): (r: Option<int>)
    ensures r.Some? ==> InRange(r.value) && ParseSigned(s) == r
    ensures ParseSigned(s).Some? && InRange(ParseSigned(s).value) ==> r.Some?
  {
    match ParseSigned(s)
    case Some(n) => if InRange(n) then Some(n) else None
    case None => None
  }

  lemma ParseSignedToString(n: int)
    ensures ParseSigned(ToString(n)) == Some(n)
  {
    ValueOfNatToString(Abs(n));
    if n < 0 {
      assert ToString(n)[1..] == NatToString(-n);
    }
  }

  /** Printing then parsing a long gives it back. */
  lemma ParseToString(n: int)
    requires InRange(n)
    ensures Parse(ToString(n)) == Some(n)
  {
    ParseSignedToString(n);
  }

  lemma ToStringInjective(m: int, n: int)
    ensures ToString(m) == ToString(n) <==> m == n
  {
    if ToString(m) == ToString(n) {
      ParseSignedToString(m);
      ParseSignedToString(n);
    }
  }

  /** A character other than a digit anywhere after the first position makes the text unparsable. */
  lemma ParseRejectsNonDigit(s: string, i: nat)
    requires 0 < i < |s| && !IsDigit(s[i])
    ensures Parse(s) == None
  {
    assert s[1..][i - 1] == s[i];
  }

  /** A printed long never contains the key and line delimiter '|', nor a blank or
      control character. */
  lemma ToStringHasNoBar(n: int)
    ensures '|' !in ToString(n)
    ensures forall c :: c in ToString(n) ==> ' ' < c
  {
  }
}

=== FILE: java_string.dfy ===
/** The parts of java.lang.String the model relies on: trim(), ASCII toLowerCase(),
    substring search and the "null" text of string concatenation. */
module JavaString {
  import opened Results

  /** String.trim() removes leading and trailing characters whose code is at most U+0020. */
  predicate IsTrimmable(c: char) {
    c <= ' '
  }

  predicate IsBlank(s: string) {
    forall i :: 0 <= i < |s| ==> IsTrimmable(s[i])
  }

  /** Every character of s[a..b] is one trim() removes. */
  predicate BlankBetween(s: string, a: int, b: int) {
    forall j :: a <= j < b && 0 <= j < |s| ==> IsTrimmable(s[j])
  }

  /** The first index from `i` on whose character trim() keeps, or |s|: trim()'s
      forward scan. */
  function KeptFrom(s: string, i: nat): (k: nat)
    requires i <= |s|
    ensures i <= k <= |s|
    ensures BlankBetween(s, i, k)
    ensures k < |s| ==> !IsTrimmable(s[k])
    decreases |s| - i
  {
    if i < |s| && IsTrimmable(s[i]) then KeptFrom(s, i + 1) else i
  }

  /** One past the last index below `len`, and not below `start`, whose character trim()
      keeps: trim()'s backward scan. */
  function KeptUntil(s: string, start: nat, len: nat): (k: nat)
    requires start <= len <= |s|
    ensures start <= k <= len
    ensures BlankBetween(s, k, len)
    ensures k > start ==> !IsTrimmable(s[k - 1])
    decreases len
  {
    if start < len && IsTrimmable(s[len - 1]) then KeptUntil(s, start, len - 1) else len
  }

  /** String.trim(): the part between the two scans. */
  function Trim(s: string): (r: string)
    ensures r == [] || (!IsTrimmable(r[0]) && !IsTrimmable(r[|r| - 1]))
    ensures forall c :: c in r ==> c in s
  {
    var st := KeptFrom(s, 0);
    s[st..KeptUntil(s, st, |s|)]
  }

  /** trim() keeps a piece of s that neither starts nor ends with a trimmable character
      and removes only trimmable characters around it. */
  lemma TrimMeaning(s: string)
    ensures exists i ::
              0 <= i <= |s| - |Trim(s)| && Trim(s) == s[i..i + |Trim(s)|]
              && BlankBetween(s, 0, i) && BlankBetween(s, i + |Trim(s)|, |s|)
  {
    var st := KeptFrom(s, 0);
    var en := KeptUntil(s, st, |s|);
    assert Trim(s) == s[st..en];
    assert BlankBetween(s, 0, st) && BlankBetween(s, st + |Trim(s)|, |s|);
  }

  /** A string trims to nothing exactly when it is blank (the @NotBlank and normalize test). */
  lemma TrimEmptyIffBlank(s: string)
    ensures Trim(s) == [] <==> IsBlank(s)
  {
    var r := Trim(s);
    TrimMeaning(s);
    var i :| 0 <= i <= |s| - |r| && r == s[i..i + |r|] && BlankBetween(s, 0, i) && BlankBetween(s, i + |r|, |s|);
    if r != [] {
      assert s[i] == r[0];
    }
  }

  /** Scans over a piece that starts and ends with kept characters stop at once. */
  lemma KeptEnds(r: string)
    requires r == [] || (!IsTrimmable(r[0]) && !IsTrimmable(r[|r| - 1]))
    ensures KeptFrom(r, 0) == 0
    ensures KeptUntil(r, 0, |r|) == |r|
  {
  }

  lemma TrimIdempotent(s: string)
    ensures Trim(Trim(s)) == Trim(s)
  {
    var r := Trim(s);
    KeptEnds(r);
    assert r[0..|r|] == r;
  }

  /** A string with no trimmable character anywhere, such as a printed number or date,
      is left as it is by trim(). */
  lemma TrimSolid(s: string)
    requires forall c :: c in s ==> !IsTrimmable(c)
    ensures Trim(s) == s
  {
    if s != [] {
      assert s[0] in s && s[|s| - 1] in s;
    }
    KeptEnds(s);
    assert s[0..|s|] == s;
  }

  /** Lower-casing of one character; only the ASCII letters are modelled. */
  function LowerChar(c: char): (l: char)
    ensures !('A' <= l <= 'Z')
  {
    if 'A' <= c <= 'Z' then (c as int - 'A' as int + 'a' as int) as char else c
  }

  /** String.toLowerCase() and SQL LOWER(), on ASCII letters. */
  function ToLower(s: string): (r: string)
    ensures |r| == |s|
    ensures forall i :: 0 <= i < |s| ==> r[i] == LowerChar(s[i])
  {
    seq(|s|, i requires 0 <= i < |s| => LowerChar(s[i]))
  }

  lemma ToLowerIdempotent(s: string)
    ensures ToLower(ToLower(s)) == ToLower(s)
  {
  }

  /** Lower-casing never makes a character trimmable or untrimmable. */
  lemma LowerKeepsTrimmable(c: char)
    ensures IsTrimmable(LowerChar(c)) <==> IsTrimmable(c)
  {
  }

  lemma {:induction false} KeptFromLower(s: string, i: nat)
    requires i <= |s|
    ensures KeptFrom(ToLower(s), i) == KeptFrom(s, i)
    decreases |s| - i
  {
    if i < |s| {
      LowerKeepsTrimmable(s[i]);
      if IsTrimmable(s[i]) {
        KeptFromLower(s, i + 1);
      }
    }
  }

  lemma {:induction false} KeptUntilLower(s: string, start: nat, len: nat)
    requires start <= len <= |s|
    ensures KeptUntil(ToLower(s), start, len) == KeptUntil(s, start, len)
    decreases len
  {
    if start < len {
      LowerKeepsTrimmable(s[len - 1]);
      if IsTrimmable(s[len - 1]) {
        KeptUntilLower(s, start, len - 1);
      }
    }
  }

  /** Lower-casing commutes with trimming: neither touches what the other looks at. */
  lemma ToLowerTrim(s: string)
    ensures Trim(ToLower(s)) == ToLower(Trim(s))
  {
    var t := ToLower(s);
    var st := KeptFrom(s, 0);
    KeptFromLower(s, 0);
    var en := KeptUntil(s, st, |s|);
    KeptUntilLower(s, st, |s|);
    ToLowerSlice(s, st, en);
  }

  lemma ToLowerSlice(s: string, a: nat, b: nat)
    requires a <= b <= |s|
    ensures ToLower(s)[a..b] == ToLower(s[a..b])
  {
  }

  predicate IsPrefix(p: string, s: string) {
    |p| <= |s| && s[..|p|] == p
  }

  /** String.contains: some suffix of `s` starts with `needle`. */
  predicate Contains(s: string, needle: string)
    decreases |s|
  {
    IsPrefix(needle, s) || (|s| > 0 && Contains(s[1..], needle))
  }

  lemma {:induction false} ContainsAt(s: string, needle: string, i: nat)
    requires i + |needle| <= |s| && s[i..i + |needle|] == needle
    ensures Contains(s, needle)
  {
    if i > 0 {
      assert s[1..][i - 1..i - 1 + |needle|] == s[i..i + |needle|];
      ContainsAt(s[1..], needle, i - 1);
    }
  }

  /** String.replace(String.valueOf(c), ""): every occurrence of `c` removed, the rest
      kept in order. */
  function Remove(s: string, c: char): (r: string)
    ensures |r| <= |s|
    ensures forall x :: x in r <==> x in s && x != c
    decreases |s|
  {
    if |s| == 0 then []
    else
      var init := Remove(s[..|s| - 1], c);
      assert forall x :: x in s <==> x in s[..|s| - 1] || x == s[|s| - 1];
      if s[|s| - 1] == c then init else init + [s[|s| - 1]]
  }

  /** Removing a character the string does not hold changes nothing. */
  lemma {:induction false} RemoveAbsent(s: string, c: char)
    requires c !in s
    ensures Remove(s, c) == s
    decreases |s|
  {
    if |s| > 0 {
      assert c !in s[..|s| - 1];
      RemoveAbsent(s[..|s| - 1], c);
      assert s[..|s| - 1] + [s[|s| - 1]] == s;
    }
  }

  /** Removal works piece by piece: what is kept keeps its order, and a single character
      is dropped exactly when it is `c`. */
  lemma {:induction false} RemoveAppend(a: string, b: string, c: char)
    ensures Remove(a + b, c) == Remove(a, c) + Remove(b, c)
    ensures |b| == 1 ==> Remove(b, c) == if b[0] == c then [] else b
    decreases |b|
  {
    if |b| == 0 {
      assert a + b == a;
    } else {
      RemoveAppend(a, b[..|b| - 1], c);
      assert (a + b)[..|a + b| - 1] == a + b[..|b| - 1];
      if |b| == 1 {
        assert b[..0] == [];
      }
    }
  }

  /** A character outside the Basic Multilingual Plane, stored as a UTF-16 surrogate pair. */
  predicate IsSupplementary(c: char) {
    c as int >= 0x1_0000
  }

  /** String.length(): the number of UTF-16 code units, two for a supplementary character. */
  function Utf16Length(s: string): (n: nat)
    ensures |s| <= n <= 2 * |s|
    decreases |s|
  {
    if |s| == 0 then 0
    else Utf16Length(s[..|s| - 1]) + (if IsSupplementary(s[|s| - 1]) then 2 else 1)
  }

  /** String.length() agrees with the number of characters exactly when no character
      needs a surrogate pair, and doubles it when every character does. */
  lemma {:induction false} Utf16LengthCounts(s: string)
    ensures Utf16Length(s) == |s| <==> forall i :: 0 <= i < |s| ==> !IsSupplementary(s[i])
    ensures (forall i :: 0 <= i < |s| ==> IsSupplementary(s[i])) ==> Utf16Length(s) == 2 * |s|
    decreases |s|
  {
    if |s| > 0 {
      var init := s[..|s| - 1];
      Utf16LengthCounts(init);
      assert forall i :: 0 <= i < |init| ==> init[i] == s[i];
    }
  }

  /** The text Java's string concatenation and StringBuilder.append print for a possibly-null string. */
  function Text(s: Option<string>): (t: string)
    ensures s.Some? ==> t == s.value
    ensures s.None? ==> t == "null"
  {
    match s
    case Some(v) => v
    case None => "null"
  }
}

=== FILE: line_mapper.dfy ===
/** The reader's line mapper: a strict '|' tokenizer naming six fields, and the field-set
    mapper that builds a fresh transaction from them. Every failure here surfaces as a
    FlatFileParseException, which the step skips. */
module LineMapping {
  import opened Results
  import Delimited
  import JavaLong
  import Decimals
  import DateTime
  import Digits
  import opened Transactions
  import opened JavaString

  const Delimiter: char := '|'
  const GroupingSeparator: char := ','

  const Names: seq<string> := ["ACCOUNT_NUMBER", "TRX_AMOUNT", "DESCRIPTION", "TRX_DATE", "TRX_TIME", "CUSTOMER_ID"]

  /** Why a line could not be read. */
  datatype ReadError =
    | IncorrectTokenCount(expected: nat, actual: nat)
    | UnparseableLong(field: string, text: string)
    | UnparseableDecimal(field: string, text: string)
    | UnparseableDate(text: string)
    | UnparseableTime(text: string)

  /** DelimitedLineTokenizer with strict set: exactly one token per name. The empty line
      has no token at all. */
  function Tokenize(line: string): (r: Result<seq<string>, ReadError>)
    ensures r.Ok? ==> |r.value| == |Names| && Delimited.Join(r.value, Delimiter) == line
    ensures r.Ok? ==> forall i :: 0 <= i < |r.value| ==> Delimiter !in r.value[i]
    ensures r.Err? ==> r.error.IncorrectTokenCount? && r.error.expected == |Names| != r.error.actual
    ensures r.Err? ==> r.error.actual == if line == [] then 0 else Delimited.Occurrences(line, Delimiter) + 1
    ensures r.Err? <==> Delimited.Occurrences(line, Delimiter) != |Names| - 1
  {
    Delimited.TokenCount(line, Delimiter);
    var tokens := Delimited.Tokens(line, Delimiter);
    if |tokens| == |Names| then Ok(tokens) else Err(IncorrectTokenCount(|Names|, |tokens|))
  }

  /** FieldSet.readLong: Long.parseLong of the trimmed token. */
  function ReadLong(tokens: seq<string>, index: nat): (r: Result<int, ReadError>)
    requires index < |tokens| == |Names|
    ensures r.Ok? ==> JavaLong.InRange(r.value)
    ensures r.Ok? <==> JavaLong.Parse(Trim(tokens[index])).Some?
    ensures r.Ok? ==> r.value == JavaLong.Parse(Trim(tokens[index])).value
    ensures r.Err? ==> r.error == UnparseableLong(Names[index], Trim(tokens[index]))
  {
    var text := Trim(tokens[index]);
    match JavaLong.Parse(text)
    case Some(n) => Ok(n)
    case None => Err(UnparseableLong(Names[index], text))
  }

  /** FieldSet.readBigDecimal: the trimmed token, with the grouping separator ',' of
      Locale.US removed, as a BigDecimal. */
  function ReadDecimal(tokens: seq<string>, index: nat): (r: Result<Decimals.Decimal, ReadError>)
    requires index < |tokens| == |Names|
    ensures r.Ok? <==> Decimals.Parse(Remove(Trim(tokens[index]), GroupingSeparator)).Some?
    ensures r.Ok? ==> r.value == Decimals.Parse(Remove(Trim(tokens[index]), GroupingSeparator)).value
    ensures r.Err? ==> r.error == UnparseableDecimal(Names[index], Trim(tokens[index]))
  {
    var text := Trim(tokens[index]);
    match Decimals.Parse(Remove(text, GroupingSeparator))
    case Some(d) => Ok(d)
    case None => Err(UnparseableDecimal(Names[index], text))
  }

  /** LocalDate.parse of FieldSet.readString, which trims the token. */
  function ReadDate(tokens: seq<string>, index: nat): (r: Result<DateTime.Date, ReadError>)
    requires index < |tokens| == |Names|
    ensures r.Ok? ==> DateTime.ValidDate(r.value)
    ensures r.Ok? <==> DateTime.ParseDate(Trim(tokens[index])).Some?
    ensures r.Ok? ==> r.value == DateTime.ParseDate(Trim(tokens[index])).value
    ensures r.Err? ==> r.error == UnparseableDate(Trim(tokens[index]))
  {
    var text := Trim(tokens[index]);
    match DateTime.ParseDate(text)
    case Some(d) => Ok(d)
    case None => Err(UnparseableDate(text))
  }

  /** LocalTime.parse of FieldSet.readString, which trims the token. */
  function ReadTime(tokens: seq<string>, index: nat): (r: Result<DateTime.Time, ReadError>)
    requires index < |tokens| == |Names|
    ensures r.Ok? ==> DateTime.ValidTime(r.value)
    ensures r.Ok? <==> DateTime.ParseTime(Trim(tokens[index])).Some?
    ensures r.Ok? ==> r.value == DateTime.ParseTime(Trim(tokens[index])).value
    ensures r.Err? ==> r.error == UnparseableTime(Trim(tokens[index]))
  {
    var text := Trim(tokens[index]);
    match DateTime.ParseTime(text)
    case Some(t) => Ok(t)
    case None => Err(UnparseableTime(text))
  }

  /** TransactionFieldSetMapper.mapFieldSet: the fields are read in source order, so the
      first field that fails is the one reported. The description is readString's
      trimmed token. A line maps exactly when all five reads succeed, and the record
      holds what they read. */
  function MapFieldSet(tokens: seq<string>): (r: Result<Transaction, ReadError>)
    requires |tokens| == |Names|
    ensures r.Ok? <==> ReadLong(tokens, 0).Ok? && ReadDecimal(tokens, 1).Ok? && ReadDate(tokens, 3).Ok?
                       && ReadTime(tokens, 4).Ok? && ReadLong(tokens, 5).Ok?
    ensures r.Ok? ==>
      && r.value.accountNumber == ReadLong(tokens, 0).value
      && r.value.trxnAmount == ReadDecimal(tokens, 1).value
      && r.value.description == Trim(tokens[2])
      && r.value.trxnTimestamp == DateTime.Timestamp(ReadDate(tokens, 3).value, ReadTime(tokens, 4).value)
      && r.value.customerId == ReadLong(tokens, 5).value
    ensures r.Ok? ==> IsFresh(r.value)
    ensures r.Ok? ==> JavaLong.InRange(r.value.accountNumber) && JavaLong.InRange(r.value.customerId)
    ensures r.Ok? ==> DateTime.Valid(r.value.trxnTimestamp)
    ensures ReadLong(tokens, 0).Err? ==> r == Err(ReadLong(tokens, 0).error)
    ensures ReadLong(tokens, 0).Ok? && ReadDecimal(tokens, 1).Err? ==> r == Err(ReadDecimal(tokens, 1).error)
  {
    var account :- ReadLong(tokens, 0);
    var amount :- ReadDecimal(tokens, 1);
    var description := Trim(tokens[2]);
    var date :- ReadDate(tokens, 3);
    var time :- ReadTime(tokens, 4);
    var customer :- ReadLong(tokens, 5);
    Ok(Fresh(account, amount, description, DateTime.Timestamp(date, time), customer))
  }

  /** DefaultLineMapper.mapLine: tokenize, then map. */
  function MapLine(line: string): (r: Result<Transaction, ReadError>)
    ensures r.Ok? ==> IsFresh(r.value) && DateTime.Valid(r.value.trxnTimestamp)
    ensures r.Ok? ==> JavaLong.InRange(r.value.accountNumber) && JavaLong.InRange(r.value.customerId)
    ensures r.Ok? ==> Delimiter !in r.value.description && Trim(r.value.description) == r.value.description
    ensures Delimited.Occurrences(line, Delimiter) != |Names| - 1 ==>
      r == Err(IncorrectTokenCount(|Names|, if line == [] then 0 else Delimited.Occurrences(line, Delimiter) + 1))
    ensures Delimited.Occurrences(line, Delimiter) == |Names| - 1 ==>
      |Delimited.Split(line, Delimiter)| == |Names| && r == MapFieldSet(Delimited.Split(line, Delimiter))
  {
    Delimited.TokenCount(line, Delimiter);
    var tokens :- Tokenize(line);
    TrimIdempotent(tokens[2]);
    MapFieldSet(tokens)
  }

  /** Removing the separator from "1,000.50" leaves "1000.50". */
  lemma UngroupedText()
    ensures Remove("1,000.50", GroupingSeparator) == "1000.50"
  {
    assert "1,000.50" == "1" + "," + "000.50";
    RemoveAbsent("1", GroupingSeparator);
    RemoveAbsent("000.50", GroupingSeparator);
    RemoveAppend("1", ",", GroupingSeparator);
    RemoveAppend("1" + ",", "000.50", GroupingSeparator);
  }

  /** A grouped amount: "1,000.50" reads as 1000.50 at scale 2, while the BigDecimal
      constructor alone would refuse it. */
  lemma GroupedAmount(tokens: seq<string>)
    requires |tokens| == |Names| && tokens[1] == "1,000.50"
    ensures ReadDecimal(tokens, 1) == Ok(Decimals.Decimal(100050, 2))
    ensures Decimals.Parse(tokens[1]) == None
  {
    assert forall c :: c in tokens[1] ==> !IsTrimmable(c);
    TrimSolid(tokens[1]);
    UngroupedText();
    Decimals.ParsePlainExample();
    Decimals.RejectsMalformed();
  }

  /** The six printed fields of a record, in file order. */
  function FormatFields(t: Transaction): (fields: seq<string>)
    ensures |fields| == |Names|
  {
    [JavaLong.ToString(t.accountNumber), Decimals.ToString(t.trxnAmount), t.description,
      DateTime.DateToString(t.trxnTimestamp.date), DateTime.TimeToString(t.trxnTimestamp.time),
      JavaLong.ToString(t.customerId)]
  }

  /** A transaction as a data line of the input file, the inverse of MapLine. */
  function FormatLine(t: Transaction): string {
    Delimited.Join(FormatFields(t), Delimiter)
  }

  /** A printed long field reads back as the long. */
  lemma ReadLongBack(tokens: seq<string>, index: nat, n: int)
    requires index < |tokens| == |Names| && tokens[index] == JavaLong.ToString(n)
    requires JavaLong.InRange(n)
    ensures ReadLong(tokens, index) == Ok(n)
  {
    JavaLong.ToStringHasNoBar(n);
    TrimSolid(tokens[index]);
    JavaLong.ParseToString(n);
  }

  /** A printed amount field reads back as the amount, scale included. */
  lemma ReadDecimalBack(tokens: seq<string>, index: nat, d: Decimals.Decimal)
    requires index < |tokens| == |Names| && tokens[index] == Decimals.ToString(d)
    ensures ReadDecimal(tokens, index) == Ok(d)
  {
    Decimals.ToStringHasNoBar(d);
    TrimSolid(tokens[index]);
    RemoveAbsent(tokens[index], GroupingSeparator);
    Decimals.ParseToString(d);
  }

  /** Printed date and time fields read back as the timestamp's date and time. */
  lemma ReadTimestampBack(tokens: seq<string>, ts: DateTime.Timestamp)
    requires |tokens| == |Names| && DateTime.Valid(ts)
    requires tokens[3] == DateTime.DateToString(ts.date) && tokens[4] == DateTime.TimeToString(ts.time)
    ensures ReadDate(tokens, 3) == Ok(ts.date) && ReadTime(tokens, 4) == Ok(ts.time)
  {
    DateTime.ToStringHasNoBar(ts);
    TrimSolid(tokens[3]);
    TrimSolid(tokens[4]);
    DateTime.ParseDateToString(ts.date);
    DateTime.ParseTimeToString(ts.time);
  }

  /** The mapper assembles the record from what each field reads as. */
  lemma MapFieldSetOf(tokens: seq<string>, t: Transaction)
    requires |tokens| == |Names| && IsFresh(t)
    requires ReadLong(tokens, 0) == Ok(t.accountNumber) && ReadDecimal(tokens, 1) == Ok(t.trxnAmount)
    requires Trim(tokens[2]) == t.description
    requires ReadDate(tokens, 3) == Ok(t.trxnTimestamp.date) && ReadTime(tokens, 4) == Ok(t.trxnTimestamp.time)
    requires ReadLong(tokens, 5) == Ok(t.customerId)
    ensures MapFieldSet(tokens) == Ok(t)
  {
  }

  /** Each printed field reads back as the value it prints, trimming and separator
      removal included. */
  lemma ReadFormatFields(t: Transaction)
    requires IsFresh(t) && DateTime.Valid(t.trxnTimestamp)
    requires JavaLong.InRange(t.accountNumber) && JavaLong.InRange(t.customerId)
    requires Trim(t.description) == t.description
    ensures MapFieldSet(FormatFields(t)) == Ok(t)
  {
    var fields := FormatFields(t);
    assert fields[0] == JavaLong.ToString(t.accountNumber) && fields[1] == Decimals.ToString(t.trxnAmount);
    assert fields[2] == t.description && fields[5] == JavaLong.ToString(t.customerId);
    ReadLongBack(fields, 0, t.accountNumber);
    ReadDecimalBack(fields, 1, t.trxnAmount);
    ReadTimestampBack(fields, t.trxnTimestamp);
    ReadLongBack(fields, 5, t.customerId);
    MapFieldSetOf(fields, t);
  }

  /** Every record the mapper can produce is read back from its own line. */
  lemma MapFormatLine(t: Transaction)
    requires IsFresh(t) && DateTime.Valid(t.trxnTimestamp)
    requires JavaLong.InRange(t.accountNumber) && JavaLong.InRange(t.customerId)
    requires Delimiter !in t.description && Trim(t.description) == t.description
    ensures MapLine(FormatLine(t)) == Ok(t)
  {
    var ts := t.trxnTimestamp;
    var fields := FormatFields(t);
    JavaLong.ToStringHasNoBar(t.accountNumber);
    JavaLong.ToStringHasNoBar(t.customerId);
    Decimals.ToStringHasNoBar(t.trxnAmount);
    DateTime.ToStringHasNoBar(ts);
    assert DateTime.ToString(ts) == fields[3] + "T" + fields[4];
    Delimited.SplitJoin(fields, Delimiter);
    assert Tokenize(FormatLine(t)) == Ok(fields);
    ReadFormatFields(t);
  }
}

=== FILE: natural_key.dfy ===
/** The five business fields that identify a transaction for deduplication, and the
    string the batch processor builds from them: the five values printed with Java's
    string conversion and joined by '|'. */
module NaturalKeys {
  import Decimals
  import DateTime
  import JavaLong
  import Delimited
  import opened Transactions

  datatype NaturalKey = NaturalKey(
    accountNumber: int,
    trxnAmount: Decimals.Decimal,
    description: string,
    trxnTimestamp: DateTime.Timestamp,
    customerId: int)

  function KeyOf(t: Transaction): (k: NaturalKey)
    ensures k.trxnAmount == t.trxnAmount && k.trxnTimestamp == t.trxnTimestamp
  {
    NaturalKey(t.accountNumber, t.trxnAmount, t.description, t.trxnTimestamp, t.customerId)
  }

  function KeyString(k: NaturalKey): string {
    JavaLong.ToString(k.accountNumber) + "|" + Decimals.ToString(k.trxnAmount) + "|" + k.description + "|"
      + DateTime.ToString(k.trxnTimestamp) + "|" + JavaLong.ToString(k.customerId)
  }

  predicate ValidKey(k: NaturalKey) {
    DateTime.Valid(k.trxnTimestamp)
  }

  /** Distinct keys give distinct key strings, even when a description contains '|':
      the four other parts never do, and they sit two on each side of the description. */
  lemma KeyStringInjective(a: NaturalKey, b: NaturalKey)
    requires ValidKey(a) && ValidKey(b)
    ensures KeyString(a) == KeyString(b) <==> a == b
  {
    if KeyString(a) == KeyString(b) {
      JavaLong.ToStringHasNoBar(a.accountNumber);
      JavaLong.ToStringHasNoBar(b.accountNumber);
      JavaLong.ToStringHasNoBar(a.customerId);
      JavaLong.ToStringHasNoBar(b.customerId);
      Decimals.ToStringHasNoBar(a.trxnAmount);
      Decimals.ToStringHasNoBar(b.trxnAmount);
      DateTime.ToStringHasNoBar(a.trxnTimestamp);
      DateTime.ToStringHasNoBar(b.trxnTimestamp);
      Delimited.JoinFiveInjective(
        JavaLong.ToString(a.accountNumber), Decimals.ToString(a.trxnAmount), a.description,
        DateTime.ToString(a.trxnTimestamp), JavaLong.ToString(a.customerId),
        JavaLong.ToString(b.accountNumber), Decimals.ToString(b.trxnAmount), b.description,
        DateTime.ToString(b.trxnTimestamp), JavaLong.ToString(b.customerId), '|');
      JavaLong.ToStringInjective(a.accountNumber, b.accountNumber);
      JavaLong.ToStringInjective(a.customerId, b.customerId);
      Decimals.ToStringInjective(a.trxnAmount, b.trxnAmount);
      DateTime.ToStringInjective(a.trxnTimestamp, b.trxnTimestamp);
    }
  }
}

=== FILE: processor.dfy ===
/** The item processor: in-run deduplication on the key string, then the store's
    existence query, then marking and the sign check. The seen set is threaded through
    as a value; the existence query is an oracle over natural keys, fixed for the run. */
module Processing {
  import Decimals
  import opened Transactions
  import opened NaturalKeys

  /** What process() does with one record: returns null, returns the record, or throws
      the skippable IllegalArgumentException carrying `message`. */
  datatype Outcome =
    | Filtered
    | Passed(item: Transaction)
    | Rejected(item: Transaction, message: string)

  datatype Step = Step(seen: set<string>, queriedStore: bool, outcome: Outcome)

  const NegativeAmountPrefix: string := "Transaction amount must be positive: "

  function Process(seen: set<string>, item: Transaction, stored: NaturalKey -> bool): (r: Step)
    // the key is recorded whatever happens next, so a record is processed once per run
    ensures r.seen == seen + {KeyString(KeyOf(item))}
    // the store is consulted only for keys new to this run
    ensures r.queriedStore <==> KeyString(KeyOf(item)) !in seen
    ensures r.outcome.Filtered? <==> KeyString(KeyOf(item)) in seen || stored(KeyOf(item))
    ensures r.outcome.Passed? <==>
      KeyString(KeyOf(item)) !in seen && !stored(KeyOf(item)) && Decimals.Signum(item.trxnAmount) >= 0
    ensures r.outcome.Rejected? <==>
      KeyString(KeyOf(item)) !in seen && !stored(KeyOf(item)) && Decimals.Signum(item.trxnAmount) < 0
    // a record that gets past both checks is marked processed and otherwise unchanged
    ensures !r.outcome.Filtered? ==> r.outcome.item == item.(processed := true)
    ensures r.outcome.Rejected? ==> r.outcome.message == NegativeAmountPrefix + Decimals.ToString(item.trxnAmount)
  {
    var key := KeyString(KeyOf(item));
    if key in seen then
      Step(seen, false, Filtered)
    else if stored(KeyOf(item)) then
      Step(seen + {key}, true, Filtered)
    else
      var marked := item.(processed := true);
      if Decimals.Signum(marked.trxnAmount) < 0 then
        Step(seen + {key}, true, Rejected(marked, NegativeAmountPrefix + Decimals.ToString(marked.trxnAmount)))
      else
        Step(seen + {key}, true, Passed(marked))
  }

  /** The unit tests' scenario: a record passes, the same record again is filtered
      without a store query, and a new record with a negative amount is rejected. */
  lemma DuplicateThenNegative(item: Transaction, negative: Transaction, stored: NaturalKey -> bool)
    requires ValidKey(KeyOf(item)) && ValidKey(KeyOf(negative))
    requires !stored(KeyOf(item)) && !stored(KeyOf(negative))
    requires Decimals.Signum(item.trxnAmount) >= 0 && Decimals.Signum(negative.trxnAmount) < 0
    ensures var first := Process({}, item, stored);
      var second := Process(first.seen, item, stored);
      var third := Process(second.seen, negative, stored);
      && first.outcome == Passed(item.(processed := true))
      && second.outcome == Filtered && !second.queriedStore
      && third.outcome.Rejected?
  {
    KeyStringInjective(KeyOf(item), KeyOf(negative));
  }
}

=== FILE: results.dfy ===
/** Optional values (Java's nullable references) and success-or-error results
    (Java's exceptions), usable with the `:-` operator. */
module Results {

  /** A possibly-absent value: `None` stands for Java's `null`. */
  datatype Option<+T> = None | Some(value: T)

  /** The outcome of an operation that either yields a value or raises an error. */
  datatype Result<+T, +E> = Ok(value: T) | Err(error: E) {

    predicate IsFailure() {
      Err?
    }

    function PropagateFailure<U>(): Result<U, E>
      requires Err?
    {
      Err(error)
    }

    function Extract(): T
      requires Ok?
    {
      value
    }
  }
}

=== FILE: service.dfy ===
/** The transaction service over an in-memory picture of the table: a map from id to the
    stored record. Reads select and project; an update rewrites one record. */
module Service {
  import opened Results
  import JavaLong
  import opened Transactions
  import opened Dtos
  import Specifications

  type Store = map<int, Transaction>

  // ---------- the @Version counter: a java.lang.Integer ----------

  const IntegerMin: int := -0x8000_0000
  const IntegerMax: int := 0x7FFF_FFFF
  const IntegerModulus: int := 0x1_0000_0000

  /** Java int arithmetic: the value congruent to x modulo 2^32 in the int range. */
  function Wrap32(x: int): (r: int)
    ensures IntegerMin <= r <= IntegerMax
    ensures (r - x) % IntegerModulus == 0
    ensures IntegerMin <= x <= IntegerMax ==> r == x
  {
    (x - IntegerMin) % IntegerModulus + IntegerMin
  }

  /** The version the store writes when it updates a record; a record without a version
      keeps none. */
  function NextVersion(v: Option<int>): Option<int> {
    match v
    case None => None
    case Some(n) => Some(Wrap32(n + 1))
  }

  /** The counter goes up by one, and only the largest int wraps to the smallest. */
  lemma NextVersionCounts(n: int)
    requires IntegerMin <= n <= IntegerMax
    ensures n < IntegerMax ==> NextVersion(Some(n)) == Some(n + 1)
    ensures n == IntegerMax ==> NextVersion(Some(n)) == Some(IntegerMin)
    ensures NextVersion(Some(n)) != Some(n)
  {
  }

  // ---------- updateTransaction ----------

  datatype ServiceError = NotFound(message: string)

  function NotFoundMessage(id: int): string {
    "Transaction not found with id " + JavaLong.ToString(id)
  }

  /** Different ids give different not-found messages. */
  lemma NotFoundMessageInjective(a: int, b: int)
    ensures NotFoundMessage(a) == NotFoundMessage(b) <==> a == b
  {
    var prefix := "Transaction not found with id ";
    if NotFoundMessage(a) == NotFoundMessage(b) {
      assert JavaLong.ToString(a) == NotFoundMessage(a)[|prefix|..];
      assert JavaLong.ToString(b) == NotFoundMessage(b)[|prefix|..];
    }
    JavaLong.ToStringInjective(a, b);
  }

  /** The store after the call and what the call returns. */
  datatype Update = Update(store: Store, result: Result<TransactionDto, ServiceError>)

  /** Look the record up, set its description, save it. The DTO is built from the entity
      save returns, which is the managed record itself. The version is bumped when the
      transaction commits, after the DTO has been built, and only if the flush finds the
      record dirty: setting the description it already has writes nothing. */
  function UpdateTransaction(store: Store, id: int, newDescription: string): Update {
    if id !in store then
      Update(store, Err(NotFound(NotFoundMessage(id))))
    else
      var txn := store[id].(description := newDescription);
      var saved := if txn == store[id] then txn else txn.(version := NextVersion(txn.version));
      Update(store[id := saved], Ok(FromEntity(txn)))
  }

  /** A missing id fails with its message and changes nothing. */
  lemma UpdateMissing(store: Store, id: int, newDescription: string)
    requires id !in store
    ensures UpdateTransaction(store, id, newDescription).store == store
    ensures UpdateTransaction(store, id, newDescription).result == Err(NotFound(NotFoundMessage(id)))
  {
  }

  /** A present id: the DTO shows the new description with every other field as read. A
      new description is stored with the next version, and nothing else about that record
      or any other changes; the description it already has leaves the store untouched. */
  lemma UpdatePresent(store: Store, id: int, newDescription: string)
    requires id in store
    ensures var u := UpdateTransaction(store, id, newDescription);
      && u.result.Ok?
      && u.result.value.description == newDescription
      && ToEntity(u.result.value, store[id].processed) == store[id].(description := newDescription)
    ensures var u := UpdateTransaction(store, id, newDescription);
      u.store == store <==> newDescription == store[id].description
    ensures var u := UpdateTransaction(store, id, newDescription);
      newDescription != store[id].description ==>
        && u.store.Keys == store.Keys
        && (forall j :: j in store && j != id ==> u.store[j] == store[j])
        && u.store[id].description == newDescription
        && u.store[id].version == NextVersion(store[id].version)
        && u.store[id].(description := store[id].description, version := store[id].version) == store[id]
  {
    var u := UpdateTransaction(store, id, newDescription);
    if newDescription != store[id].description {
      assert u.store[id].description != store[id].description;
    }
  }

  /** Updating twice with the same text leaves the store as updating once: the second
      call finds the description already set and writes nothing. */
  lemma UpdateTwice(store: Store, id: int, d: string)
    requires id in store
    ensures var once := UpdateTransaction(store, id, d);
      var twice := UpdateTransaction(once.store, id, d);
      && twice.store == once.store
      && twice.result == Ok(FromEntity(once.store[id]))
      && twice.result.value.description == d
  {
  }

  // ---------- getTransactions ----------

  /** The specification withFilters builds, as a test on one row. */
  function Filter(customerId: Option<int>, accountNumber: Option<int>, description: Option<string>)
    : (keep: Transaction -> bool)
    ensures forall t :: keep(t) <==> Specifications.WithFilters(customerId, accountNumber, description, t)
  {
    t => Specifications.WithFilters(customerId, accountNumber, description, t)
  }

  /** The rows a specification admits, in table order. */
  function Select(rows: seq<Transaction>, keep: Transaction -> bool): (r: seq<Transaction>)
    ensures |r| <= |rows|
    ensures forall t :: t in r <==> t in rows && keep(t)
    decreases |rows|
  {
    if |rows| == 0 then []
    else
      var init := Select(rows[..|rows| - 1], keep);
      var last := rows[|rows| - 1];
      assert forall t :: t in rows <==> t in rows[..|rows| - 1] || t == last;
      if keep(last) then init + [last] else init
  }

  /** Selection distributes over concatenation, so table order is kept. */
  lemma {:induction false} SelectAppend(x: seq<Transaction>, y: seq<Transaction>, keep: Transaction -> bool)
    ensures Select(x + y, keep) == Select(x, keep) + Select(y, keep)
    decreases |y|
  {
    if |y| == 0 {
      assert x + y == x;
    } else {
      var n := |y| - 1;
      assert (x + y)[..|x + y| - 1] == x + y[..n];
      assert (x + y)[|x + y| - 1] == y[n];
      SelectAppend(x, y[..n], keep);
    }
  }

  /** With no filter every row is selected. */
  lemma {:induction false} SelectAll(rows: seq<Transaction>)
    ensures Select(rows, Filter(None, None, None)) == rows
    decreases |rows|
  {
    if |rows| > 0 {
      SelectAll(rows[..|rows| - 1]);
      Specifications.IdentityFilters(rows[|rows| - 1], 0, 0);
      assert rows[..|rows| - 1] + [rows[|rows| - 1]] == rows;
    }
  }

  /** Page.map(TransactionDto::fromEntity): one DTO per row, in the rows' order. */
  function Project(ts: seq<Transaction>): (r: seq<TransactionDto>)
    ensures |r| == |ts|
    ensures forall i :: 0 <= i < |ts| ==> r[i] == FromEntity(ts[i])
  {
    seq(|ts|, i requires 0 <= i < |ts| => FromEntity(ts[i]))
  }

  /** A page request: a zero-based page number and a positive page size. */
  datatype PageRequest = PageRequest(page: nat, size: nat)

  /** The first row a request asks for. The JPA query takes it as an int, so a larger
      offset is refused before the query runs. */
  function Offset(p: PageRequest): nat {
    p.page * p.size
  }

  /** A page of results and the number of results over all pages. */
  datatype Page<T> = Page(content: seq<T>, totalElements: nat)

  function Min(a: int, b: int): int {
    if a <= b then a else b
  }

  /** The slice of `items` the request asks for. */
  function PageOf<T>(items: seq<T>, p: PageRequest): (r: Page<T>)
    requires p.size > 0
    ensures r.totalElements == |items|
    ensures |r.content| <= p.size
    ensures |r.content| == 0 || Offset(p) + |r.content| <= |items|
    ensures forall i :: 0 <= i < |r.content| ==> r.content[i] == items[Offset(p) + i]
    ensures Offset(p) + p.size <= |items| ==> |r.content| == p.size
    ensures Offset(p) >= |items| ==> r.content == []
  {
    var start := Min(Offset(p), |items|);
    Page(items[start..Min(start + p.size, |items|)], |items|)
  }

  /** Pages tile the results: the j-th result is on page j / size at position j % size. */
  lemma PagesCover<T>(items: seq<T>, size: nat, j: nat) returns (page: nat)
    requires size > 0 && j < |items|
    ensures page == j / size && Offset(PageRequest(page, size)) <= j
    ensures var pg := PageOf(items, PageRequest(page, size)).content;
      j % size < |pg| && pg[j % size] == items[j]
  {
    page := j / size;
    assert page * size + j % size == j;
  }

  datatype QueryError = OffsetTooLarge(offset: nat)

  /** findAll(spec, pageable) mapped to DTOs, or the refusal of an offset beyond the int
      range. */
  function GetTransactions(rows: seq<Transaction>, customerId: Option<int>, accountNumber: Option<int>,
                           description: Option<string>, p: PageRequest): (r: Result<Page<TransactionDto>, QueryError>)
    requires p.size > 0
    ensures r.Err? <==> Offset(p) > IntegerMax
    ensures r.Err? ==> r.error == OffsetTooLarge(Offset(p))
  {
    if Offset(p) > IntegerMax then Err(OffsetTooLarge(Offset(p)))
    else Ok(PageOf(Project(Select(rows, Filter(customerId, accountNumber, description))), p))
  }

  /** What a page holds was among the items. */
  lemma PageMember<T>(items: seq<T>, p: PageRequest, x: T)
    requires p.size > 0
    requires x in PageOf(items, p).content
    ensures x in items
  {
    var pg := PageOf(items, p).content;
    var i :| 0 <= i < |pg| && pg[i] == x;
    assert items[Offset(p) + i] == x;
  }

  /** The projection holds exactly the DTOs of the rows. */
  lemma ProjectMember(ts: seq<Transaction>, dto: TransactionDto)
    ensures dto in Project(ts) <==> exists s :: s in ts && dto == FromEntity(s)
  {
    if dto in Project(ts) {
      var i :| 0 <= i < |ts| && Project(ts)[i] == dto;
      assert ts[i] in ts;
    }
    if exists s :: s in ts && dto == FromEntity(s) {
      var s :| s in ts && dto == FromEntity(s);
      var i :| 0 <= i < |ts| && ts[i] == s;
      assert Project(ts)[i] == dto;
    }
  }

  /** Every returned DTO comes from a row the filters admit, and the total counts them. */
  lemma GetTransactionsSound(rows: seq<Transaction>, c: Option<int>, a: Option<int>, d: Option<string>,
                             p: PageRequest, dto: TransactionDto)
    requires p.size > 0
    ensures var r := GetTransactions(rows, c, a, d, p);
      r.Ok? ==> r.value.totalElements == |Select(rows, Filter(c, a, d))|
    ensures var r := GetTransactions(rows, c, a, d, p);
      r.Ok? && dto in r.value.content ==>
        exists s :: s in rows && Specifications.WithFilters(c, a, d, s) && dto == FromEntity(s)
  {
    var sel := Select(rows, Filter(c, a, d));
    var r := GetTransactions(rows, c, a, d, p);
    if r.Ok? && dto in r.value.content {
      PageMember(Project(sel), p, dto);
      ProjectMember(sel, dto);
    }
  }

  /** A selected row's DTO lies on some page of any size, at an offset no larger than its
      position in the table. */
  lemma SelectedOnSomePage(rows: seq<Transaction>, keep: Transaction -> bool, size: nat, t: Transaction)
      returns (k: nat)
    requires size > 0
    requires t in rows && keep(t)
    ensures Offset(PageRequest(k, size)) < |rows|
    ensures FromEntity(t) in PageOf(Project(Select(rows, keep)), PageRequest(k, size)).content
  {
    var sel := Select(rows, keep);
    var all := Project(sel);
    assert t in sel;
    var j :| 0 <= j < |sel| && sel[j] == t;
    assert all[j] == FromEntity(t);
    k := PagesCover(all, size, j);
    var pg := PageOf(all, PageRequest(k, size)).content;
    assert pg[j % size] == FromEntity(t);
  }

  /** Every row the filters admit is returned on some page of any size, as long as the
      table holds no more rows than an int offset can reach. */
  lemma GetTransactionsComplete(rows: seq<Transaction>, c: Option<int>, a: Option<int>, d: Option<string>,
                                size: nat, t: Transaction)
    requires size > 0 && |rows| <= IntegerMax + 1
    requires t in rows && Specifications.WithFilters(c, a, d, t)
    ensures exists k: nat ::
      && GetTransactions(rows, c, a, d, PageRequest(k, size)).Ok?
      && FromEntity(t) in GetTransactions(rows, c, a, d, PageRequest(k, size)).value.content
  {
    var k := SelectedOnSomePage(rows, Filter(c, a, d), size, t);
    assert GetTransactions(rows, c, a, d, PageRequest(k, size)).Ok?;
  }
}

=== FILE: specifications.dfy ===
/** The query filters. Each filter takes an optional argument; an absent argument
    contributes no constraint (a null predicate, which Specification.and drops), a present
    one is an equality, an inclusive bound, or a case-insensitive LIKE. The filters are
    stated as predicates over one record: a record is in the result exactly when every
    filter holds of it. */
module Specifications {
  import opened Results
  import opened JavaString
  import Decimals
  import DateTime
  import opened Transactions

  // ---------- normalize ----------

  /** null or blank becomes "no value"; anything else is trimmed and lower-cased. */
  function Normalize(s: Option<string>): (r: Option<string>)
    ensures r.None? <==> s.None? || IsBlank(s.value)
    ensures r.Some? ==> r.value == ToLower(Trim(s.value)) && |r.value| > 0
  {
    match s
    case None => None
    case Some(v) =>
      TrimEmptyIffBlank(v);
      var trimmed := Trim(v);
      if |trimmed| == 0 then None else Some(ToLower(trimmed))
  }

  /** A normalized value normalizes to itself. */
  lemma NormalizeIdempotent(s: Option<string>)
    ensures Normalize(Normalize(s)) == Normalize(s)
  {
    if s.Some? && !IsBlank(s.value) {
      var t := Trim(s.value);
      ToLowerTrim(t);
      TrimIdempotent(s.value);
      ToLowerIdempotent(t);
    }
  }

  // ---------- SQL LIKE ----------

  /** `s LIKE p` with '%' matching any run of characters and '_' exactly one; no escape
      character is declared, so both are wildcards wherever they occur. */
  predicate Like(s: string, p: string)
    decreases |s| + |p|
  {
    if |p| == 0 then |s| == 0
    else if p[0] == '%' then Like(s, p[1..]) || (|s| > 0 && Like(s[1..], p))
    else |s| > 0 && (p[0] == '_' || p[0] == s[0]) && Like(s[1..], p[1..])
  }

  predicate HasWildcard(n: string) {
    '%' in n || '_' in n
  }

  /** The pattern descriptionContains builds around a needle. */
  function ContainsPattern(needle: string): string {
    "%" + needle + "%"
  }

  lemma {:induction false} LikeAnySuffix(s: string)
    ensures Like(s, "%")
    decreases |s|
  {
    assert "%"[1..] == "";
    if |s| > 0 {
      LikeAnySuffix(s[1..]);
    }
  }

  /** `n%` matches the strings that start with n, when n holds no wildcard. */
  lemma {:induction false} LikePrefix(s: string, n: string)
    requires !HasWildcard(n)
    ensures Like(s, n + "%") <==> IsPrefix(n, s)
    decreases |n|
  {
    if |n| == 0 {
      assert n + "%" == "%";
      LikeAnySuffix(s);
    } else {
      var p := n + "%";
      assert p[0] == n[0] && p[1..] == n[1..] + "%";
      assert !HasWildcard(n[1..]);
      if |s| > 0 {
        LikePrefix(s[1..], n[1..]);
        assert IsPrefix(n, s) <==> s[0] == n[0] && IsPrefix(n[1..], s[1..]) by {
          if |n| <= |s| {
            assert s[..|n|] == [s[0]] + s[1..][..|n| - 1];
            assert n == [n[0]] + n[1..];
          }
        }
      }
    }
  }

  /** `%n%` is substring search for a needle without wildcards. */
  lemma {:induction false} LikeContains(s: string, n: string)
    requires !HasWildcard(n)
    ensures Like(s, ContainsPattern(n)) <==> Contains(s, n)
    decreases |s|
  {
    var p := ContainsPattern(n);
    assert p[0] == '%' && p[1..] == n + "%";
    LikePrefix(s, n);
    if |s| > 0 {
      LikeContains(s[1..], n);
    }
  }

  /** A needle holding '_' matches where plain substring search would not. */
  lemma UnderscoreIsWildcard()
    ensures Like("abc", ContainsPattern("a_c"))
    ensures !Contains("abc", "a_c")
  {
    var p := ContainsPattern("a_c");
    assert p == "%a_c%";
    assert p[1..] == "a_c%" && "a_c%"[1..] == "_c%" && "_c%"[1..] == "c%" && "c%"[1..] == "%";
    assert "abc"[1..] == "bc" && "bc"[1..] == "c" && "c"[1..] == "";
    assert Like("", "%") by { assert "%"[1..] == ""; }
    assert Like("", "c%") == false;
    assert Like("c", "c%");
    assert Like("bc", "_c%");
    assert Like("abc", "a_c%");
    assert "abc"[..3] != "a_c";
    assert !Contains("", "a_c");
    assert !Contains("c", "a_c");
    assert !Contains("bc", "a_c");
  }

  // ---------- the filters ----------

  /** customerId = ? */
  predicate HasCustomerId(customerId: Option<int>, t: Transaction) {
    customerId.None? || t.customerId == customerId.value
  }

  /** accountNumber = ? */
  predicate HasAccountNumber(accountNumber: Option<int>, t: Transaction) {
    accountNumber.None? || t.accountNumber == accountNumber.value
  }

  /** lower(description) LIKE %needle%, needle being the normalized argument. */
  predicate DescriptionContains(value: Option<string>, t: Transaction) {
    var needle := Normalize(value);
    needle.None? || Like(ToLower(t.description), ContainsPattern(needle.value))
  }

  /** trxnTimestamp between the bounds, each inclusive and each optional. */
  predicate TimestampBetween(from: Option<DateTime.Timestamp>, to: Option<DateTime.Timestamp>, t: Transaction) {
    if from.None? && to.None? then true
    else if from.Some? && to.Some? then
      DateTime.LessEq(from.value, t.trxnTimestamp) && DateTime.LessEq(t.trxnTimestamp, to.value)
    else if from.Some? then DateTime.LessEq(from.value, t.trxnTimestamp)
    else DateTime.LessEq(t.trxnTimestamp, to.value)
  }

  /** trxnAmount >= min, numerically. */
  predicate AmountGte(min: Option<Decimals.Decimal>, t: Transaction) {
    min.None? || Decimals.LessEq(min.value, t.trxnAmount)
  }

  /** trxnAmount <= max, numerically. */
  predicate AmountLte(max: Option<Decimals.Decimal>, t: Transaction) {
    max.None? || Decimals.LessEq(t.trxnAmount, max.value)
  }

  /** The aggregator the service uses. */
  predicate WithFilters(customerId: Option<int>, accountNumber: Option<int>, description: Option<string>, t: Transaction) {
    HasCustomerId(customerId, t) && HasAccountNumber(accountNumber, t) && DescriptionContains(description, t)
  }

  /** The six-way aggregator, with the attribute names corrected (see the finding below). */
  predicate WithExtendedFilters(
    customerId: Option<int>, accountNumber: Option<int>, description: Option<string>,
    from: Option<DateTime.Timestamp>, to: Option<DateTime.Timestamp>,
    minAmount: Option<Decimals.Decimal>, maxAmount: Option<Decimals.Decimal>, t: Transaction)
  {
    && HasCustomerId(customerId, t) && HasAccountNumber(accountNumber, t) && DescriptionContains(description, t)
    && TimestampBetween(from, to, t) && AmountGte(minAmount, t) && AmountLte(maxAmount, t)
  }

  // ---------- properties of the filters ----------

  /** With no arguments every record matches; with one, exactly the records equal on
      that field. */
  lemma IdentityFilters(t: Transaction, customerId: int, accountNumber: int)
    ensures WithFilters(None, None, None, t)
    ensures HasCustomerId(Some(customerId), t) <==> t.customerId == customerId
    ensures HasAccountNumber(Some(accountNumber), t) <==> t.accountNumber == accountNumber
  {
  }

  /** The description filter is a case-insensitive substring test when the needle holds
      no wildcard, and a blank needle imposes nothing. */
  lemma DescriptionContainsMeaning(value: Option<string>, t: Transaction)
    ensures Normalize(value).None? ==> DescriptionContains(value, t)
    ensures Normalize(value).Some? && !HasWildcard(Normalize(value).value) ==>
      (DescriptionContains(value, t) <==> Contains(ToLower(t.description), ToLower(Trim(value.value))))
  {
    if Normalize(value).Some? && !HasWildcard(Normalize(value).value) {
      LikeContains(ToLower(t.description), Normalize(value).value);
    }
  }

  /** The pattern for "Test" is %test%. */
  lemma TestPattern()
    ensures Normalize(Some("Test")) == Some("test")
    ensures ContainsPattern(Normalize(Some("Test")).value) == "%test%"
  {
    KeptEnds("Test");
    assert Trim("Test") == "Test";
    assert ToLower("Test") == "test";
  }

  /** A single bound is the one-sided inclusive comparison; both bounds mean from <= t <= to. */
  lemma TimestampBounds(from: DateTime.Timestamp, to: DateTime.Timestamp, t: Transaction)
    ensures TimestampBetween(None, None, t)
    ensures TimestampBetween(Some(from), None, t) <==> DateTime.LessEq(from, t.trxnTimestamp)
    ensures TimestampBetween(None, Some(to), t) <==> DateTime.LessEq(t.trxnTimestamp, to)
    ensures TimestampBetween(Some(from), Some(to), t) <==>
      TimestampBetween(Some(from), None, t) && TimestampBetween(None, Some(to), t)
    ensures t.trxnTimestamp == from ==> TimestampBetween(Some(from), Some(to), t) == DateTime.LessEq(from, to)
  {
    if t.trxnTimestamp == from {
      DateTime.CompareIsLexicographic(from, from);
    }
  }

  /** Bounds out of order select nothing. */
  lemma EmptyRange(from: DateTime.Timestamp, to: DateTime.Timestamp, t: Transaction)
    requires !DateTime.LessEq(from, to)
    ensures !TimestampBetween(Some(from), Some(to), t)
  {
    if TimestampBetween(Some(from), Some(to), t) {
      DateTime.LessEqTransitive(from, t.trxnTimestamp, to);
    }
  }

  /** The amount bounds compare values, not representations: 50.0 and 50.00 are
      selected together. */
  lemma AmountBoundsIgnoreScale(min: Option<Decimals.Decimal>, max: Option<Decimals.Decimal>, a: Transaction, b: Transaction)
    requires Decimals.NumericallyEqual(a.trxnAmount, b.trxnAmount)
    ensures AmountGte(min, a) <==> AmountGte(min, b)
    ensures AmountLte(max, a) <==> AmountLte(max, b)
  {
    Decimals.LessEqAntisymmetric(a.trxnAmount, b.trxnAmount);
    if min.Some? {
      if AmountGte(min, a) { Decimals.LessEqTransitive(min.value, a.trxnAmount, b.trxnAmount); }
      if AmountGte(min, b) { Decimals.LessEqTransitive(min.value, b.trxnAmount, a.trxnAmount); }
    }
    if max.Some? {
      if AmountLte(max, a) { Decimals.LessEqTransitive(b.trxnAmount, a.trxnAmount, max.value); }
      if AmountLte(max, b) { Decimals.LessEqTransitive(a.trxnAmount, b.trxnAmount, max.value); }
    }
  }

  /** The extended aggregator selects a subset of the basic one, and the same set when it
      is given no range bounds. */
  lemma ExtendedRefinesBasic(
    customerId: Option<int>, accountNumber: Option<int>, description: Option<string>,
    from: Option<DateTime.Timestamp>, to: Option<DateTime.Timestamp>,
    minAmount: Option<Decimals.Decimal>, maxAmount: Option<Decimals.Decimal>, t: Transaction)
    ensures WithExtendedFilters(customerId, accountNumber, description, from, to, minAmount, maxAmount, t) ==>
      WithFilters(customerId, accountNumber, description, t)
    ensures WithExtendedFilters(customerId, accountNumber, description, None, None, None, None, t) <==>
      WithFilters(customerId, accountNumber, description, t)
  {
  }

  // ---------- the attribute paths as written ----------

  const CustomerIdPath: string := "customerId"
  const AccountNumberPath: string := "accountNumber"
  const DescriptionPath: string := "description"
  const TimestampPath: string := "trxTimestamp"
  const AmountPath: string := "trxAmount"

  /** The persistent attributes of the transaction entity, by field name. */
  const Attributes: set<string> :=
    {"id", "accountNumber", "trxnAmount", "description", "trxnTimestamp", "customerId", "version", "isProcessed"}

  /** root.get with a name that is not an attribute throws while the query is built. */
  datatype QueryError = UnknownAttribute(path: string)

  function TimestampAt(path: string, t: Transaction): (r: Result<DateTime.Timestamp, QueryError>)
    ensures r.Ok? <==> path == "trxnTimestamp"
  {
    if path == "trxnTimestamp" then Ok(t.trxnTimestamp) else Err(UnknownAttribute(path))
  }

  function AmountAt(path: string, t: Transaction): (r: Result<Decimals.Decimal, QueryError>)
    ensures r.Ok? <==> path == "trxnAmount"
  {
    if path == "trxnAmount" then Ok(t.trxnAmount) else Err(UnknownAttribute(path))
  }

  /** timestampBetween over the attribute named `path`: the path is resolved only when a
      bound is present. */
  function TimestampBetweenAt(path: string, from: Option<DateTime.Timestamp>, to: Option<DateTime.Timestamp>,
                              t: Transaction): Result<bool, QueryError> {
    if from.None? && to.None? then Ok(true)
    else
      match TimestampAt(path, t)
      case Err(e) => Err(e)
      case Ok(ts) => Ok(TimestampBetween(from, to, t.(trxnTimestamp := ts)))
  }

  /** amountGte over the attribute named `path`. */
  function AmountGteAt(path: string, min: Option<Decimals.Decimal>, t: Transaction): Result<bool, QueryError> {
    match min
    case None => Ok(true)
    case Some(m) =>
      match AmountAt(path, t)
      case Err(e) => Err(e)
      case Ok(amount) => Ok(Decimals.LessEq(m, amount))
  }

  /** amountLte over the attribute named `path`. */
  function AmountLteAt(path: string, max: Option<Decimals.Decimal>, t: Transaction): Result<bool, QueryError> {
    match max
    case None => Ok(true)
    case Some(m) =>
      match AmountAt(path, t)
      case Err(e) => Err(e)
      case Ok(amount) => Ok(Decimals.LessEq(amount, m))
  }

  /** As written, the three paths withFilters uses name attributes but the two range paths
      do not: every range filter given a bound fails instead of filtering, and only an
      absent bound behaves as intended. */
  lemma RangeFiltersFailAsWritten(from: Option<DateTime.Timestamp>, to: Option<DateTime.Timestamp>,
                                  min: Option<Decimals.Decimal>, max: Option<Decimals.Decimal>, t: Transaction)
    ensures CustomerIdPath in Attributes && AccountNumberPath in Attributes && DescriptionPath in Attributes
    ensures TimestampPath !in Attributes && AmountPath !in Attributes
    ensures from.Some? || to.Some? ==> TimestampBetweenAt(TimestampPath, from, to, t) == Err(UnknownAttribute("trxTimestamp"))
    ensures min.Some? ==> AmountGteAt(AmountPath, min, t) == Err(UnknownAttribute("trxAmount"))
    ensures max.Some? ==> AmountLteAt(AmountPath, max, t) == Err(UnknownAttribute("trxAmount"))
  {
  }

  /** With the entity's attribute names the same code computes the intended filters. */
  lemma CorrectedPathsFilter(from: Option<DateTime.Timestamp>, to: Option<DateTime.Timestamp>,
                             min: Option<Decimals.Decimal>, max: Option<Decimals.Decimal>, t: Transaction)
    ensures "trxnTimestamp" in Attributes && "trxnAmount" in Attributes
    ensures TimestampBetweenAt("trxnTimestamp", from, to, t) == Ok(TimestampBetween(from, to, t))
    ensures AmountGteAt("trxnAmount", min, t) == Ok(AmountGte(min, t))
    ensures AmountLteAt("trxnAmount", max, t) == Ok(AmountLte(max, t))
  {
    assert t.(trxnTimestamp := t.trxnTimestamp) == t;
  }
}

=== FILE: transaction.dfy ===
/** The persisted transaction record. `id` and `version` are the database-assigned
    identity and optimistic-lock counter, absent until the record is saved. */
module Transactions {
  import opened Results
  import Decimals
  import DateTime

  datatype Transaction = Transaction(
    id: Option<int>,
    accountNumber: int,
    trxnAmount: Decimals.Decimal,
    description: string,
    trxnTimestamp: DateTime.Timestamp,
    customerId: int,
    version: Option<int>,
    processed: bool)

  /** A record as the batch reader builds it with the no-argument constructor and
      setters: no identity or version yet, and not processed. */
  function Fresh(accountNumber: int, trxnAmount: Decimals.Decimal, description: string,
                 trxnTimestamp: DateTime.Timestamp, customerId: int): (t: Transaction)
    ensures t.id.None? && t.version.None? && !t.processed
  {
    Transaction(None, accountNumber, trxnAmount, description, trxnTimestamp, customerId, None, false)
  }

  predicate IsFresh(t: Transaction) {
    t.id.None? && t.version.None? && !t.processed
  }
}

=== FILE: update_request.dfy ===
/** The body of an update request and its bean-validation constraints on `description`:
    @NotBlank (not null, and not only characters trim() removes) and @Size(max = 255),
    which counts String.length(), the UTF-16 code units, and accepts null. */
module UpdateRequests {
  import opened Results
  import opened JavaString

  const MaxDescriptionLength: nat := 255
  const RequiredMessage: string := "Description is required"
  const TooLongMessage: string := "Description too long"

  datatype UpdateTransactionRequest = UpdateTransactionRequest(description: Option<string>)

  /** A failed constraint: the property and the constraint's message. */
  datatype Violation = Violation(field: string, message: string)

  predicate NotBlank(s: Option<string>) {
    s.Some? && !IsBlank(s.value)
  }

  predicate SizeOk(s: Option<string>) {
    s.None? || Utf16Length(s.value) <= MaxDescriptionLength
  }

  /** The violations of a request. The validator reports them as a set; the model lists
      @NotBlank's first. */
  function Violations(r: UpdateTransactionRequest): (vs: seq<Violation>)
    ensures |vs| <= 2
    ensures Violation("description", RequiredMessage) in vs <==> !NotBlank(r.description)
    ensures Violation("description", TooLongMessage) in vs <==> !SizeOk(r.description)
    ensures forall v :: v in vs ==> v.field == "description"
  {
    (if NotBlank(r.description) then [] else [Violation("description", RequiredMessage)])
      + (if SizeOk(r.description) then [] else [Violation("description", TooLongMessage)])
  }

  predicate IsValid(r: UpdateTransactionRequest) {
    Violations(r) == []
  }

  /** A request is valid exactly when its description is present, not blank, and at
      most 255 UTF-16 code units long. */
  lemma ValidIff(r: UpdateTransactionRequest)
    ensures IsValid(r) <==>
      r.description.Some? && !IsBlank(r.description.value) && Utf16Length(r.description.value) <= MaxDescriptionLength
  {
    if !IsValid(r) {
      var v := Violations(r)[0];
      assert v in Violations(r);
    }
  }

  /** The three ways to fail, each with its message. */
  lemma InvalidCases(s: string)
    ensures Violations(UpdateTransactionRequest(None)) == [Violation("description", RequiredMessage)]
    ensures IsBlank(s) && Utf16Length(s) <= MaxDescriptionLength ==>
      Violations(UpdateTransactionRequest(Some(s))) == [Violation("description", RequiredMessage)]
    ensures !IsBlank(s) && Utf16Length(s) > MaxDescriptionLength ==>
      Violations(UpdateTransactionRequest(Some(s))) == [Violation("description", TooLongMessage)]
  {
  }

  /** Characters outside the Basic Multilingual Plane count twice: 128 of them are already
      too long, while as many characters of the plane are accepted. */
  lemma SupplementaryCountsTwice(s: string)
    requires |s| == 128
    ensures (forall i :: 0 <= i < |s| ==> IsSupplementary(s[i])) ==>
      Violations(UpdateTransactionRequest(Some(s))) == [Violation("description", TooLongMessage)]
    ensures (forall i :: 0 <= i < |s| ==> !IsSupplementary(s[i]) && !IsTrimmable(s[i])) ==>
      IsValid(UpdateTransactionRequest(Some(s)))
  {
    Utf16LengthCounts(s);
    if forall i :: 0 <= i < |s| ==> IsSupplementary(s[i]) {
      assert !IsTrimmable(s[0]);
    }
    if forall i :: 0 <= i < |s| ==> !IsSupplementary(s[i]) && !IsTrimmable(s[i]) {
      assert !IsTrimmable(s[0]);
    }
  }
}
